=== FILE: README.md ===
# call_backend in Dafny

A Dafny model of the core of the call_backend service: a Spring application that pairs users into one-to-one video calls and relays chat, typing and WebRTC signalling between server instances. The Java code is modelled as pure functions over immutable state, and the model is proved against the behaviour the code implements.

The model has four parts, one Dafny module per Java class or group of classes:

- **AVL tree** (`avl_tree.dfy`, module `AvlTree`). `AVLNode`/`AVLTree` become an inductive `Tree<T>` with a ghost key→data map `ToMap`.
  - Insertion and deletion are proved to keep the tree ordered, with correct stored heights and balance factors in -1..1.
  - They are also proved to change the map exactly as a map insert or remove does.
  - The rotations are proved to keep the in-order sequence.
  - The traversal is proved to list the data in strictly ascending key order.
  - The node count equals the number of keys.
- **Tree caches and the entity services**:
  - `entity_cache.dfy`: the repository plus AVL tree pair behind `UserTree`, `CallTree`, `ChatMessageTree`, `CallRatingTree` and `FollowTree`.
  - `entities.dfy`: the entities and the service errors.
  - `users.dfy`, `calls.dfy`, `follows.dfy`, `chat_messages.dfy`, `ratings.dfy`: `UserService`, `CallService`, `FollowService`/`FollowTree`, `ChatMessageService` and `CallRatingService`.
  - Each validation is a `Result` with the error the Java code throws, checked in the same order as in the code.
- **Matchmaking and call lifecycle**:
  - `match_store.dfy`: `RedisMatchmakingService`, with the queue as a sequence and the in-call markers and sessions as maps.
  - `matchmaking.dfy`: `MatchmakingService`, as one state of store, call table, user table and sent notifications.
  - Every public method is a transition on that state.
- **Cross-instance relay**:
  - `relay.dfy`: `RedisWebSocketBroadcastService`, `MessageHandlerFactory` and the handlers. It covers the local fast path, the listener's three-way decision, the bounded retry chain, destination classification and first-match dispatch.
  - `controller.dfy`: the `WebSocketController` guards and recipient choice that feed the relay.

`wrappers.dfy` holds `Option`/`Result`. `repository.dfy` holds the "first row of an id-ordered listing" query that several services rely on.

Conventions:

- Clock readings are whole-second `now` inputs.
- Ids the database generates are `newId` inputs that must be fresh.
- Environmental facts are boolean or sequence inputs. Examples: whether a lookup throws, whether a user is registered on this server, and what each retry check observes.
- Java's `(int)` cast of a call duration is modelled as 32-bit two's-complement wrap-around (`Entities.Int32Wrap`).

Several properties state behaviour that follows from the code as written and may surprise a reader:

- `Matchmaking.StaleRecoveryKeepsPartner`: stale-marker recovery in `joinQueue` removes the user's own marker before reading the partner from it. The partner's marker therefore survives. `getPartnerUserId` is called by `MatchmakingService` but `RedisMatchmakingService` does not define it; it is read here as a lookup of the user's own marker.
- `Matchmaking.EndCallRepeats`: `endCall` does not check the call's status, so a repeated end-call completes the call again and notifies both users again.
- `Relay.KnownHandlersCoverage`: `KnownHandlers` lists the three modelled handler classes (chat, call-ended and error). With that list, and only with that list, typing, WebRTC and match-found messages find no handler. Other `MessageHandler` beans are not part of this model; the handler list is a parameter of every relay operation.
- `ChatMessages.BlankUpdateBreaksMirroring`: `updateMessage` sets the new text on the instance the tree cache holds before saving it. When the save refuses a blank text, the tree keeps serving the blank text while the repository keeps the old one.
- `Controller.Recipient`: the typing indicator does not check that the sender takes part in the call. A stranger's indicator goes to `user1`.

## Model

| member | source | states |
|---|---|---|
| AvlTree.NewNode | src/main/java/com/group_call/call_backend/tree/AVLNode.java:11-17 | a new node holds the given key and data, has no children and height 1, and is a one-entry AVL tree |
| AvlTree.Search | src/main/java/com/group_call/call_backend/tree/AVLTree.java:168-183 | on an ordered tree the lookup finds a key exactly when the key is stored, and returns the data stored under it |
| AvlTree.SearchNodeFinds | src/main/java/com/group_call/call_backend/tree/AVLTree.java:173-183 | the recursive descent reaches a node exactly when the key is in the tree, and that node carries the key and its data |
| AvlTree.HeightNonNegative | src/main/java/com/group_call/call_backend/tree/AVLTree.java:15-17 | `height`: wherever the stored heights are correct, the height of a tree is never negative and is at least 1 for a node (0 for null) |
| AvlTree.BalanceFactor | src/main/java/com/group_call/call_backend/tree/AVLTree.java:19-21 | `getBalance`: 0 for null, and within [-1, 1] for every node of a balanced tree |
| AvlTree.UpdateHeight | src/main/java/com/group_call/call_backend/tree/AVLTree.java:23-27 | `updateHeight` changes no key, data or traversal order, keeps an ordered tree ordered, and makes the node's stored height correct once its children's are |
| AvlTree.SearchNode | src/main/java/com/group_call/call_backend/tree/AVLTree.java:173-183 | `searchNode` returns null or a node holding exactly the sought key, which is then a key of the tree |
| AvlTree.InOrder | src/main/java/com/group_call/call_backend/tree/AVLTree.java:185-197 | `inOrderTraversal` is empty exactly for the empty tree; its order and contents are stated in InOrderSorted |
| AvlTree.Size | src/main/java/com/group_call/call_backend/tree/AVLTree.java:207-216 | `size` is 0 exactly for the empty tree; SizeIsKeyCount equates it with the number of keys |
| AvlTree.IsEmpty | src/main/java/com/group_call/call_backend/tree/AVLTree.java:203-205 | a tree is empty exactly when its size is 0 and it maps no key |
| AvlTree.Clear | src/main/java/com/group_call/call_backend/tree/AVLTree.java:199-201 | clearing leaves a valid tree with no keys, size 0 and an empty traversal |
| AvlTree.RotateRight | src/main/java/com/group_call/call_backend/tree/AVLTree.java:29-40 | a right rotation keeps the in-order sequence of keys and data, and keeps an ordered tree ordered with the same key-to-data map |
| AvlTree.RotateLeft | src/main/java/com/group_call/call_backend/tree/AVLTree.java:42-53 | a left rotation keeps the in-order sequence of keys and data, and keeps an ordered tree ordered with the same key-to-data map |
| AvlTree.InsertRebalance | src/main/java/com/group_call/call_backend/tree/AVLTree.java:73-95 | after one insertion step the four rotation cases restore a valid AVL node with unchanged contents, one level lower when a rotation fires |
| AvlTree.InsertNode | src/main/java/com/group_call/call_backend/tree/AVLTree.java:59-96 | insertion keeps the tree a valid AVL tree (ordered, heights stored correctly, balanced) and its map becomes the old map with the key set to the new data, so a duplicate key only has its data replaced |
| AvlTree.InsertThenSearch | src/main/java/com/group_call/call_backend/tree/AVLTree.java:55-71 | after insert the key is found with the new data, every other key answers as before, and the size grows by one exactly when the key was absent |
| AvlTree.MinNode | src/main/java/com/group_call/call_backend/tree/AVLTree.java:160-166 | the leftmost node holds the smallest key of an ordered tree, with its data |
| AvlTree.DeleteRebalance | src/main/java/com/group_call/call_backend/tree/AVLTree.java:128-157 | after one deletion step the four rotation cases restore a valid AVL node with unchanged contents and at most one level less height |
| AvlTree.DeleteNode | src/main/java/com/group_call/call_backend/tree/AVLTree.java:102-158 | deletion, through the in-order successor when the node has two children, keeps the tree a valid AVL tree and removes exactly the key from its map |
| AvlTree.DeleteThenSearch | src/main/java/com/group_call/call_backend/tree/AVLTree.java:98-100 | after delete the key is absent, every other key answers as before, and the size drops by one exactly when the key was present |
| AvlTree.InOrderSorted | src/main/java/com/group_call/call_backend/tree/AVLTree.java:185-197 | the traversal lists the data of an ordered tree in strictly ascending key order, one entry per stored key, each with its own data |
| AvlTree.SizeIsKeyCount | src/main/java/com/group_call/call_backend/tree/AVLTree.java:207-216 | the recursive node count of an ordered tree equals the number of distinct keys it stores |
| AvlTree.ReplaceData | src/main/java/com/group_call/call_backend/tree/AVLNode.java:31-33 | replacing a node's data keeps the tree valid and changes only the entry for that node's key |
| Entities.NewCall | src/main/java/com/group_call/call_backend/entity/CallEntity.java:44-48 | a fresh call is a VIDEO call in status ACTIVE with no end time and no duration |
| Entities.Finish | src/main/java/com/group_call/call_backend/service/CallService.java:61-67 | finishing a call sets the end time and the final status, stores a duration within the 32-bit range, and keeps the participants, start time and type |
| Entities.FinishDuration | src/main/java/com/group_call/call_backend/service/CallService.java:64-66 | the stored duration is the elapsed seconds while they fit in an int, and a call of exactly 2^31 seconds wraps to a negative duration as the (int) cast does |
| Entities.IsBlank | src/main/java/com/group_call/call_backend/entity/ChatMessageEntity.java:34-36 | the `@NotBlank` rule, defined as `trim()` leaving nothing, holds exactly when every character is at most U+0020 |
| Entities.Int32Wrap | src/main/java/com/group_call/call_backend/service/CallService.java:66 | narrowing keeps a value congruent to the input modulo 2^32 inside the int range, and leaves in-range values alone |
| Repository.LeastKeyWhere | src/main/java/com/group_call/call_backend/service/MatchmakingService.java:67-82 | the first matching row of an id-ordered listing: none exactly when no row matches, otherwise a matching row whose id is the smallest among matches |
| EntityCache.LoadTree | src/main/java/com/group_call/call_backend/tree/UserTree.java:19-25 | inserting the repository rows one by one yields a valid tree holding the map those rows describe |
| EntityCache.LoadFromDatabase | src/main/java/com/group_call/call_backend/tree/UserTree.java:19-25 | after a reload the tree mirrors the repository exactly |
| EntityCache.Add | src/main/java/com/group_call/call_backend/tree/UserTree.java:27-31 | saving a row stores it in the repository and in the tree under its id and keeps a mirroring cache mirroring |
| EntityCache.Update | src/main/java/com/group_call/call_backend/tree/UserTree.java:33-38 | an update stores the new row in the repository and keeps a mirroring cache mirroring |
| EntityCache.UpdateLikeAdd | src/main/java/com/group_call/call_backend/tree/UserTree.java:33-38 | delete-then-insert leaves the same tree contents as a plain insert, the new row is found, and the size is unchanged for a known id |
| EntityCache.Remove | src/main/java/com/group_call/call_backend/tree/UserTree.java:40-43 | removing a row drops exactly that id from both the repository and the tree |
| EntityCache.FindById | src/main/java/com/group_call/call_backend/tree/UserTree.java:45-47 | the cache lookup answers exactly for the ids the tree holds, with the cached row |
| EntityCache.AllSorted | src/main/java/com/group_call/call_backend/tree/UserTree.java:53-55 | the sorted listing has one entry per cached id |
| EntityCache.AllSortedAscending | src/main/java/com/group_call/call_backend/tree/UserTree.java:53-55 | the listing is the cached rows in strictly increasing id order, and every cached id appears in it |
| EntityCache.TreeInsert | src/main/java/com/group_call/call_backend/service/UserService.java:96-99 | a sync insert changes the tree only, setting the one id |
| EntityCache.TreeDelete | src/main/java/com/group_call/call_backend/service/FollowService.java:110-113 | a tree-only delete removes the one id from the tree and leaves the repository alone |
| Users.FindByEmail | src/main/java/com/group_call/call_backend/tree/UserTree.java:49-51 | the email query finds nothing exactly when no stored user has the email, and otherwise a stored user with that email |
| Users.FindById | src/main/java/com/group_call/call_backend/service/UserService.java:28-37 | the tree is consulted first, then the repository; the lookup fails with "user not found" exactly when neither holds the id |
| Users.FindUserByEmail | src/main/java/com/group_call/call_backend/service/UserService.java:39-48 | fails exactly when no stored user has the email, otherwise returns a stored user with it |
| Users.EmailExists | src/main/java/com/group_call/call_backend/service/UserService.java:85-87 | true exactly when some stored user has the email |
| Users.CreateUser | src/main/java/com/group_call/call_backend/service/UserService.java:21-26 | a user whose email is already taken is refused with that error; otherwise it is saved under the new id in repository and tree |
| Users.CreateUserKeepsInvariants | src/main/java/com/group_call/call_backend/service/UserService.java:21-26 | creating a user keeps emails unique, every row keyed by its own id, and the tree mirroring the repository |
| Users.UpdateUser | src/main/java/com/group_call/call_backend/service/UserService.java:54-66 | an unknown id fails; a success stores the row under the same id and the tree then returns it; keeping the email always succeeds |
| Users.UpdateUserEmailRule | src/main/java/com/group_call/call_backend/service/UserService.java:57-62 | when the email changes, the update is refused exactly when another user already holds the new email |
| Users.UpdateOnlineStatus | src/main/java/com/group_call/call_backend/service/UserService.java:68-72 | fails exactly for an unknown user |
| Users.UpdateActiveStatus | src/main/java/com/group_call/call_backend/service/UserService.java:74-78 | fails exactly for an unknown user |
| Users.StatusUpdatesChangeOneFlag | src/main/java/com/group_call/call_backend/service/UserService.java:68-78 | each status update changes only its own flag of the one user and leaves every other user as it was |
| Users.DeleteUser | src/main/java/com/group_call/call_backend/service/UserService.java:80-83 | an unknown user fails; otherwise the id leaves both repository and tree |
| Users.SyncUserAction | src/main/java/com/group_call/call_backend/service/UserService.java:93-107 | ADD copies a stored user into the tree (nothing for an unknown id), REMOVE deletes it everywhere, any other action is rejected |
| Users.SyncUserIdempotent | src/main/java/com/group_call/call_backend/service/UserService.java:93-107 | replaying the same sync action leaves repository and tree as the first one left them, and ADD makes the stored row findable |
| Calls.FindById | src/main/java/com/group_call/call_backend/service/CallService.java:41-44 | succeeds exactly for a stored call, else fails with "call not found" |
| Calls.CreateCall | src/main/java/com/group_call/call_backend/service/CallService.java:23-39 | both users are looked up first, then a self-call is refused; a new ACTIVE call between them starting now, of the given type or VIDEO, is added under the new id |
| Calls.Close | src/main/java/com/group_call/call_backend/service/CallService.java:54-88 | ending or cancelling needs a stored ACTIVE call; an unknown call or one already finished is refused, otherwise only that call is finished with the given status |
| Calls.EndCall | src/main/java/com/group_call/call_backend/service/CallService.java:54-70 | succeeds exactly for an ACTIVE call, which becomes COMPLETED |
| Calls.CancelCall | src/main/java/com/group_call/call_backend/service/CallService.java:72-88 | succeeds exactly for an ACTIVE call, which becomes CANCELLED |
| Calls.CloseIsFinal | src/main/java/com/group_call/call_backend/service/CallService.java:57-59 | a finished call cannot be ended or cancelled again, and closing one call leaves all other calls and the set of ids unchanged |
| Calls.UpdateCallType | src/main/java/com/group_call/call_backend/service/CallService.java:90-94 | an unknown call fails; otherwise the set of calls is the same and only that call's type changes |
| Calls.DeleteCall | src/main/java/com/group_call/call_backend/service/CallService.java:96-101 | an unknown call fails; otherwise exactly that call is removed |
| MatchStore.LeftPop | src/main/java/com/group_call/call_backend/service/RedisMatchmakingService.java:43-45 | popping the queue head returns the first element and the rest, and nothing on an empty queue |
| MatchStore.JoinQueue | src/main/java/com/group_call/call_backend/service/RedisMatchmakingService.java:31-36 | a join appends the user at the tail, leaving presence and sessions alone |
| MatchStore.LeaveQueue | src/main/java/com/group_call/call_backend/service/RedisMatchmakingService.java:38-41 | leaving removes the first occurrence of the user (one copy) and nothing else |
| MatchStore.RemoveFirstCount | src/main/java/com/group_call/call_backend/service/RedisMatchmakingService.java:38-41 | removing the first occurrence takes exactly one copy of the user out of the queue when present |
| MatchStore.TryMatch | src/main/java/com/group_call/call_backend/service/RedisMatchmakingService.java:43-58 | with two or more queued users the first two are paired and removed from the front; otherwise nothing changes |
| MatchStore.QueueSize | src/main/java/com/group_call/call_backend/service/RedisMatchmakingService.java:60-63 | `getQueueSize` counts every queued entry, duplicates included, and is 0 exactly for the empty queue |
| MatchStore.QueueUsers | src/main/java/com/group_call/call_backend/service/RedisMatchmakingService.java:65-71 | `getQueueUsers` returns the whole queue head first; the early return for size 0 agrees with the full range |
| MatchStore.QueueSizeTracks | src/main/java/com/group_call/call_backend/service/RedisMatchmakingService.java:60-71 | the reported size and listing follow joins, leaves and matches |
| MatchStore.SetUserInCall | src/main/java/com/group_call/call_backend/service/RedisMatchmakingService.java:73-76 | records the partner for the user and nothing else |
| MatchStore.RemoveUserFromCall | src/main/java/com/group_call/call_backend/service/RedisMatchmakingService.java:78-81 | removes the user's presence entry and nothing else |
| MatchStore.GetPartnerUserId | src/main/java/com/group_call/call_backend/service/MatchmakingService.java:56-59 | a partner is known exactly while the user has a presence entry, and it is the recorded partner |
| MatchStore.IsUserInCall | src/main/java/com/group_call/call_backend/service/RedisMatchmakingService.java:83-86 | true exactly while the user's presence key exists; PresenceFollowsLastWrite states its value after any sequence of writes |
| MatchStore.SaveUserSession | src/main/java/com/group_call/call_backend/service/RedisMatchmakingService.java:88-91 | `saveUserSession` overwrites the user's session and leaves the queue and the presence markers alone |
| MatchStore.RemoveUserSession | src/main/java/com/group_call/call_backend/service/RedisMatchmakingService.java:93-96 | `removeUserSession` drops the user's session and leaves the queue and the presence markers alone |
| MatchStore.GetUserSession | src/main/java/com/group_call/call_backend/service/RedisMatchmakingService.java:98-102 | `getUserSession` is empty exactly when the user has no session, and otherwise returns the stored one |
| MatchStore.SessionsAreAMap | src/main/java/com/group_call/call_backend/service/RedisMatchmakingService.java:88-102 | saving then reading a session returns it, removing it makes it absent, and other users' sessions are untouched |
| MatchStore.PresenceFollowsLastWrite | src/main/java/com/group_call/call_backend/service/RedisMatchmakingService.java:73-86 | after any sequence of set/remove writes a user's in-call state is decided by the last write to that user alone |
| MatchStore.ApplySplit | src/main/java/com/group_call/call_backend/service/RedisMatchmakingService.java:73-81 | applying any two batches of writes one after the other equals applying their concatenation at once |
| MatchStore.ClearQueue | src/main/java/com/group_call/call_backend/service/RedisMatchmakingService.java:104-107 | empties the queue only |
| MatchStore.ClearAll | src/main/java/com/group_call/call_backend/service/RedisMatchmakingService.java:109-123 | afterwards the queue is empty and no user is in a call or has a session |
| Matchmaking.ActiveCallOf | src/main/java/com/group_call/call_backend/service/MatchmakingService.java:104-112 | the call ended on disconnect is the lowest-id ACTIVE call containing the user; none exactly when the user has no ACTIVE call |
| Matchmaking.HasActiveCallInDatabase | src/main/java/com/group_call/call_backend/service/MatchmakingService.java:67-82 | true exactly when the lookup does not fail and some ACTIVE call contains the user; a failing lookup counts as no call |
| Matchmaking.StaleRecovery | src/main/java/com/group_call/call_backend/service/MatchmakingService.java:53-60 | the stale in-call marker of the joining user is removed |
| Matchmaking.StaleRecoveryKeepsPartner | src/main/java/com/group_call/call_backend/service/MatchmakingService.java:54-59 | because the marker is removed before the partner is read, the partner's own marker survives the recovery |
| Matchmaking.TryMatch | src/main/java/com/group_call/call_backend/service/MatchmakingService.java:221-283 | with two queued users: the same user twice goes back to the tail; a missing user is dropped and the other re-queued; otherwise an ACTIVE call is created, both are marked in call with each other, and both get a match-found notice naming the other |
| Matchmaking.MatchIsConsistent | src/main/java/com/group_call/call_backend/service/MatchmakingService.java:221-283 | a match never alters existing calls, adds a call exactly when it notifies, and the new call joins two distinct known users who are marked as each other's partner |
| Matchmaking.JoinQueue | src/main/java/com/group_call/call_backend/service/MatchmakingService.java:47-65 | refused with "already in a call" exactly when the user is marked in call and the database shows an ACTIVE call; otherwise the user is enqueued without a marker and matching runs |
| Matchmaking.LeaveQueue | src/main/java/com/group_call/call_backend/service/MatchmakingService.java:84-86 | the first copy of the user leaves the queue, the rest keep their order, and an absent user leaves the queue unchanged; presence and sessions do not change |
| Matchmaking.RegisterSession | src/main/java/com/group_call/call_backend/service/MatchmakingService.java:38-40 | the session map gains (or overwrites) exactly the user's entry; queue and presence are untouched |
| Matchmaking.UnregisterSession | src/main/java/com/group_call/call_backend/service/MatchmakingService.java:42-45 | exactly the user's session entry is removed, and so is their first queue entry, the rest of the queue keeping its order |
| Matchmaking.EndActiveCallForUser | src/main/java/com/group_call/call_backend/service/MatchmakingService.java:104-152 | the user's ACTIVE call is completed, both participants lose their markers, and the partner is told the call ended because the partner disconnected |
| Matchmaking.CleanupUserOnDisconnect | src/main/java/com/group_call/call_backend/service/MatchmakingService.java:88-102 | a disconnect removes the first queue entry of the user keeping the order of the rest, ends the active call with the same calls, notices and cleared presence markers as endActiveCallForUser, drops the session and marks the user offline |
| Matchmaking.CleanupRepeatSendsNothing | src/main/java/com/group_call/call_backend/service/MatchmakingService.java:88-152 | after a clean-up the user has no ACTIVE call, so a second clean-up changes no call and sends nothing |
| Matchmaking.NextPerson | src/main/java/com/group_call/call_backend/service/MatchmakingService.java:154-175 | leaving a partner tells the partner, clears both markers and rejoins the queue; no existing call is altered |
| Matchmaking.EndCall | src/main/java/com/group_call/call_backend/service/MatchmakingService.java:177-208 | a known call is completed, both participants lose their markers and both are told; an unknown call changes nothing |
| Matchmaking.EndCallRepeats | src/main/java/com/group_call/call_backend/service/MatchmakingService.java:177-208 | nothing stops a second end-call: the call is completed again with the later end time and both users are notified twice |
| Matchmaking.GetUserCallId | src/main/java/com/group_call/call_backend/service/MatchmakingService.java:293-298 | a user with a marker gets -1, a user without one gets nothing |
| Matchmaking.ForceCleanupCallState | src/main/java/com/group_call/call_backend/service/MatchmakingService.java:304-316 | removes the user's in-call marker and nothing else |
| Follows.Filter | src/main/java/com/group_call/call_backend/tree/FollowTree.java:43-52 | a filtered listing holds exactly the elements that pass, and never more than the input |
| Follows.FilterKeepsIdOrder | src/main/java/com/group_call/call_backend/tree/FollowTree.java:43-63 | filtering an id-ordered listing keeps it id-ordered |
| Follows.FirstWhere | src/main/java/com/group_call/call_backend/tree/FollowTree.java:65-74 | finds the first matching position, and none exactly when nothing matches |
| Follows.FindByFollowerId | src/main/java/com/group_call/call_backend/tree/FollowTree.java:43-52 | every follow returned has the given follower and is a cached row |
| Follows.FindByFollowingId | src/main/java/com/group_call/call_backend/tree/FollowTree.java:54-63 | every follow returned has the given followed user and is a cached row |
| Follows.FindersAreExact | src/main/java/com/group_call/call_backend/tree/FollowTree.java:43-63 | the two listings hold exactly the cached follows of the user, in increasing id order |
| Follows.FindByFollowerAndFollowing | src/main/java/com/group_call/call_backend/tree/FollowTree.java:65-74 | returns a cached follow of the pair, and none exactly when no cached follow links them |
| Follows.PairFinderIsLowest | src/main/java/com/group_call/call_backend/tree/FollowTree.java:65-74 | when duplicates exist, the follow returned is the one with the lowest id |
| Follows.DoFollow | src/main/java/com/group_call/call_backend/service/FollowService.java:34-56 | self-follow is refused first, then an unknown follower, then an unknown followee, then an existing follow of the pair; otherwise the new follow is saved under the new id |
| Follows.FollowThenIsFollowing | src/main/java/com/group_call/call_backend/service/FollowService.java:34-56 | after a successful follow the pair is reported as following |
| Follows.Unfollow | src/main/java/com/group_call/call_backend/service/FollowService.java:59-69 | fails exactly when the pair has no follow; otherwise that follow's id is removed from repository and tree |
| Follows.UnfollowThenNotFollowing | src/main/java/com/group_call/call_backend/service/FollowService.java:59-69 | with at most one follow per pair, after unfollowing the pair is no longer following |
| Follows.IsFollowing | src/main/java/com/group_call/call_backend/service/FollowService.java:87-89 | true exactly when some cached follow links the pair |
| Follows.GetFollowing | src/main/java/com/group_call/call_backend/service/FollowService.java:71-77 | an unknown user fails; otherwise the followed users in listing order, as many as the count reports |
| Follows.GetFollowers | src/main/java/com/group_call/call_backend/service/FollowService.java:79-85 | an unknown user fails; otherwise the followers in listing order, as many as the count reports |
| Follows.CountFollowing | src/main/java/com/group_call/call_backend/service/FollowService.java:91-93 | never more than the number of cached follows |
| Follows.CountFollowers | src/main/java/com/group_call/call_backend/service/FollowService.java:95-97 | never more than the number of cached follows |
| Follows.SyncFollowAction | src/main/java/com/group_call/call_backend/service/FollowService.java:103-118 | never fails; ADD inserts only a stored follow not yet cached, REMOVE drops the cached one, anything else is ignored; the repository never changes |
| Follows.SyncFollowIdempotent | src/main/java/com/group_call/call_backend/service/FollowService.java:103-118 | a replayed sync action changes nothing, and ADD of a stored follow leaves it cached |
| ChatMessages.CreateMessage | src/main/java/com/group_call/call_backend/service/ChatMessageService.java:28-46 | checks in order: the call exists, the sender exists, the sender takes part, the call is ACTIVE, and the save refuses a blank text (the @NotBlank rule of the entity); then the message is saved under the new id |
| ChatMessages.NoMessageAfterCallEnds | src/main/java/com/group_call/call_backend/service/ChatMessageService.java:36-38 | no message is ever stored in a call that is not ACTIVE; a participant gets the "call finished" refusal |
| ChatMessages.FindById | src/main/java/com/group_call/call_backend/service/ChatMessageService.java:48-57 | tree first then repository; fails exactly when neither has the message |
| ChatMessages.GetAllMessages | src/main/java/com/group_call/call_backend/service/ChatMessageService.java:59-61 | one entry per cached message |
| ChatMessages.FindByCallId | src/main/java/com/group_call/call_backend/service/ChatMessageService.java:63-66 | an unknown call fails; otherwise the listing of that call's messages, one per stored message |
| ChatMessages.CountMessagesByCallId | src/main/java/com/group_call/call_backend/service/ChatMessageService.java:86-88 | an unknown call fails; otherwise the number of stored messages of that call |
| ChatMessages.ListingCount | src/main/java/com/group_call/call_backend/service/ChatMessageService.java:79-88 | a listing of distinct ids of a call's messages has exactly as many entries as the call has messages |
| ChatMessages.DeleteMessagesByCallId | src/main/java/com/group_call/call_backend/service/ChatMessageService.java:79-84 | an unknown call fails; otherwise exactly that call's messages leave repository and tree |
| ChatMessages.UpdateMessage | src/main/java/com/group_call/call_backend/service/ChatMessageService.java:68-72 | an unknown message fails with nothing changed; a blank new text is refused by the save after it was already set on the cached instance, so the tree serves the blank text while the repository keeps the old one; otherwise the new text is saved and cached |
| ChatMessages.BlankUpdateBreaksMirroring | src/main/java/com/group_call/call_backend/service/ChatMessageService.java:68-72 | a refused blank update of a cached message leaves the tree disagreeing with the repository |
| ChatMessages.DeleteMessage | src/main/java/com/group_call/call_backend/service/ChatMessageService.java:74-77 | an unknown message fails; otherwise it leaves repository and tree |
| ChatMessages.SyncMessageAction | src/main/java/com/group_call/call_backend/service/ChatMessageService.java:94-108 | ADD copies a stored message into the tree, REMOVE deletes it, other actions are rejected |
| ChatMessages.SyncMessageIdempotent | src/main/java/com/group_call/call_backend/service/ChatMessageService.java:94-108 | a replayed message sync action changes nothing more |
| Ratings.CreateRating | src/main/java/com/group_call/call_backend/service/CallRatingService.java:29-52 | the call must exist, the rater exist and take part, the call be finished and the rating lie in 1..5; then the rating is saved |
| Ratings.CreateKeepsRatingsInRange | src/main/java/com/group_call/call_backend/service/CallRatingService.java:29-52 | creating a rating keeps every stored rating within 1..5 |
| Ratings.UpdateKeepsRatingsInRange | src/main/java/com/group_call/call_backend/service/CallRatingService.java:77-92 | updating a rating keeps every stored rating within 1..5 |
| Ratings.FindById | src/main/java/com/group_call/call_backend/service/CallRatingService.java:54-64 | tree first then repository; fails exactly when neither has the rating |
| Ratings.GetAllRatings | src/main/java/com/group_call/call_backend/service/CallRatingService.java:66-68 | one entry per cached rating |
| Ratings.FindByRatingGreaterThanEqual | src/main/java/com/group_call/call_backend/service/CallRatingService.java:70-75 | a threshold outside 1..5 is refused; otherwise exactly the stored ratings at or above it |
| Ratings.FindTopRatings | src/main/java/com/group_call/call_backend/service/CallRatingService.java:99-101 | exactly the stored ratings of 5 |
| Ratings.FindPositiveRatings | src/main/java/com/group_call/call_backend/service/CallRatingService.java:103-105 | exactly the stored ratings of 4 or more |
| Ratings.ThresholdsNest | src/main/java/com/group_call/call_backend/service/CallRatingService.java:70-105 | a higher threshold selects a subset; every top rating is positive and equals 5 |
| Ratings.UpdateRating | src/main/java/com/group_call/call_backend/service/CallRatingService.java:77-92 | an unknown rating fails, an out-of-range new rating is refused before anything changes; absent fields are kept, present ones replaced, nothing else changes |
| Ratings.DeleteRating | src/main/java/com/group_call/call_backend/service/CallRatingService.java:94-97 | an unknown rating fails and deletes nothing; otherwise exactly that rating is removed |
| Relay.BroadcastEnvelope | src/main/java/com/group_call/call_backend/service/RedisWebSocketBroadcastService.java:115-173 | each broadcast method builds a message with its own fixed type and destination for the given target and payload |
| Relay.DetermineMessageType | src/main/java/com/group_call/call_backend/service/RedisWebSocketBroadcastService.java:187-195 | the first keyword the destination contains, in the order chat, typing, webrtc, match, call-ended, error, decides the type, each case an exact if-and-only-if; a destination with none of them is chat |
| Relay.MissingChar | src/main/java/com/group_call/call_backend/service/RedisWebSocketBroadcastService.java:187-195 | a destination lacking any character of a keyword does not contain the keyword |
| Relay.MatchFoundIsNotChat | src/main/java/com/group_call/call_backend/service/RedisWebSocketBroadcastService.java:188 | the match-found destination does not contain "chat" |
| Relay.DestinationRoundTrip | src/main/java/com/group_call/call_backend/service/RedisWebSocketBroadcastService.java:115-195 | classifying the destination of any broadcast method gives back that method's type |
| Relay.BroadcastToUser | src/main/java/com/group_call/call_backend/service/RedisWebSocketBroadcastService.java:175-185 | the type follows the destination; a map payload passes unchanged, any other non-null value is wrapped as the single entry "data", and a null payload builds no message at all because Map.of rejects it |
| Relay.BroadcastToUserAgrees | src/main/java/com/group_call/call_backend/service/RedisWebSocketBroadcastService.java:115-185 | sending a map to a fixed destination through the generic method builds the same message as the matching broadcast method |
| Relay.Handle | src/main/java/com/group_call/call_backend/websocket/handler/ChatMessageHandler.java:16-30 | at most one send; the chat handler sends only a non-empty payload, any send goes to the target at the message's destination with the payload unchanged, and a failing send is swallowed |
| Relay.Supports | src/main/java/com/group_call/call_backend/websocket/handler/ChatMessageHandler.java:32-35 | each handler supports exactly its own type (chat, call-ended, error); typing, WebRTC and match-found messages are supported by none |
| Relay.FirstSupporting | src/main/java/com/group_call/call_backend/websocket/handler/MessageHandlerFactory.java:22-31 | the first handler in list order that supports the message, and none exactly when no handler supports it |
| Relay.ProcessMessage | src/main/java/com/group_call/call_backend/websocket/handler/MessageHandlerFactory.java:22-31 | exactly the first supporting handler runs, at most one delivery results, and an unsupported type delivers nothing |
| Relay.LaterHandlersIgnored | src/main/java/com/group_call/call_backend/websocket/handler/MessageHandlerFactory.java:23-27 | handlers listed after the first supporting one never influence the outcome |
| Relay.KnownHandlersCoverage | src/main/java/com/group_call/call_backend/websocket/handler/ChatMessageHandler.java:32-35 | with exactly the three modelled handlers (chat, call-ended, error) those three types are delivered and typing, WebRTC and match-found messages find no handler in that list |
| Relay.PublishToRedis | src/main/java/com/group_call/call_backend/service/RedisWebSocketBroadcastService.java:197-216 | a locally connected target is served directly and nothing is published; otherwise, or when direct delivery throws, the message is published unchanged unless serialisation fails, in which case it is lost |
| Relay.OnReceive | src/main/java/com/group_call/call_backend/service/RedisWebSocketBroadcastService.java:64-83 | a locally registered target is processed whoever sent it; otherwise only the originating server starts a retry chain of 3 attempts, and any other server ignores the message |
| Relay.RetryChain | src/main/java/com/group_call/call_backend/service/RedisWebSocketBroadcastService.java:98-113 | delivers at the first check that finds the user, within the allowed attempts; drops exactly when every allowed check fails |
| Relay.RetryBound | src/main/java/com/group_call/call_backend/service/RedisWebSocketBroadcastService.java:32 | a retry chain makes at most three checks and drops the message exactly when the first three all fail |
| Relay.Receive | src/main/java/com/group_call/call_backend/service/RedisWebSocketBroadcastService.java:68-113 | a received message yields at most one delivery, always to its target at its destination with its payload; a foreign message for an absent user yields none; a message from this server for an absent user is delivered exactly when one of the three retry checks finds the user |
| Relay.ForeignMessagesIgnored | src/main/java/com/group_call/call_backend/service/RedisWebSocketBroadcastService.java:76-78 | a server that did not originate a message for an absent user ignores it whatever later checks would find |
| Relay.ChatRelayedEndToEnd | src/main/java/com/group_call/call_backend/service/RedisWebSocketBroadcastService.java:115-123 | a non-empty chat message received where its target is registered reaches the target at /queue/chat unchanged |
| Controller.SendError | src/main/java/com/group_call/call_backend/websocket/WebSocketController.java:207-210 | an error goes to the user through the error broadcast with the single entry "error"; nothing else changes |
| Controller.Recipient | src/main/java/com/group_call/call_backend/websocket/WebSocketController.java:151-153 | the recipient is always a participant, the other one when the sender takes part, and user1 when the sender is a stranger |
| Controller.JoinQueue | src/main/java/com/group_call/call_backend/websocket/WebSocketController.java:60-79 | on success the waiting status goes to the user directly; when refused the user gets the refusal as an error and the matchmaking state is unchanged |
| Controller.RejectedJoinSendsOnlyError | src/main/java/com/group_call/call_backend/websocket/WebSocketController.java:75-78 | a user already in a call receives only an error and the queue is untouched |
| Controller.WebRtcSignal | src/main/java/com/group_call/call_backend/websocket/WebSocketController.java:100-126 | a signal without target or call id is rejected and relays nothing; otherwise it is relayed to the target with the sender, target, call id and data |
| Controller.ChatErrorValue | src/main/java/com/group_call/call_backend/websocket/WebSocketController.java:165-171 | IllegalArgumentException failures are reported with their own message; state failures and the refused save of a blank text get the generic "send failed" text |
| Controller.HandleChat | src/main/java/com/group_call/call_backend/websocket/WebSocketController.java:128-172 | a missing or finished call, or a missing sender, yields an error to the sender and nothing is stored or relayed; a blank text yields the generic error; a chat is relayed exactly when the sender takes part and the text is not blank, and then it is stored and sent to the recipient |
| Controller.OutsiderCannotChat | src/main/java/com/group_call/call_backend/websocket/WebSocketController.java:146-149 | a user outside a running call gets the "not part of this call" error and nothing is stored |
| Controller.ChatGoesToPartner | src/main/java/com/group_call/call_backend/websocket/WebSocketController.java:151-164 | a relayed chat goes to a participant other than its sender |
| Controller.HandleTyping | src/main/java/com/group_call/call_backend/websocket/WebSocketController.java:174-199 | a missing or finished call is ignored; otherwise the indicator with the sender and flag goes to the recipient |
| Controller.TypingDefaultsToTyping | src/main/java/com/group_call/call_backend/websocket/WebSocketController.java:179 | an indicator without a flag reports the sender as typing |
| Controller.Logout | src/main/java/com/group_call/call_backend/websocket/WebSocketController.java:201-205 | logout is exactly cleanupUserOnDisconnect for the caller: the same queue removal, ended call, notices and cleared markers, and it sends nothing itself |

## Left out

- Concurrency: the `synchronized` match lock, the non-atomic pair of queue pops across instances, and the retry thread pool. The model is sequential, and retries are counted checks, not timed tasks.
- Time: the 30-minute TTLs on markers and sessions, and the 100 ms retry delay. `LocalDateTime.now()` becomes the `now` input. `sentAt` in a chat response is that number, not a formatted timestamp.
- Transport and serialisation: Redis pub/sub, Jackson, the `Redis*SyncService`/`Redis*SyncListener` plumbing, and the message id (a random UUID) and server identifier (environment or hostname), which are parameters. Exceptions from the messaging template, from direct delivery and from serialisation are boolean inputs.
- Authentication, the HTTP controllers, the DTO mapping and `TreeVisualizationController`: foreign libraries or presentation only.
- Persistence: JPA repositories are maps. Their queries are functions on those maps, and listing order is ascending id. The unique constraints on (follower, following) and (call, rater) are not enforced. `Follows.UnfollowThenNotFollowing` therefore takes pair uniqueness as a precondition. The average-rating query is not modelled.
- `ChatMessages.FindByCallId`: the repository's listing ordered by send time is an input described by `IsCallListing`, not computed.
- `Ratings.FindByRatingGreaterThanEqual`: returns the selected ratings as a map keyed by id, not as a list in repository order.
- Bean validation: only the `@NotBlank` rule on a chat message text is modelled (`Entities.IsBlank`), as a refusal of the save. The `@NotNull` references always hold, because model ids are never null. The `@Min`/`@Max` range of a rating is already checked by the rating service before any save. A null message text is not modelled.
- Exception messages: they are carried as `Error` values (`Relay.Reason`) rather than Portuguese text. Only the controller's literal error texts are kept as strings.
- `reload`/`reloadTree` are `EntityCache.LoadFromDatabase`. `getAllCalls` and `findByStatus` are plain queries and are left out.
- AVLNode getters and setters: they are datatype field reads and updates. Only `setData`, the one setter the tree relies on for a duplicate key, has its own lemma (`AvlTree.ReplaceData`).
- `CallEndedHandler` and `ErrorHandler` contribute only their `supports` type to the dispatch. Their forwarding is the same as the chat handler's, minus the empty-payload filter. A message without a payload is treated as not sent.
- `Relay.RetryChain`: the delay between checks and the scheduler are not modelled. Only the sequence of connectivity observations is.
- Controller: `handleConnect`, `leaveQueue`, `nextPerson` and `endCall` are single delegations to the matchmaking functions of the same name. A malformed `callId` that fails to parse, and an `isTyping` that is present but null, are not modelled.
- `Users.UpdateOnlineStatus` and `Users.UpdateActiveStatus`: their contracts state only the failure case and validity. What they change is stated by `Users.StatusUpdatesChangeOneFlag`.
- `Follows.CountFollowing` and `Follows.CountFollowers`: bounded by the number of cached follows. Their exact value is tied to the listings through `Follows.GetFollowing`/`Follows.GetFollowers`.

=== FILE: avl_tree.dfy ===
/** The generic key -> data AVL tree (AVLNode and AVLTree) that backs every
    in-memory entity cache. Nodes are immutable values here: each Java setter
    becomes a datatype update `n.(field := v)`, and each method that rewires
    children returns the new subtree instead. */
module AvlTree {
  import opened Wrappers

  /** An AVL node; `Nil` plays the part of a null child. `height` is the
      stored height field, which the algorithms keep up to date. */
  datatype Tree<T> = Nil | Node(left: Tree<T>, key: Id, data: T, right: Tree<T>, height: int)

  function Max(a: int, b: int): int {
    if a >= b then a else b
  }

  /** The AVLNode constructor: a leaf holding the key and data, height 1. */
  function NewNode<T>(key: Id, data: T): (n: Tree<T>)
    ensures n.Node? && n.key == key && n.data == data
    ensures n.left == Nil && n.right == Nil && n.height == 1
    ensures Valid(n) && ToMap(n) == map[key := data]
  {
    Node(Nil, key, data, Nil, 1)
  }

  /** `height(node)`: the stored height, 0 for a null node. */
  function Height<T>(t: Tree<T>): int {
    if t.Nil? then 0 else t.height
  }

  /** `getBalance(node)`. */
  function BalanceFactor<T>(t: Tree<T>): (b: int)
    ensures t.Nil? ==> b == 0
    ensures Balanced(t) ==> -1 <= b <= 1
  {
    if t.Nil? then 0 else Height(t.left) - Height(t.right)
  }

  /** `updateHeight(node)`: recompute the stored height from the children. */
  function UpdateHeight<T>(t: Tree<T>): (r: Tree<T>)
    ensures r.Nil? <==> t.Nil?
    ensures ToMap(r) == ToMap(t) && InOrder(r) == InOrder(t)
    ensures Ordered(t) ==> Ordered(r)
    ensures t.Node? && HeightsCorrect(t.left) && HeightsCorrect(t.right) ==> HeightsCorrect(r)
  {
    if t.Nil? then Nil else t.(height := 1 + Max(Height(t.left), Height(t.right)))
  }

  // ---------------------------------------------------------------------
  // Abstraction and invariants
  // ---------------------------------------------------------------------

  /** The key -> data map a tree represents. */
  ghost function ToMap<T>(t: Tree<T>): map<Id, T> {
    if t.Nil? then map[] else (ToMap(t.left) + ToMap(t.right))[t.key := t.data]
  }

  ghost predicate KeysBelow<T>(t: Tree<T>, bound: Id) {
    forall x :: x in ToMap(t) ==> x < bound
  }

  ghost predicate KeysAbove<T>(t: Tree<T>, bound: Id) {
    forall x :: x in ToMap(t) ==> bound < x
  }

  /** Binary-search-tree order: smaller keys left, larger keys right. */
  ghost predicate Ordered<T>(t: Tree<T>) {
    t.Node? ==> Ordered(t.left) && Ordered(t.right) && KeysBelow(t.left, t.key) && KeysAbove(t.right, t.key)
  }

  /** Every stored height is 1 + the larger child height (null counts 0). */
  ghost predicate HeightsCorrect<T>(t: Tree<T>) {
    t.Node? ==>
      HeightsCorrect(t.left) && HeightsCorrect(t.right) && t.height == 1 + Max(Height(t.left), Height(t.right))
  }

  /** Every balance factor lies in [-1, 1]. */
  ghost predicate Balanced<T>(t: Tree<T>) {
    t.Node? ==> Balanced(t.left) && Balanced(t.right) && -1 <= Height(t.left) - Height(t.right) <= 1
  }

  /** The AVL invariant the tree object maintains between calls. */
  ghost predicate Valid<T>(t: Tree<T>) {
    Ordered(t) && HeightsCorrect(t) && Balanced(t)
  }

  lemma HeightNonNegative<T>(t: Tree<T>)
    requires HeightsCorrect(t)
    ensures Height(t) >= 0
    ensures t.Node? ==> Height(t) >= 1
  {
    if t.Node? {
      HeightNonNegative(t.left);
      HeightNonNegative(t.right);
    }
  }

  /** Membership and lookup in the map of a node whose keys straddle its own. */
  lemma NodeMap<T>(t: Tree<T>)
    requires t.Node? && KeysBelow(t.left, t.key) && KeysAbove(t.right, t.key)
    ensures forall z :: z in ToMap(t) <==> z == t.key || z in ToMap(t.left) || z in ToMap(t.right)
    ensures ToMap(t)[t.key] == t.data
    ensures forall z :: z in ToMap(t.left) ==> ToMap(t)[z] == ToMap(t.left)[z]
    ensures forall z :: z in ToMap(t.right) ==> ToMap(t)[z] == ToMap(t.right)[z]
  {
    forall z | z in ToMap(t.left) ensures ToMap(t)[z] == ToMap(t.left)[z] {
      assert z != t.key && z !in ToMap(t.right);
    }
  }

  lemma MapExt<V>(a: map<Id, V>, b: map<Id, V>)
    requires forall z :: z in a <==> z in b
    requires forall z :: z in a ==> a[z] == b[z]
    ensures a == b
  {
    forall z | z in a.Keys ensures z in b.Keys { }
    forall z | z in b.Keys ensures z in a.Keys { }
    assert a.Keys <= b.Keys && b.Keys <= a.Keys;
    assert a.Keys == b.Keys;
    forall z | z in a ensures a[z] == b[z] { }
  }

  // ---------------------------------------------------------------------
  // Traversal, search and size
  // ---------------------------------------------------------------------

  /** `inOrderTraversal`: the data, left subtree first. */
  function InOrder<T>(t: Tree<T>): (r: seq<T>)
    ensures r == [] <==> t.Nil?
  {
    match t
    case Nil => []
    case Node(l, _, d, r, _) => InOrder(l) + [d] + InOrder(r)
  }

  /** The keys in the order `inOrderTraversal` visits them. */
  ghost function InOrderKeys<T>(t: Tree<T>): seq<Id> {
    match t
    case Nil => []
    case Node(l, k, _, r, _) => InOrderKeys(l) + [k] + InOrderKeys(r)
  }

  ghost predicate StrictlyIncreasing(s: seq<Id>) {
    forall i, j :: 0 <= i < j < |s| ==> s[i] < s[j]
  }

  /** `sizeRec`: the number of nodes. */
  function Size<T>(t: Tree<T>): (n: nat)
    ensures n == 0 <==> t.Nil?
  {
    match t
    case Nil => 0
    case Node(l, _, _, r, _) => 1 + Size(l) + Size(r)
  }

  /** `searchNode`: the node holding `key`, or null. */
  function SearchNode<T>(t: Tree<T>, key: Id): (r: Tree<T>)
    ensures r.Node? ==> r.key == key && key in ToMap(t)
  {
    if t.Nil? || t.key == key then t
    else if key < t.key then SearchNode(t.left, key)
    else SearchNode(t.right, key)
  }

  lemma {:induction false} SearchNodeFinds<T>(t: Tree<T>, key: Id)
    ensures Ordered(t) ==> (SearchNode(t, key).Node? <==> key in ToMap(t))
    ensures Ordered(t) && SearchNode(t, key).Node? ==>
              SearchNode(t, key).key == key && SearchNode(t, key).data == ToMap(t)[key]
  {
    if !Ordered(t) { return; }
    match t
    case Nil =>
    case Node(l, k, d, r, _) =>
      if key < k {
        SearchNodeFinds(l, key);
        assert key !in ToMap(r);
      } else if key > k {
        SearchNodeFinds(r, key);
        assert key !in ToMap(l);
      }
  }

  /** `search(key)`: the data stored under `key`, or null. On an ordered tree
      it is exactly a map lookup. */
  function Search<T>(t: Tree<T>, key: Id): (r: Option<T>)
    ensures Ordered(t) ==> (r.Some? <==> key in ToMap(t))
    ensures Ordered(t) && r.Some? ==> r.value == ToMap(t)[key]
  {
    var n := SearchNode(t, key);
    SearchNodeFinds(t, key);
    if n.Nil? then None else Some(n.data)
  }

  /** `isEmpty`. */
  function IsEmpty<T>(t: Tree<T>): (b: bool)
    ensures b <==> Size(t) == 0
    ensures b <==> ToMap(t) == map[]
  {
    assert t.Node? ==> t.key in ToMap(t);
    t.Nil?
  }

  /** `clear`. */
  function Clear<T>(): (t: Tree<T>)
    ensures Valid(t) && ToMap(t) == map[] && Size(t) == 0 && InOrder(t) == []
  {
    Nil
  }

  lemma {:induction false} KeysOfInOrder<T>(t: Tree<T>)
    ensures forall x :: x in InOrderKeys(t) <==> x in ToMap(t)
    ensures |InOrder(t)| == |InOrderKeys(t)| == Size(t)
  {
    match t
    case Nil =>
    case Node(l, k, d, r, _) =>
      KeysOfInOrder(l);
      KeysOfInOrder(r);
  }

  /** The keys of an ordered tree come out of the in-order traversal in
      strictly ascending order. */
  lemma {:induction false} InOrderKeysIncreasing<T>(t: Tree<T>)
    requires Ordered(t)
    ensures StrictlyIncreasing(InOrderKeys(t))
  {
    match t
    case Nil =>
    case Node(l, k, d, r, _) =>
      InOrderKeysIncreasing(l);
      InOrderKeysIncreasing(r);
      KeysOfInOrder(l);
      KeysOfInOrder(r);
      var ks := InOrderKeys(t);
      var kl, kr := InOrderKeys(l), InOrderKeys(r);
      var n := |kl|;
      assert ks == kl + [k] + kr;
      forall i, j | 0 <= i < j < |ks|
        ensures ks[i] < ks[j]
      {
        if j < n {
          assert ks[i] == kl[i] && ks[j] == kl[j];
        } else if j == n {
          assert ks[i] == kl[i] && kl[i] in ToMap(l);
        } else if i < n {
          assert ks[i] == kl[i] && kl[i] in ToMap(l);
          assert ks[j] == kr[j - n - 1] && kr[j - n - 1] in ToMap(r);
        } else if i == n {
          assert ks[j] == kr[j - n - 1] && kr[j - n - 1] in ToMap(r);
        } else {
          assert ks[i] == kr[i - n - 1] && ks[j] == kr[j - n - 1];
        }
      }
  }

  /** Position by position, the in-order traversal of an ordered tree lists
      the data stored under the key visited at that position. */
  lemma {:induction false} InOrderMatchesKeys<T>(t: Tree<T>)
    requires Ordered(t)
    ensures |InOrder(t)| == |InOrderKeys(t)|
    ensures forall i :: 0 <= i < |InOrderKeys(t)| ==>
              InOrderKeys(t)[i] in ToMap(t) && InOrder(t)[i] == ToMap(t)[InOrderKeys(t)[i]]
  {
    KeysOfInOrder(t);
    match t
    case Nil =>
    case Node(l, k, d, r, _) =>
      InOrderMatchesKeys(l);
      InOrderMatchesKeys(r);
      NodeMap(t);
      var ks, ds := InOrderKeys(t), InOrder(t);
      var n := |InOrderKeys(l)|;
      assert ks == InOrderKeys(l) + [k] + InOrderKeys(r);
      assert ds == InOrder(l) + [d] + InOrder(r);
      forall i | 0 <= i < |ks|
        ensures ks[i] in ToMap(t) && ds[i] == ToMap(t)[ks[i]]
      {
        if i < n {
          assert ks[i] == InOrderKeys(l)[i] && ds[i] == InOrder(l)[i];
        } else if i > n {
          assert ks[i] == InOrderKeys(r)[i - n - 1] && ds[i] == InOrder(r)[i - n - 1];
        }
      }
  }

  /** In-order traversal of an ordered tree lists the data in strictly
      ascending key order, each item being the data stored under its key. */
  lemma InOrderSorted<T>(t: Tree<T>)
    requires Ordered(t)
    ensures StrictlyIncreasing(InOrderKeys(t))
    ensures |InOrder(t)| == |InOrderKeys(t)| == Size(t)
    ensures forall i :: 0 <= i < |InOrderKeys(t)| ==>
              InOrderKeys(t)[i] in ToMap(t) && InOrder(t)[i] == ToMap(t)[InOrderKeys(t)[i]]
    ensures forall x :: x in ToMap(t) <==> x in InOrderKeys(t)
  {
    KeysOfInOrder(t);
    InOrderKeysIncreasing(t);
    InOrderMatchesKeys(t);
  }

  /** Size equals the number of keys in the map the tree represents. */
  lemma {:induction false} SizeIsKeyCount<T>(t: Tree<T>)
    requires Ordered(t)
    ensures Size(t) == |ToMap(t)|
  {
    match t
    case Nil =>
    case Node(l, k, d, r, _) =>
      SizeIsKeyCount(l);
      SizeIsKeyCount(r);
      var ml, mr := ToMap(l), ToMap(r);
      assert ml.Keys !! mr.Keys by {
        forall x | x in ml.Keys ensures x !in mr.Keys {
          assert x < k;
        }
      }
      assert (ml + mr).Keys == ml.Keys + mr.Keys;
      assert |(ml + mr).Keys| == |ml.Keys| + |mr.Keys|;
      assert k !in (ml + mr);
      assert ToMap(t).Keys == (ml + mr).Keys + {k};
  }

  // ---------------------------------------------------------------------
  // Rotations
  // ---------------------------------------------------------------------

  /** `rotateRight(y)`: the left child becomes the root. */
  function RotateRight<T>(y: Tree<T>): (r: Tree<T>)
    requires y.Node? && y.left.Node?
    ensures r.Node?
    ensures InOrder(r) == InOrder(y) && InOrderKeys(r) == InOrderKeys(y)
    ensures Ordered(y) ==> Ordered(r) && ToMap(r) == ToMap(y)
  {
    var x := y.left;
    var y' := UpdateHeight(y.(left := x.right));
    var r := UpdateHeight(x.(right := y'));
    RotateRightKeepsOrder(y);
    r
  }

  lemma RotateRightKeepsOrder<T>(y: Tree<T>)
    requires y.Node? && y.left.Node?
    ensures var x := y.left;
            var y' := UpdateHeight(y.(left := x.right));
            var r := UpdateHeight(x.(right := y'));
            Ordered(y) ==> Ordered(r) && ToMap(r) == ToMap(y)
  {
    if !Ordered(y) { return; }
    var x := y.left;
    var a, b, c := x.left, x.right, y.right;
    var y' := UpdateHeight(y.(left := b));
    var r := UpdateHeight(x.(right := y'));
    assert Ordered(x) && KeysBelow(x, y.key) && KeysAbove(c, y.key);
    assert KeysBelow(a, x.key) && KeysAbove(b, x.key);
    NodeMap(x);
    NodeMap(y);
    assert x.key < y.key;
    assert KeysBelow(b, y.key);
    NodeMap(y');
    assert KeysAbove(y', x.key);
    NodeMap(r);
    MapExt(ToMap(r), ToMap(y));
  }

  /** `rotateLeft(x)`: the right child becomes the root. */
  function RotateLeft<T>(x: Tree<T>): (r: Tree<T>)
    requires x.Node? && x.right.Node?
    ensures r.Node?
    ensures InOrder(r) == InOrder(x) && InOrderKeys(r) == InOrderKeys(x)
    ensures Ordered(x) ==> Ordered(r) && ToMap(r) == ToMap(x)
  {
    var y := x.right;
    var x' := UpdateHeight(x.(right := y.left));
    var r := UpdateHeight(y.(left := x'));
    RotateLeftKeepsOrder(x);
    r
  }

  lemma RotateLeftKeepsOrder<T>(x: Tree<T>)
    requires x.Node? && x.right.Node?
    ensures var y := x.right;
            var x' := UpdateHeight(x.(right := y.left));
            var r := UpdateHeight(y.(left := x'));
            Ordered(x) ==> Ordered(r) && ToMap(r) == ToMap(x)
  {
    if !Ordered(x) { return; }
    var y := x.right;
    var a, b, c := x.left, y.left, y.right;
    var x' := UpdateHeight(x.(right := b));
    var r := UpdateHeight(y.(left := x'));
    assert Ordered(y) && KeysAbove(y, x.key) && KeysBelow(a, x.key);
    assert KeysBelow(b, y.key) && KeysAbove(c, y.key);
    NodeMap(x);
    NodeMap(y);
    assert x.key < y.key;
    assert KeysAbove(b, x.key);
    NodeMap(x');
    assert KeysBelow(x', y.key);
    NodeMap(r);
    MapExt(ToMap(r), ToMap(x));
  }

  // ---------------------------------------------------------------------
  // Rebalancing
  // ---------------------------------------------------------------------

  /** Validity of a node, one level at a time. */
  lemma ValidUnfold<T>(t: Tree<T>)
    requires t.Node?
    ensures Valid(t) <==>
              && Valid(t.left) && Valid(t.right)
              && KeysBelow(t.left, t.key) && KeysAbove(t.right, t.key)
              && t.height == 1 + Max(Height(t.left), Height(t.right))
              && -1 <= BalanceFactor(t) <= 1
  {
  }

  /** A node built from two well-shaped subtrees of near-equal height, with
      its height freshly computed, is well-shaped. */
  lemma ShapeNode<T>(t: Tree<T>)
    requires t.Node?
    requires HeightsCorrect(t.left) && Balanced(t.left)
    requires HeightsCorrect(t.right) && Balanced(t.right)
    requires t.height == 1 + Max(Height(t.left), Height(t.right))
    requires -1 <= Height(t.left) - Height(t.right) <= 1
    ensures HeightsCorrect(t) && Balanced(t)
  {
  }

  /** The shape insertNode and deleteNode hand to their rebalancing step:
      AVL subtrees on either side of the key, a correct stored height, and a
      balance factor off by at most one. */
  ghost predicate NearlyValid<T>(n: Tree<T>) {
    && n.Node?
    && Valid(n.left) && Valid(n.right)
    && KeysBelow(n.left, n.key) && KeysAbove(n.right, n.key)
    && n.height == 1 + Max(Height(n.left), Height(n.right))
    && -2 <= BalanceFactor(n) <= 2
  }

  /** A valid node is nearly valid, and recomputing its height changes nothing. */
  lemma ValidIsNearlyValid<T>(t: Tree<T>)
    requires Valid(t) && t.Node?
    ensures NearlyValid(t) && UpdateHeight(t) == t && -1 <= BalanceFactor(t) <= 1
  {
    ValidUnfold(t);
  }

  lemma SingleRightValid<T>(n: Tree<T>)
    requires NearlyValid(n) && BalanceFactor(n) == 2
    ensures n.left.Node?
    ensures BalanceFactor(n.left) >= 0 ==>
              var r := RotateRight(n);
              Valid(r) && ToMap(r) == ToMap(n)
              && Height(r) == Height(n.right) + (if BalanceFactor(n.left) == 0 then 3 else 2)
  {
    HeightNonNegative(n.right);
    HeightNonNegative(n.left);
    var x := n.left;
    if BalanceFactor(x) >= 0 {
      ValidUnfold(x);
      HeightNonNegative(x.left);
      HeightNonNegative(x.right);
      var y' := UpdateHeight(n.(left := x.right));
      ShapeNode(y');
      var r := RotateRight(n);
      ShapeNode(r);
    }
  }

  lemma SingleLeftValid<T>(n: Tree<T>)
    requires NearlyValid(n) && BalanceFactor(n) == -2
    ensures n.right.Node?
    ensures BalanceFactor(n.right) <= 0 ==>
              var r := RotateLeft(n);
              Valid(r) && ToMap(r) == ToMap(n)
              && Height(r) == Height(n.left) + (if BalanceFactor(n.right) == 0 then 3 else 2)
  {
    HeightNonNegative(n.right);
    HeightNonNegative(n.left);
    var y := n.right;
    if BalanceFactor(y) <= 0 {
      ValidUnfold(y);
      HeightNonNegative(y.left);
      HeightNonNegative(y.right);
      var x' := UpdateHeight(n.(right := y.left));
      ShapeNode(x');
      var r := RotateLeft(n);
      ShapeNode(r);
    }
  }

  lemma DoubleRightValid<T>(n: Tree<T>)
    requires NearlyValid(n) && BalanceFactor(n) == 2
    requires n.left.Node? && BalanceFactor(n.left) < 0
    ensures n.left.right.Node?
    ensures var r := RotateRight(n.(left := RotateLeft(n.left)));
            Valid(r) && ToMap(r) == ToMap(n) && Height(r) == Height(n.right) + 2
  {
    DoubleRightShape(n);
    DoubleRightOrder(n);
  }

  lemma DoubleRightShape<T>(n: Tree<T>)
    requires NearlyValid(n) && BalanceFactor(n) == 2
    requires n.left.Node? && BalanceFactor(n.left) < 0
    ensures n.left.right.Node?
    ensures var r := RotateRight(n.(left := RotateLeft(n.left)));
            HeightsCorrect(r) && Balanced(r) && Height(r) == Height(n.right) + 2
  {
    var x := n.left;
    ValidUnfold(x);
    var z := x.right;
    HeightNonNegative(x.left);
    HeightNonNegative(n.right);
    assert z.Node?;
    ValidUnfold(z);
    HeightNonNegative(z.left);
    HeightNonNegative(z.right);
    var p := UpdateHeight(x.(right := z.left));
    ShapeNode(p);
    var n' := n.(left := RotateLeft(x));
    var q := UpdateHeight(n'.(left := z.right));
    ShapeNode(q);
    ShapeNode(RotateRight(n'));
  }

  lemma DoubleRightOrder<T>(n: Tree<T>)
    requires Ordered(n) && n.Node? && n.left.Node? && n.left.right.Node?
    ensures var r := RotateRight(n.(left := RotateLeft(n.left)));
            Ordered(r) && ToMap(r) == ToMap(n)
  {
    var x' := RotateLeft(n.left);
    var n' := n.(left := x');
    assert Ordered(n') by {
      assert KeysBelow(x', n.key);
    }
    assert ToMap(n') == ToMap(n);
  }

  lemma DoubleLeftValid<T>(n: Tree<T>)
    requires NearlyValid(n) && BalanceFactor(n) == -2
    requires n.right.Node? && BalanceFactor(n.right) > 0
    ensures n.right.left.Node?
    ensures var r := RotateLeft(n.(right := RotateRight(n.right)));
            Valid(r) && ToMap(r) == ToMap(n) && Height(r) == Height(n.left) + 2
  {
    DoubleLeftShape(n);
    DoubleLeftOrder(n);
  }

  lemma DoubleLeftShape<T>(n: Tree<T>)
    requires NearlyValid(n) && BalanceFactor(n) == -2
    requires n.right.Node? && BalanceFactor(n.right) > 0
    ensures n.right.left.Node?
    ensures var r := RotateLeft(n.(right := RotateRight(n.right)));
            HeightsCorrect(r) && Balanced(r) && Height(r) == Height(n.left) + 2
  {
    var y := n.right;
    ValidUnfold(y);
    var z := y.left;
    HeightNonNegative(y.right);
    HeightNonNegative(n.left);
    assert z.Node?;
    ValidUnfold(z);
    HeightNonNegative(z.left);
    HeightNonNegative(z.right);
    var p := UpdateHeight(y.(left := z.right));
    ShapeNode(p);
    var n' := n.(right := RotateRight(y));
    var q := UpdateHeight(n'.(right := z.left));
    ShapeNode(q);
    ShapeNode(RotateLeft(n'));
  }

  lemma DoubleLeftOrder<T>(n: Tree<T>)
    requires Ordered(n) && n.Node? && n.right.Node? && n.right.left.Node?
    ensures var r := RotateLeft(n.(right := RotateRight(n.right)));
            Ordered(r) && ToMap(r) == ToMap(n)
  {
    var y' := RotateRight(n.right);
    var n' := n.(right := y');
    assert Ordered(n') by {
      assert KeysAbove(y', n.key);
    }
    assert ToMap(n') == ToMap(n);
  }

  /** `key` went into the subtree `c` and made it taller: `c` leans towards
      the side the key went to, which is what the key comparisons in
      insertNode's rebalancing rely on. */
  ghost predicate LeansToward<T>(c: Tree<T>, key: Id) {
    && c.Node?
    && c.key != key
    && (key < c.key ==> BalanceFactor(c) == 1)
    && (key > c.key ==> BalanceFactor(c) == -1)
  }

  /** The four rotation cases at the end of insertNode, chosen by comparing
      the inserted key with the child's key. */
  function InsertRebalance<T>(n: Tree<T>, key: Id): (r: Tree<T>)
    requires NearlyValid(n)
    requires BalanceFactor(n) == 2 ==> LeansToward(n.left, key)
    requires BalanceFactor(n) == -2 ==> LeansToward(n.right, key)
    ensures Valid(r) && ToMap(r) == ToMap(n)
    ensures -1 <= BalanceFactor(n) <= 1 ==> r == n
    ensures BalanceFactor(n) == 2 || BalanceFactor(n) == -2 ==> Height(r) == Height(n) - 1
  {
    var balance := BalanceFactor(n);
    if balance > 1 && key < n.left.key then
      SingleRightValid(n);
      RotateRight(n)
    else if balance < -1 && key > n.right.key then
      SingleLeftValid(n);
      RotateLeft(n)
    else if balance > 1 && key > n.left.key then
      DoubleRightValid(n);
      RotateRight(n.(left := RotateLeft(n.left)))
    else if balance < -1 && key < n.right.key then
      DoubleLeftValid(n);
      RotateLeft(n.(right := RotateRight(n.right)))
    else
      ValidUnfold(n);
      n
  }

  /** The four rotation cases at the end of deleteNode, chosen by the
      child's balance factor. */
  function DeleteRebalance<T>(n: Tree<T>): (r: Tree<T>)
    requires NearlyValid(n)
    ensures Valid(r) && ToMap(r) == ToMap(n)
    ensures -1 <= BalanceFactor(n) <= 1 ==> r == n
    ensures Height(n) - 1 <= Height(r) <= Height(n)
  {
    var balance := BalanceFactor(n);
    if balance > 1 then
      SingleRightValid(n);
      if BalanceFactor(n.left) >= 0 then
        RotateRight(n)
      else
        DoubleRightValid(n);
        RotateRight(n.(left := RotateLeft(n.left)))
    else if balance < -1 then
      SingleLeftValid(n);
      if BalanceFactor(n.right) <= 0 then
        RotateLeft(n)
      else
        DoubleLeftValid(n);
        RotateLeft(n.(right := RotateRight(n.right)))
    else
      ValidUnfold(n);
      n
  }

  // ---------------------------------------------------------------------
  // Insert and delete
  // ---------------------------------------------------------------------

  /** `insertNode`: insert, replacing the data of an existing key. */
  function InsertNode<T>(t: Tree<T>, key: Id, data: T): (r: Tree<T>)
    requires Valid(t)
    ensures Valid(r)
    ensures ToMap(r) == ToMap(t)[key := data]
    ensures Height(t) <= Height(r) <= Height(t) + 1
    ensures t.Node? && Height(r) == Height(t) + 1 ==> LeansToward(r, key)
    decreases t
  {
    if t.Nil? then
      NewNode(key, data)
    else if key < t.key then
      ValidUnfold(t);
      var l' := InsertNode(t.left, key, data);
      InsertLeftStep(t, key, data, l');
      InsertRebalance(UpdateHeight(t.(left := l')), key)
    else if key > t.key then
      ValidUnfold(t);
      var rt' := InsertNode(t.right, key, data);
      InsertRightStep(t, key, data, rt');
      InsertRebalance(UpdateHeight(t.(right := rt')), key)
    else
      ReplaceData(t, data);
      t.(data := data)
  }

  /** Overwriting the data at the root keeps the shape and updates the map. */
  lemma ReplaceData<T>(t: Tree<T>, data: T)
    requires Valid(t) && t.Node?
    ensures Valid(t.(data := data))
    ensures ToMap(t.(data := data)) == ToMap(t)[t.key := data]
  {
    ValidUnfold(t);
    ValidUnfold(t.(data := data));
  }

  /** Replacing the left subtree by one representing `lm`, a map that
      differs from the old subtree's only at keys below the node's, gives the
      node the map `m` when `m` is the same change applied to the whole. */
  lemma ChildMapLeft<T>(t: Tree<T>, l': Tree<T>, lm: map<Id, T>, m: map<Id, T>)
    requires Ordered(t) && t.Node?
    requires ToMap(l') == lm
    requires forall x :: x in lm ==> x < t.key
    requires forall x :: x in m <==> x in lm || x == t.key || x in ToMap(t.right)
    requires forall x :: x in lm ==> m[x] == lm[x]
    requires t.key in m && m[t.key] == t.data
    requires forall x :: x in ToMap(t.right) ==> m[x] == ToMap(t.right)[x]
    ensures KeysBelow(l', t.key)
    ensures ToMap(UpdateHeight(t.(left := l'))) == m
  {
    var n := UpdateHeight(t.(left := l'));
    NodeMap(t);
    NodeMap(n);
    MapExt(ToMap(n), m);
  }

  /** The mirror image of ChildMapLeft. */
  lemma ChildMapRight<T>(t: Tree<T>, rt': Tree<T>, rm: map<Id, T>, m: map<Id, T>)
    requires Ordered(t) && t.Node?
    requires ToMap(rt') == rm
    requires forall x :: x in rm ==> t.key < x
    requires forall x :: x in m <==> x in rm || x == t.key || x in ToMap(t.left)
    requires forall x :: x in rm ==> m[x] == rm[x]
    requires t.key in m && m[t.key] == t.data
    requires forall x :: x in ToMap(t.left) ==> m[x] == ToMap(t.left)[x]
    ensures KeysAbove(rt', t.key)
    ensures ToMap(UpdateHeight(t.(right := rt'))) == m
  {
    var n := UpdateHeight(t.(right := rt'));
    NodeMap(t);
    NodeMap(n);
    MapExt(ToMap(n), m);
  }

  /** The left-descent step of insertNode: the grown left subtree fits under
      the node, and rebalancing restores the invariant with the height and
      lean insertNode promises. */
  lemma InsertLeftStep<T>(t: Tree<T>, key: Id, data: T, l': Tree<T>)
    requires Valid(t) && t.Node? && key < t.key
    requires Valid(l') && ToMap(l') == ToMap(t.left)[key := data]
    requires Height(t.left) <= Height(l') <= Height(t.left) + 1
    requires t.left.Node? && Height(l') == Height(t.left) + 1 ==> LeansToward(l', key)
    ensures var n := UpdateHeight(t.(left := l'));
            && NearlyValid(n) && BalanceFactor(n) >= -1
            && (BalanceFactor(n) == 2 ==> LeansToward(n.left, key))
    ensures var r := InsertRebalance(UpdateHeight(t.(left := l')), key);
            && Valid(r) && ToMap(r) == ToMap(t)[key := data]
            && Height(t) <= Height(r) <= Height(t) + 1
            && (Height(r) == Height(t) + 1 ==> LeansToward(r, key))
  {
    ValidUnfold(t);
    ChildMapLeft(t, l', ToMap(t.left)[key := data], ToMap(t)[key := data]);
    HeightNonNegative(t.left);
    HeightNonNegative(t.right);
    var n := UpdateHeight(t.(left := l'));
    if BalanceFactor(n) == 2 {
      assert t.left.Node?;
    }
    assert NearlyValid(n);
    var r := InsertRebalance(n, key);
    if BalanceFactor(n) <= 1 {
      assert r == n;
    } else {
      assert Height(r) == Height(n) - 1;
    }
  }

  /** The right-descent step of insertNode, mirroring InsertLeftStep. */
  lemma InsertRightStep<T>(t: Tree<T>, key: Id, data: T, rt': Tree<T>)
    requires Valid(t) && t.Node? && key > t.key
    requires Valid(rt') && ToMap(rt') == ToMap(t.right)[key := data]
    requires Height(t.right) <= Height(rt') <= Height(t.right) + 1
    requires t.right.Node? && Height(rt') == Height(t.right) + 1 ==> LeansToward(rt', key)
    ensures var n := UpdateHeight(t.(right := rt'));
            && NearlyValid(n) && BalanceFactor(n) <= 1
            && (BalanceFactor(n) == -2 ==> LeansToward(n.right, key))
    ensures var r := InsertRebalance(UpdateHeight(t.(right := rt')), key);
            && Valid(r) && ToMap(r) == ToMap(t)[key := data]
            && Height(t) <= Height(r) <= Height(t) + 1
            && (Height(r) == Height(t) + 1 ==> LeansToward(r, key))
  {
    ValidUnfold(t);
    ChildMapRight(t, rt', ToMap(t.right)[key := data], ToMap(t)[key := data]);
    HeightNonNegative(t.left);
    HeightNonNegative(t.right);
    var n := UpdateHeight(t.(right := rt'));
    if BalanceFactor(n) == -2 {
      assert t.right.Node?;
    }
    assert NearlyValid(n);
    var r := InsertRebalance(n, key);
    if BalanceFactor(n) >= -1 {
      assert r == n;
    } else {
      assert Height(r) == Height(n) - 1;
    }
  }

  /** `minValueNode`: the leftmost node, holding the smallest key. */
  function MinNode<T>(t: Tree<T>): (m: Tree<T>)
    requires t.Node?
    ensures m.Node?
    ensures Ordered(t) ==> m.key in ToMap(t) && ToMap(t)[m.key] == m.data
    ensures Ordered(t) ==> forall x :: x in ToMap(t) ==> m.key <= x
  {
    if t.left.Nil? then t else MinNode(t.left)
  }

  /** `deleteNode`: remove `key`; a node with two children takes over its
      in-order successor's key and data, and the successor is deleted from
      the right subtree. */
  function DeleteNode<T>(t: Tree<T>, key: Id): (r: Tree<T>)
    requires Valid(t)
    ensures Valid(r)
    ensures ToMap(r) == ToMap(t) - {key}
    ensures Height(t) - 1 <= Height(r) <= Height(t)
    decreases t
  {
    if t.Nil? then
      Nil
    else if key < t.key then
      ValidUnfold(t);
      var l' := DeleteNode(t.left, key);
      DeleteLeftStep(t, key, l');
      DeleteRebalance(UpdateHeight(t.(left := l')))
    else if key > t.key then
      ValidUnfold(t);
      var rt' := DeleteNode(t.right, key);
      DeleteRightStep(t, key, rt');
      DeleteRebalance(UpdateHeight(t.(right := rt')))
    else if t.left.Nil? || t.right.Nil? then
      var temp := if t.left.Node? then t.left else t.right;
      DeleteOneChild(t);
      if temp.Nil? then Nil else DeleteRebalance(UpdateHeight(temp))
    else
      ValidUnfold(t);
      var m := MinNode(t.right);
      var rt' := DeleteNode(t.right, m.key);
      DeleteSuccessorStep(t, rt');
      DeleteRebalance(UpdateHeight(t.(key := m.key, data := m.data, right := rt')))
  }

  /** The left-descent step of deleteNode. */
  lemma DeleteLeftStep<T>(t: Tree<T>, key: Id, l': Tree<T>)
    requires Valid(t) && t.Node? && key < t.key
    requires Valid(l') && ToMap(l') == ToMap(t.left) - {key}
    requires Height(t.left) - 1 <= Height(l') <= Height(t.left)
    ensures NearlyValid(UpdateHeight(t.(left := l')))
    ensures var r := DeleteRebalance(UpdateHeight(t.(left := l')));
            && Valid(r) && ToMap(r) == ToMap(t) - {key}
            && Height(t) - 1 <= Height(r) <= Height(t)
  {
    ValidUnfold(t);
    ChildMapLeft(t, l', ToMap(t.left) - {key}, ToMap(t) - {key});
    HeightNonNegative(t.left);
    HeightNonNegative(t.right);
    var n := UpdateHeight(t.(left := l'));
    assert NearlyValid(n);
    var r := DeleteRebalance(n);
    if -1 <= BalanceFactor(n) <= 1 {
      assert r == n;
    }
  }

  /** The right-descent step of deleteNode. */
  lemma DeleteRightStep<T>(t: Tree<T>, key: Id, rt': Tree<T>)
    requires Valid(t) && t.Node? && key > t.key
    requires Valid(rt') && ToMap(rt') == ToMap(t.right) - {key}
    requires Height(t.right) - 1 <= Height(rt') <= Height(t.right)
    ensures NearlyValid(UpdateHeight(t.(right := rt')))
    ensures var r := DeleteRebalance(UpdateHeight(t.(right := rt')));
            && Valid(r) && ToMap(r) == ToMap(t) - {key}
            && Height(t) - 1 <= Height(r) <= Height(t)
  {
    ValidUnfold(t);
    ChildMapRight(t, rt', ToMap(t.right) - {key}, ToMap(t) - {key});
    HeightNonNegative(t.left);
    HeightNonNegative(t.right);
    var n := UpdateHeight(t.(right := rt'));
    assert NearlyValid(n);
    var r := DeleteRebalance(n);
    if -1 <= BalanceFactor(n) <= 1 {
      assert r == n;
    }
  }

  /** Deleting the key of a node with at most one child: the child (if any)
      replaces the node; rebalancing it changes nothing. */
  lemma DeleteOneChild<T>(t: Tree<T>)
    requires Valid(t) && t.Node? && (t.left.Nil? || t.right.Nil?)
    ensures var temp := if t.left.Node? then t.left else t.right;
            && (temp.Nil? ==> ToMap(t) - {t.key} == map[] && Height(t) == 1)
            && (temp.Node? ==> NearlyValid(UpdateHeight(temp)))
            && (temp.Node? ==> var r := DeleteRebalance(UpdateHeight(temp));
                  Valid(r) && ToMap(r) == ToMap(t) - {t.key} && Height(r) == Height(t) - 1)
  {
    if t.left.Node? {
      DeleteOnlyLeft(t);
    } else if t.right.Node? {
      DeleteOnlyRight(t);
    } else {
      ValidUnfold(t);
      assert ToMap(t) - {t.key} == map[];
    }
  }

  /** A node whose only child is on the left: that child replaces it. */
  lemma DeleteOnlyLeft<T>(t: Tree<T>)
    requires Valid(t) && t.Node? && t.left.Node? && t.right.Nil?
    ensures NearlyValid(UpdateHeight(t.left)) && DeleteRebalance(UpdateHeight(t.left)) == t.left
    ensures Valid(t.left) && ToMap(t.left) == ToMap(t) - {t.key} && Height(t.left) == Height(t) - 1
  {
    ValidUnfold(t);
    HeightNonNegative(t.left);
    ValidIsNearlyValid(t.left);
    NodeMap(t);
    MapExt(ToMap(t.left), ToMap(t) - {t.key});
  }

  /** A node whose only child is on the right: that child replaces it. */
  lemma DeleteOnlyRight<T>(t: Tree<T>)
    requires Valid(t) && t.Node? && t.left.Nil? && t.right.Node?
    ensures NearlyValid(UpdateHeight(t.right)) && DeleteRebalance(UpdateHeight(t.right)) == t.right
    ensures Valid(t.right) && ToMap(t.right) == ToMap(t) - {t.key} && Height(t.right) == Height(t) - 1
  {
    ValidUnfold(t);
    HeightNonNegative(t.right);
    ValidIsNearlyValid(t.right);
    NodeMap(t);
    MapExt(ToMap(t.right), ToMap(t) - {t.key});
  }

  /** The two-children step of deleteNode: the node takes the successor's
      key and data, and the successor is deleted from the right subtree. */
  lemma DeleteSuccessorStep<T>(t: Tree<T>, rt': Tree<T>)
    requires Valid(t) && t.Node? && t.left.Node? && t.right.Node?
    requires var m := MinNode(t.right);
             && Valid(rt') && ToMap(rt') == ToMap(t.right) - {m.key}
             && Height(t.right) - 1 <= Height(rt') <= Height(t.right)
    ensures var m := MinNode(t.right);
            NearlyValid(UpdateHeight(t.(key := m.key, data := m.data, right := rt')))
    ensures var m := MinNode(t.right);
            var r := DeleteRebalance(UpdateHeight(t.(key := m.key, data := m.data, right := rt')));
            && Valid(r) && ToMap(r) == ToMap(t) - {t.key}
            && Height(t) - 1 <= Height(r) <= Height(t)
  {
    ValidUnfold(t);
    SuccessorMap(t, rt');
    HeightNonNegative(t.left);
    HeightNonNegative(t.right);
    var m := MinNode(t.right);
    var n := UpdateHeight(t.(key := m.key, data := m.data, right := rt'));
    assert NearlyValid(n);
    var r := DeleteRebalance(n);
    if -1 <= BalanceFactor(n) <= 1 {
      assert r == n;
    }
  }

  /** Moving the successor's key and data into the node, over a right
      subtree that no longer holds the successor, keeps the order and
      represents the old map without the node's own key. */
  lemma SuccessorMap<T>(t: Tree<T>, rt': Tree<T>)
    requires Ordered(t) && t.Node? && t.right.Node?
    requires ToMap(rt') == ToMap(t.right) - {MinNode(t.right).key}
    ensures var m := MinNode(t.right);
            && KeysBelow(t.left, m.key) && KeysAbove(rt', m.key)
            && ToMap(UpdateHeight(t.(key := m.key, data := m.data, right := rt'))) == ToMap(t) - {t.key}
  {
    var m := MinNode(t.right);
    var n := UpdateHeight(t.(key := m.key, data := m.data, right := rt'));
    NodeMap(t);
    assert t.key < m.key;
    assert KeysBelow(t.left, m.key);
    assert KeysAbove(rt', m.key) by {
      forall x | x in ToMap(rt') ensures m.key < x {
        assert x != m.key && x in ToMap(t.right);
      }
    }
    NodeMap(n);
    MapExt(ToMap(n), ToMap(t) - {t.key});
  }

  // ---------------------------------------------------------------------
  // The tree object's operations, as seen by its callers
  // ---------------------------------------------------------------------

  /** After `insert(key, data)`, `search(key)` finds the new data, every
      other key finds what it found before, and the size grows by one
      exactly when the key was new. */
  lemma InsertThenSearch<T>(t: Tree<T>, key: Id, data: T, other: Id)
    requires Valid(t)
    ensures Valid(InsertNode(t, key, data))
    ensures Search(InsertNode(t, key, data), key) == Some(data)
    ensures other != key ==> Search(InsertNode(t, key, data), other) == Search(t, other)
    ensures Size(InsertNode(t, key, data)) == Size(t) + (if Search(t, key).None? then 1 else 0)
  {
    var r := InsertNode(t, key, data);
    SizeIsKeyCount(t);
    SizeIsKeyCount(r);
  }

  /** After `delete(key)`, `search(key)` finds nothing, every other key finds
      what it found before, and the size shrinks by one exactly when the key
      was present; deleting an absent key leaves the contents alone. */
  lemma DeleteThenSearch<T>(t: Tree<T>, key: Id, other: Id)
    requires Valid(t)
    ensures Valid(DeleteNode(t, key))
    ensures Search(DeleteNode(t, key), key) == None
    ensures other != key ==> Search(DeleteNode(t, key), other) == Search(t, other)
    ensures Size(DeleteNode(t, key)) == Size(t) - (if Search(t, key).Some? then 1 else 0)
    ensures Search(t, key).None? ==> ToMap(DeleteNode(t, key)) == ToMap(t)
  {
    var r := DeleteNode(t, key);
    SizeIsKeyCount(t);
    SizeIsKeyCount(r);
    if key !in ToMap(t) {
      MapExt(ToMap(r), ToMap(t));
    }
  }
}

=== FILE: calls.dfy ===
/** CallService: the call records live in a plain repository (a map from
    id to call); the users are looked up through UserService. */
module Calls {
  import opened Wrappers
  import opened Entities
  import EntityCache
  import Users

  type CallRepo = map<Id, Call>

  /** `findById`: the repository lookup, an error when the id is unknown. */
  function FindById(calls: CallRepo, id: Id): (r: Result<Call, Error>)
    ensures r.Success? <==> id in calls
    ensures r.Success? ==> r.value == calls[id]
    ensures r.Failure? ==> r.error == CallNotFound(id)
  {
    if id in calls then Success(calls[id]) else Failure(CallNotFound(id))
  }

  /** `createCall(user1Id, user2Id, callType)`: both users must exist (the
      first is looked up first), the two ids must differ, and the new call
      is ACTIVE, started now, of the given type or VIDEO when none is given,
      saved under the id the repository assigns. */
  function CreateCall(users: EntityCache.Cache<User>, calls: CallRepo, user1: Id, user2: Id,
                      callType: Option<CallType>, now: int, newId: Id): (r: Result<(CallRepo, Call), Error>)
    requires EntityCache.Valid(users) && newId !in calls
    ensures Users.FindById(users, user1).Failure? ==> r == Failure(UserNotFound(user1))
    ensures Users.FindById(users, user1).Success? && Users.FindById(users, user2).Failure? ==>
              r == Failure(UserNotFound(user2))
    ensures r.Success? <==>
              Users.FindById(users, user1).Success? && Users.FindById(users, user2).Success? && user1 != user2
    ensures r.Failure? && Users.FindById(users, user1).Success? && Users.FindById(users, user2).Success? ==>
              r.error == SelfCall
    ensures r.Success? ==>
              var (calls', call) := r.value;
              && calls' == calls[newId := call]
              && call.id == newId && call.user1 == user1 && call.user2 == user2
              && call.status == Active && call.startedAt == now
              && call.endedAt.None? && call.durationSeconds.None?
              && call.callType == (if callType.Some? then callType.value else Video)
  {
    if Users.FindById(users, user1).Failure? then Failure(UserNotFound(user1))
    else if Users.FindById(users, user2).Failure? then Failure(UserNotFound(user2))
    else if user1 == user2 then Failure(SelfCall)
    else
      var call := NewCall(newId, user1, user2, now).(callType := callType.GetOr(Video));
      Success((calls[newId := call], call))
  }

  /** `endCall` (status COMPLETED) and `cancelCall` (status CANCELLED): the
      call must exist and still be ACTIVE; it is closed at `now`. */
  function Close(calls: CallRepo, callId: Id, status: CallStatus, now: int): (r: Result<(CallRepo, Call), Error>)
    requires status != Active
    ensures r.Failure? <==> callId !in calls || calls[callId].status != Active
    ensures callId !in calls ==> r == Failure(CallNotFound(callId))
    ensures callId in calls && calls[callId].status != Active ==> r == Failure(CallAlreadyEnded(callId))
    ensures r.Success? ==>
              var (calls', call) := r.value;
              && call == Finish(calls[callId], status, now)
              && calls' == calls[callId := call]
    ensures r.Success? ==> callId in r.value.0 && r.value.0[callId] == r.value.1
  {
    match FindById(calls, callId)
    case Failure(e) => Failure(e)
    case Success(call) =>
      if call.status != Active then Failure(CallAlreadyEnded(callId))
      else
        var closed := Finish(call, status, now);
        Success((calls[callId := closed], closed))
  }

  function EndCall(calls: CallRepo, callId: Id, now: int): (r: Result<(CallRepo, Call), Error>)
    ensures r.Success? <==> callId in calls && calls[callId].status == Active
    ensures r.Success? ==> r.value.1.status == Completed && callId in r.value.0 && r.value.0[callId] == r.value.1
  {
    Close(calls, callId, Completed, now)
  }

  function CancelCall(calls: CallRepo, callId: Id, now: int): (r: Result<(CallRepo, Call), Error>)
    ensures r.Success? <==> callId in calls && calls[callId].status == Active
    ensures r.Success? ==> r.value.1.status == Cancelled && callId in r.value.0 && r.value.0[callId] == r.value.1
  {
    Close(calls, callId, Cancelled, now)
  }

  /** A call is closed at most once: after ending or cancelling it, every
      further end or cancel fails, whenever it is attempted, and the closing
      touched no other call. */
  lemma CloseIsFinal(calls: CallRepo, callId: Id, status: CallStatus, now: int,
                     status2: CallStatus, later: int, other: Id)
    requires status != Active && status2 != Active
    requires Close(calls, callId, status, now).Success?
    ensures var calls' := Close(calls, callId, status, now).value.0;
            && Close(calls', callId, status2, later) == Failure(CallAlreadyEnded(callId))
            && (other != callId && other in calls ==> other in calls' && calls'[other] == calls[other])
            && calls'.Keys == calls.Keys
  {
    var calls' := Close(calls, callId, status, now).value.0;
    forall z | z in calls'.Keys ensures z in calls.Keys { }
    forall z | z in calls.Keys ensures z in calls'.Keys { }
    assert calls'.Keys <= calls.Keys && calls.Keys <= calls'.Keys;
  }

  /** `updateCallType`: only the call type changes, in any status. */
  function UpdateCallType(calls: CallRepo, callId: Id, callType: CallType): (r: Result<CallRepo, Error>)
    ensures r.Failure? <==> callId !in calls
    ensures r.Success? ==> r.value.Keys == calls.Keys
    ensures r.Success? ==>
              && callId in r.value && r.value[callId].callType == callType
              && r.value[callId].(callType := calls[callId].callType) == calls[callId]
              && (forall k :: k in calls && k != callId ==> k in r.value && r.value[k] == calls[k])
  {
    match FindById(calls, callId)
    case Failure(e) => Failure(e)
    case Success(call) => Success(calls[callId := call.(callType := callType)])
  }

  /** `deleteCall`: the id must exist; then it is gone. */
  function DeleteCall(calls: CallRepo, callId: Id): (r: Result<CallRepo, Error>)
    ensures r.Failure? <==> callId !in calls
    ensures r.Failure? ==> r.error == CallNotFound(callId)
    ensures r.Success? ==> callId !in r.value && r.value == calls - {callId}
  {
    if callId !in calls then Failure(CallNotFound(callId)) else Success(calls - {callId})
  }
}

=== FILE: chat_messages.dfy ===
/** ChatMessageService over the chat-message cache (ChatMessageTree and its
    repository). */
module ChatMessages {
  import opened Wrappers
  import opened Entities
  import opened AvlTree
  import opened EntityCache
  import Users
  import Calls

  /** `createMessage(callId, senderId, text)`: the call, then the sender,
      must exist; the sender must be one of the call's two users; the call
      must be ACTIVE; then the message is saved, stamped `now`, under the id
      the repository assigns, and cached. The save refuses a blank text. */
  function CreateMessage(users: Cache<User>, calls: Calls.CallRepo, c: Cache<ChatMessage>,
                         callId: Id, senderId: Id, text: string, now: int, newId: Id)
    : (r: Result<(Cache<ChatMessage>, ChatMessage), Error>)
    requires EntityCache.Valid(users) && EntityCache.Valid(c) && newId !in c.repo
    ensures callId !in calls ==> r == Failure(CallNotFound(callId))
    ensures callId in calls && Users.FindById(users, senderId).Failure? ==> r == Failure(UserNotFound(senderId))
    ensures callId in calls && Users.FindById(users, senderId).Success? && !calls[callId].HasParticipant(senderId) ==>
              r == Failure(NotParticipant)
    ensures callId in calls && Users.FindById(users, senderId).Success? && calls[callId].HasParticipant(senderId)
            && calls[callId].status == Active && IsBlank(text) ==>
              r == Failure(BlankText)
    ensures r.Success? <==>
              && callId in calls && Users.FindById(users, senderId).Success?
              && calls[callId].HasParticipant(senderId) && calls[callId].status == Active
              && !IsBlank(text)
    ensures r.Success? ==>
              var (c', m) := r.value;
              && m == ChatMessage(newId, callId, senderId, text, now)
              && c'.repo == c.repo[newId := m] && ToMap(c'.tree) == ToMap(c.tree)[newId := m]
              && EntityCache.Valid(c')
  {
    match Calls.FindById(calls, callId)
    case Failure(e) => Failure(e)
    case Success(call) =>
      if Users.FindById(users, senderId).Failure? then Failure(UserNotFound(senderId))
      else if !call.HasParticipant(senderId) then Failure(NotParticipant)
      else if call.status != Active then Failure(CallNotActive)
      else if IsBlank(text) then Failure(BlankText)
      else
        var m := ChatMessage(newId, callId, senderId, text, now);
        Success((Add(c, newId, m), m))
  }

  /** No message is ever accepted into a call that is not running. */
  lemma NoMessageAfterCallEnds(users: Cache<User>, calls: Calls.CallRepo, c: Cache<ChatMessage>,
                               callId: Id, senderId: Id, text: string, now: int, newId: Id)
    requires EntityCache.Valid(users) && EntityCache.Valid(c) && newId !in c.repo
    requires callId in calls && calls[callId].status != Active
    ensures CreateMessage(users, calls, c, callId, senderId, text, now, newId).Failure?
    ensures Users.FindById(users, senderId).Success? && calls[callId].HasParticipant(senderId) ==>
              CreateMessage(users, calls, c, callId, senderId, text, now, newId) == Failure(CallNotActive)
  {
  }

  /** `findById`: the tree first, then the repository. */
  function FindById(c: Cache<ChatMessage>, id: Id): (r: Result<ChatMessage, Error>)
    requires EntityCache.Valid(c)
    ensures r.Failure? <==> id !in ToMap(c.tree) && id !in c.repo
    ensures r.Failure? ==> r.error == MessageNotFound(id)
    ensures r.Success? ==> r.value == (if id in ToMap(c.tree) then ToMap(c.tree)[id] else c.repo[id])
    ensures Mirrors(c) && r.Success? ==> r.value == c.repo[id]
  {
    match EntityCache.FindById(c, id)
    case Some(m) => Success(m)
    case None => if id in c.repo then Success(c.repo[id]) else Failure(MessageNotFound(id))
  }

  /** `getAllMessages`: the cached messages in ascending id order. */
  function GetAllMessages(c: Cache<ChatMessage>): (r: seq<ChatMessage>)
    requires EntityCache.Valid(c)
    ensures |r| == |ToMap(c.tree)|
  {
    AllSorted(c)
  }

  /** What the repository query `findByCallIdOrderBySentAtAsc` returns:
      each of the call's stored messages exactly once, by send time. */
  ghost predicate IsCallListing(repo: map<Id, ChatMessage>, callId: Id, listing: seq<ChatMessage>) {
    && (forall i :: 0 <= i < |listing| ==>
          listing[i].id in repo && repo[listing[i].id] == listing[i] && listing[i].callId == callId)
    && (forall k :: k in repo && repo[k].callId == callId ==> exists i :: 0 <= i < |listing| && listing[i].id == k)
    && (forall i, j :: 0 <= i < j < |listing| ==> listing[i].id != listing[j].id)
    && (forall i, j :: 0 <= i < j < |listing| ==> listing[i].sentAt <= listing[j].sentAt)
  }

  /** The ids of a call's stored messages. */
  ghost function CallMessageIds(repo: map<Id, ChatMessage>, callId: Id): set<Id> {
    set k | k in repo && repo[k].callId == callId
  }

  /** `findByCallId`: the call must exist; then the repository's listing
      (passed in as `listing`) is returned. */
  function FindByCallId(calls: Calls.CallRepo, c: Cache<ChatMessage>, callId: Id, listing: seq<ChatMessage>)
    : (r: Result<seq<ChatMessage>, Error>)
    requires IsCallListing(c.repo, callId, listing)
    ensures r.Failure? <==> callId !in calls
    ensures r.Success? ==> r.value == listing && |r.value| == |CallMessageIds(c.repo, callId)|
  {
    ListingCount(c.repo, callId, listing);
    if callId !in calls then Failure(CallNotFound(callId)) else Success(listing)
  }

  /** `countMessagesByCallId`: the number of the call's stored messages. */
  function CountMessagesByCallId(calls: Calls.CallRepo, c: Cache<ChatMessage>, callId: Id, listing: seq<ChatMessage>)
    : (r: Result<nat, Error>)
    requires IsCallListing(c.repo, callId, listing)
    ensures r.Failure? <==> callId !in calls
    ensures r.Success? ==> r.value == |CallMessageIds(c.repo, callId)|
  {
    match FindByCallId(calls, c, callId, listing)
    case Failure(e) => Failure(e)
    case Success(ms) => Success(|ms|)
  }

  /** The ids of a listing's first `n` messages. */
  ghost function PrefixIds(listing: seq<ChatMessage>, n: nat): set<Id>
    requires n <= |listing|
  {
    set i | 0 <= i < n :: listing[i].id
  }

  /** A listing with distinct ids has as many messages as ids. */
  lemma {:induction false} DistinctIdsCount(listing: seq<ChatMessage>, n: nat)
    requires n <= |listing|
    requires forall i, j :: 0 <= i < j < |listing| ==> listing[i].id != listing[j].id
    ensures |PrefixIds(listing, n)| == n
    decreases n
  {
    if n > 0 {
      DistinctIdsCount(listing, n - 1);
      var before := PrefixIds(listing, n - 1);
      var now := PrefixIds(listing, n);
      assert listing[n - 1].id !in before;
      forall z | z in now ensures z in before + {listing[n - 1].id} { }
      forall z | z in before + {listing[n - 1].id} ensures z in now { }
      assert now <= before + {listing[n - 1].id} && before + {listing[n - 1].id} <= now;
      assert now == before + {listing[n - 1].id};
    }
  }

  /** The listing has exactly one entry per stored message of the call. */
  lemma ListingCount(repo: map<Id, ChatMessage>, callId: Id, listing: seq<ChatMessage>)
    requires IsCallListing(repo, callId, listing)
    ensures |listing| == |CallMessageIds(repo, callId)|
    ensures PrefixIds(listing, |listing|) == CallMessageIds(repo, callId)
  {
    DistinctIdsCount(listing, |listing|);
    var a, b := PrefixIds(listing, |listing|), CallMessageIds(repo, callId);
    forall z | z in a ensures z in b {
      var i :| 0 <= i < |listing| && listing[i].id == z;
    }
    forall z | z in b ensures z in a {
      var i :| 0 <= i < |listing| && listing[i].id == z;
    }
    assert a <= b && b <= a;
    assert a == b;
  }

  /** `deleteMessagesByCallId`: the call must exist; every message the
      listing returned is removed from repository and tree, one by one. */
  method DeleteMessagesByCallId(calls: Calls.CallRepo, c: Cache<ChatMessage>, callId: Id, listing: seq<ChatMessage>)
    returns (r: Result<Cache<ChatMessage>, Error>)
    requires EntityCache.Valid(c) && IsCallListing(c.repo, callId, listing)
    ensures r.Failure? <==> callId !in calls
    ensures r.Success? ==> EntityCache.Valid(r.value)
    ensures r.Success? ==> r.value.repo == c.repo - CallMessageIds(c.repo, callId)
    ensures r.Success? ==> ToMap(r.value.tree) == ToMap(c.tree) - CallMessageIds(c.repo, callId)
    ensures r.Success? && Mirrors(c) ==> Mirrors(r.value)
  {
    if callId !in calls {
      return Failure(CallNotFound(callId));
    }
    ListingCount(c.repo, callId, listing);
    var cur := c;
    var i := 0;
    while i < |listing|
      invariant 0 <= i <= |listing|
      invariant EntityCache.Valid(cur)
      invariant cur.repo == c.repo - PrefixIds(listing, i)
      invariant ToMap(cur.tree) == ToMap(c.tree) - PrefixIds(listing, i)
    {
      var id := listing[i].id;
      cur := Remove(cur, id);
      RemoveStep(c, listing, i);
      i := i + 1;
    }
    return Success(cur);
  }

  /** One more removal extends the removed prefix by one message. */
  lemma RemoveStep(c: Cache<ChatMessage>, listing: seq<ChatMessage>, i: nat)
    requires i < |listing|
    ensures var id := listing[i].id;
            && c.repo - PrefixIds(listing, i) - {id} == c.repo - PrefixIds(listing, i + 1)
            && ToMap(c.tree) - PrefixIds(listing, i) - {id} == ToMap(c.tree) - PrefixIds(listing, i + 1)
  {
    var id := listing[i].id;
    var a, b := PrefixIds(listing, i + 1), PrefixIds(listing, i) + {id};
    forall z | z in a ensures z in b { }
    forall z | z in b ensures z in a { }
    assert a <= b && b <= a;
    assert a == b;
    MapMinusTwice(c.repo, PrefixIds(listing, i), id);
    MapMinusTwice(ToMap(c.tree), PrefixIds(listing, i), id);
  }

  lemma MapMinusTwice<V>(m: map<Id, V>, s: set<Id>, id: Id)
    ensures m - s - {id} == m - (s + {id})
  {
    MapExt(m - s - {id}, m - (s + {id}));
  }

  /** What `updateMessage` leaves behind: the caches, and the failure when
      it throws. A failure can still have changed the tree (see
      `UpdateMessage`). */
  datatype UpdateOutcome =
    | Saved(cache: Cache<ChatMessage>)
    | Refused(cache: Cache<ChatMessage>, error: Error)

  /** `updateMessage`: the message must exist; its text is set on the
      instance `findById` returned, and the row is saved, deleted from the
      tree and re-inserted. When the tree held the message, that instance
      is the cached one, so the new text is in the tree before the save
      runs; a save refused for a blank text therefore leaves the tree with
      the blank text and the repository with the old one. */
  function UpdateMessage(c: Cache<ChatMessage>, id: Id, text: string): (r: UpdateOutcome)
    requires EntityCache.Valid(c)
    ensures EntityCache.Valid(r.cache)
    ensures FindById(c, id).Failure? ==> r == Refused(c, FindById(c, id).error)
    ensures FindById(c, id).Success? && IsBlank(text) ==> r.Refused? && r.error == BlankText
    ensures r.Refused? <==> FindById(c, id).Failure? || IsBlank(text)
    ensures r.Saved? ==>
              var m := FindById(c, id).value;
              && r.cache.repo == c.repo[m.id := m.(messageText := text)]
              && EntityCache.FindById(r.cache, m.id) == Some(m.(messageText := text))
    ensures r.Refused? ==> r.cache.repo == c.repo
    ensures r.Refused? && r.error == BlankText && id in ToMap(c.tree) ==>
              ToMap(r.cache.tree) == ToMap(c.tree)[id := ToMap(c.tree)[id].(messageText := text)]
    ensures r.Refused? && (r.error != BlankText || id !in ToMap(c.tree)) ==> r.cache == c
  {
    match FindById(c, id)
    case Failure(e) => Refused(c, e)
    case Success(m) =>
      if IsBlank(text) then
        if EntityCache.FindById(c, id).Some? then Refused(TreeInsert(c, id, m.(messageText := text)), BlankText)
        else Refused(c, BlankText)
      else
        UpdateLikeAdd(c, m.id, m.(messageText := text));
        Saved(Update(c, m.id, m.(messageText := text)))
  }

  /** A refused blank update of a cached message breaks the mirroring: the
      tree serves the blank text, the repository still holds the old one. */
  lemma BlankUpdateBreaksMirroring(c: Cache<ChatMessage>, id: Id, text: string)
    requires Mirrors(c) && id in c.repo && IsBlank(text) && c.repo[id].messageText != text
    ensures UpdateMessage(c, id, text).Refused?
    ensures !Mirrors(UpdateMessage(c, id, text).cache)
  {
    var r := UpdateMessage(c, id, text);
    assert ToMap(r.cache.tree)[id].messageText == text;
    assert r.cache.repo[id].messageText != text;
  }

  /** `deleteMessage`: the message must exist; then it is removed. */
  function DeleteMessage(c: Cache<ChatMessage>, id: Id): (r: Result<Cache<ChatMessage>, Error>)
    requires EntityCache.Valid(c)
    ensures r.Failure? <==> FindById(c, id).Failure?
    ensures r.Success? ==> r.value.repo == c.repo - {id} && ToMap(r.value.tree) == ToMap(c.tree) - {id}
  {
    if FindById(c, id).Failure? then Failure(MessageNotFound(id)) else Success(Remove(c, id))
  }

  /** `syncMessageAction`: "ADD" caches the repository's message if there
      is one, "REMOVE" removes the message (from the repository too), and
      anything else throws. */
  function SyncMessageAction(c: Cache<ChatMessage>, action: string, messageId: Id): (r: Result<Cache<ChatMessage>, Error>)
    requires EntityCache.Valid(c)
    ensures r.Failure? <==> action != "ADD" && action != "REMOVE"
    ensures r.Failure? ==> r.error == UnknownAction(action)
    ensures r.Success? ==> EntityCache.Valid(r.value)
    ensures action == "ADD" && messageId !in c.repo ==> r == Success(c)
    ensures action == "REMOVE" ==> r.Success? && messageId !in r.value.repo && messageId !in ToMap(r.value.tree)
  {
    if action == "ADD" then
      if messageId in c.repo then
        var m := c.repo[messageId];
        Success(TreeInsert(c, m.id, m))
      else
        Success(c)
    else if action == "REMOVE" then
      Success(Remove(c, messageId))
    else
      Failure(UnknownAction(action))
  }

  function IdOf(m: ChatMessage): Id {
    m.id
  }

  /** Replaying a message sync action twice has the same effect as once. */
  lemma SyncMessageIdempotent(c: Cache<ChatMessage>, action: string, messageId: Id)
    requires EntityCache.Valid(c) && KeyedBy(c, IdOf)
    requires action == "ADD" || action == "REMOVE"
    ensures var once := SyncMessageAction(c, action, messageId).value;
            && SyncMessageAction(once, action, messageId).Success?
            && SyncMessageAction(once, action, messageId).value.repo == once.repo
            && ToMap(SyncMessageAction(once, action, messageId).value.tree) == ToMap(once.tree)
    ensures action == "ADD" && messageId in c.repo ==>
              EntityCache.FindById(SyncMessageAction(c, action, messageId).value, messageId) == Some(c.repo[messageId])
  {
    var once := SyncMessageAction(c, action, messageId).value;
    var twice := SyncMessageAction(once, action, messageId).value;
    if action == "ADD" && messageId in c.repo {
      assert c.repo[messageId].id == messageId;
    }
    MapExt(ToMap(twice.tree), ToMap(once.tree));
  }
}

=== FILE: controller.dfy ===
/** WebSocketController: the guards each incoming STOMP message passes
    through, the recipient it picks, and what it hands to the matchmaking
    service, the chat message service and the broadcast service. The
    authenticated principal is the `sender`/`u` input. */
module Controller {
  import opened Wrappers
  import opened Entities
  import opened AvlTree
  import opened EntityCache
  import Matchmaking
  import ChatMessages
  import Relay
  import MatchStore

  /** Something the controller sends: through one of the `broadcastX`
      methods of the broadcast service, or directly through the messaging
      template to one user. */
  datatype Outgoing =
    | Broadcast(messageType: Relay.MessageType, target: Id, payload: Relay.Payload)
    | Direct(user: Id, destination: string, payload: Relay.Payload)

  /** The services the controller talks to. The user repository is the
      matchmaking state's `users`, cached by `userTree`; the call
      repository is its `calls`. */
  datatype Hub = Hub(mm: Matchmaking.State, userTree: Tree<User>, messages: Cache<ChatMessage>, out: seq<Outgoing>)

  /** The user cache the user service reads. */
  function UserCache(h: Hub): Cache<User> {
    Cache(h.mm.users, h.userTree)
  }

  ghost predicate HubValid(h: Hub) {
    EntityCache.Valid(UserCache(h)) && EntityCache.Valid(h.messages)
  }

  const StatusDestination: string := "/queue/status"
  const WaitingText: string := "Procurando alguém para conversar..."
  const CallEndedText: string := "Chamada encerrada"
  const UserNotFoundText: string := "Usuário não encontrado"
  const SendFailedText: string := "Erro ao enviar mensagem"

  /** `sendError`: an error message for `u` through `broadcastError`. */
  function SendError(h: Hub, u: Id, message: Relay.Value): (r: Hub)
    ensures r.mm == h.mm && r.userTree == h.userTree && r.messages == h.messages
    ensures |r.out| == |h.out| + 1 && r.out[..|h.out|] == h.out
    ensures r.out[|h.out|].Broadcast? && r.out[|h.out|].messageType == Relay.ErrorType
    ensures r.out[|h.out|].target == u && r.out[|h.out|].payload == map["error" := message]
  {
    h.(out := h.out + [Broadcast(Relay.ErrorType, u, map["error" := message])])
  }

  /** The recipient of a chat message or typing indicator: `user2` when the
      sender is `user1`, `user1` otherwise. */
  function Recipient(call: Call, sender: Id): (r: Id)
    ensures call.HasParticipant(r)
    ensures call.user1 != call.user2 && call.HasParticipant(sender) ==> r != sender
    ensures !call.HasParticipant(sender) ==> r == call.user1
  {
    if call.user1 == sender then call.user2 else call.user1
  }

  // ---------------------------------------------------------------------
  // /join-queue
  // ---------------------------------------------------------------------

  /** `joinQueue`: on success the user is told it is waiting (even when the
      join already produced a match); when the user is already in a call
      the exception's message goes back as an error and no status is sent. */
  function JoinQueue(h: Hub, u: Id, lookupFails: bool, now: int, newCallId: Id): (r: Hub)
    requires newCallId !in h.mm.calls
    ensures r.userTree == h.userTree && r.messages == h.messages
    ensures |r.out| == |h.out| + 1 && r.out[..|h.out|] == h.out
    ensures var j := Matchmaking.JoinQueue(h.mm, u, lookupFails, now, newCallId);
            j.Success? ==>
              && r.mm == j.value
              && r.out[|h.out|] == Direct(u, StatusDestination,
                                          map["status" := Relay.Text("waiting"), "message" := Relay.Text(WaitingText)])
    ensures var j := Matchmaking.JoinQueue(h.mm, u, lookupFails, now, newCallId);
            j.Failure? ==>
              && r.mm == h.mm
              && r.out[|h.out|] == Broadcast(Relay.ErrorType, u, map["error" := Relay.Reason(AlreadyInCall(u))])
  {
    match Matchmaking.JoinQueue(h.mm, u, lookupFails, now, newCallId)
    case Success(mm') =>
      var status := map["status" := Relay.Text("waiting"), "message" := Relay.Text(WaitingText)];
      h.(mm := mm', out := h.out + [Direct(u, StatusDestination, status)])
    case Failure(e) => SendError(h, u, Relay.Reason(e))
  }

  /** A user turned away from the queue gets exactly one message, an error,
      and receives no "waiting" status; the queue is untouched. */
  lemma RejectedJoinSendsOnlyError(h: Hub, u: Id, lookupFails: bool, now: int, newCallId: Id)
    requires newCallId !in h.mm.calls
    requires MatchStore.IsUserInCall(h.mm.store, u)
    requires Matchmaking.HasActiveCallInDatabase(h.mm.calls, u, lookupFails)
    ensures var r := JoinQueue(h, u, lookupFails, now, newCallId);
            && r.mm == h.mm
            && forall i :: |h.out| <= i < |r.out| ==> r.out[i].Broadcast? && r.out[i].messageType == Relay.ErrorType
  {
  }

  // ---------------------------------------------------------------------
  // /webrtc-signal
  // ---------------------------------------------------------------------

  /** The `WebRTCSignal` request body; absent fields are `None`. */
  datatype Signal = Signal(signalType: string, targetUserId: Option<Id>, callId: Option<Id>, data: Relay.Value)

  /** `handleWebRTCSignal`: a signal missing its target or its call is
      rejected (the exception is rethrown to the framework, nothing is sent);
      otherwise it is relayed to the target, stamped with the sender. */
  function WebRtcSignal(h: Hub, sender: Id, signal: Signal): (r: Result<Hub, Error>)
    ensures signal.targetUserId.None? ==> r == Failure(MissingField("targetUserId"))
    ensures signal.targetUserId.Some? && signal.callId.None? ==> r == Failure(MissingField("callId"))
    ensures r.Success? <==> signal.targetUserId.Some? && signal.callId.Some?
    ensures r.Success? ==> r.value.mm == h.mm && r.value.messages == h.messages
    ensures r.Success? ==> |r.value.out| == |h.out| + 1 && r.value.out[..|h.out|] == h.out
    ensures r.Success? ==>
              var o := r.value.out[|h.out|];
              && o.Broadcast? && o.messageType == Relay.WebRtcType
              && o.target == signal.targetUserId.value
              && o.payload.Keys == {"type", "senderId", "targetUserId", "callId", "data"}
              && o.payload["senderId"] == Relay.Num(sender)
              && o.payload["targetUserId"] == Relay.Num(signal.targetUserId.value)
              && o.payload["callId"] == Relay.Num(signal.callId.value)
              && o.payload["data"] == signal.data
  {
    if signal.targetUserId.None? then Failure(MissingField("targetUserId"))
    else if signal.callId.None? then Failure(MissingField("callId"))
    else
      var target := signal.targetUserId.value;
      var signalData := map[
        "type" := Relay.Text(signal.signalType),
        "senderId" := Relay.Num(sender),
        "targetUserId" := Relay.Num(target),
        "callId" := Relay.Num(signal.callId.value),
        "data" := signal.data];
      Success(h.(out := h.out + [Broadcast(Relay.WebRtcType, target, signalData)]))
  }

  // ---------------------------------------------------------------------
  // /chat-message
  // ---------------------------------------------------------------------

  /** The text an exception from `createMessage` is reported with: the
      IllegalArgumentException errors carry their own message, anything
      else (the state errors and the refused save of a blank text) is
      reported generically. */
  function ChatErrorValue(e: Error): (v: Relay.Value)
    ensures IsStateError(e) || e == BlankText ==> v == Relay.Text(SendFailedText)
    ensures !IsStateError(e) && e != BlankText ==> v == Relay.Reason(e)
  {
    if IsStateError(e) || e.BlankText? then Relay.Text(SendFailedText) else Relay.Reason(e)
  }

  /** The chat response broadcast to the recipient. */
  function ChatResponse(m: ChatMessage, sender: User, recipient: Id): Relay.Payload {
    map[
      "id" := Relay.Num(m.id),
      "callId" := Relay.Num(m.callId),
      "senderId" := Relay.Num(m.senderId),
      "senderName" := Relay.Text(sender.name),
      "recipientId" := Relay.Num(recipient),
      "message" := Relay.Text(m.messageText),
      "sentAt" := Relay.Num(m.sentAt)]
  }

  /** `handleChatMessage`: the call must exist and be ACTIVE and the sender
      must exist, otherwise the sender gets an error; then the message is
      stored and broadcast to the other participant. */
  function HandleChat(h: Hub, sender: Id, callId: Id, text: string, now: int, newId: Id): (r: Hub)
    requires HubValid(h) && newId !in h.messages.repo
    ensures r.mm == h.mm && r.userTree == h.userTree
    ensures |r.out| == |h.out| + 1 && r.out[..|h.out|] == h.out && r.out[|h.out|].Broadcast?
    ensures callId !in h.mm.calls || h.mm.calls[callId].status != Active ==>
              r == SendError(h, sender, Relay.Text(CallEndedText))
    ensures callId in h.mm.calls && h.mm.calls[callId].status == Active && sender !in h.mm.users ==>
              r == SendError(h, sender, Relay.Text(UserNotFoundText))
    ensures callId in h.mm.calls && h.mm.calls[callId].status == Active && sender in h.mm.users
            && h.mm.calls[callId].HasParticipant(sender) && IsBlank(text) ==>
              r == SendError(h, sender, Relay.Text(SendFailedText))
    ensures r.out[|h.out|].messageType == Relay.ChatType <==>
              callId in h.mm.calls && h.mm.calls[callId].status == Active && sender in h.mm.users
              && h.mm.calls[callId].HasParticipant(sender) && !IsBlank(text)
    ensures r.out[|h.out|].messageType == Relay.ChatType ==>
              var call := h.mm.calls[callId];
              && r.messages.repo == h.messages.repo[newId := ChatMessage(newId, callId, sender, text, now)]
              && r.out[|h.out|] == Broadcast(Relay.ChatType, Recipient(call, sender),
                                             ChatResponse(ChatMessage(newId, callId, sender, text, now),
                                                          h.mm.users[sender], Recipient(call, sender)))
    ensures r.out[|h.out|].messageType != Relay.ChatType ==> r.messages == h.messages
  {
    if callId !in h.mm.calls || h.mm.calls[callId].status != Active then
      SendError(h, sender, Relay.Text(CallEndedText))
    else if sender !in h.mm.users then
      SendError(h, sender, Relay.Text(UserNotFoundText))
    else
      match ChatMessages.CreateMessage(UserCache(h), h.mm.calls, h.messages, callId, sender, text, now, newId)
      case Failure(e) => SendError(h, sender, ChatErrorValue(e))
      case Success((messages', m)) =>
        var call := h.mm.calls[callId];
        var recipient := Recipient(call, sender);
        h.(messages := messages',
           out := h.out + [Broadcast(Relay.ChatType, recipient, ChatResponse(m, h.mm.users[sender], recipient))])
  }

  /** Only a participant of a running call can chat in it: anyone else gets
      the "not part of this call" validation message back, and nothing is
      stored or relayed. */
  lemma OutsiderCannotChat(h: Hub, sender: Id, callId: Id, text: string, now: int, newId: Id)
    requires HubValid(h) && newId !in h.messages.repo
    requires callId in h.mm.calls && h.mm.calls[callId].status == Active && sender in h.mm.users
    requires !h.mm.calls[callId].HasParticipant(sender)
    ensures HandleChat(h, sender, callId, text, now, newId) == SendError(h, sender, Relay.Reason(NotParticipant))
  {
  }

  /** A relayed chat message reaches the other participant of the call and
      never echoes back to its sender (unless the call pairs a user with
      itself). */
  lemma ChatGoesToPartner(h: Hub, sender: Id, callId: Id, text: string, now: int, newId: Id)
    requires HubValid(h) && newId !in h.messages.repo
    ensures var r := HandleChat(h, sender, callId, text, now, newId);
            r.out[|h.out|].messageType == Relay.ChatType ==>
              var call := h.mm.calls[callId];
              && call.HasParticipant(sender) && call.HasParticipant(r.out[|h.out|].target)
              && (call.user1 != call.user2 ==> r.out[|h.out|].target != sender)
  {
  }

  // ---------------------------------------------------------------------
  // /typing
  // ---------------------------------------------------------------------

  /** `handleTyping`: ignored on a missing or finished call; otherwise the
      indicator (typing unless the request says otherwise) goes to the
      recipient. The sender is not checked against the call. */
  function HandleTyping(h: Hub, sender: Id, callId: Id, isTyping: Option<bool>): (r: Hub)
    ensures r.mm == h.mm && r.userTree == h.userTree && r.messages == h.messages
    ensures callId !in h.mm.calls || h.mm.calls[callId].status != Active ==> r == h
    ensures callId in h.mm.calls && h.mm.calls[callId].status == Active ==>
              && |r.out| == |h.out| + 1 && r.out[..|h.out|] == h.out
              && r.out[|h.out|].Broadcast? && r.out[|h.out|].messageType == Relay.TypingType
              && r.out[|h.out|].target == Recipient(h.mm.calls[callId], sender)
              && r.out[|h.out|].payload.Keys == {"isTyping", "userId"}
              && r.out[|h.out|].payload["userId"] == Relay.Num(sender)
              && r.out[|h.out|].payload["isTyping"] == Relay.Flag(isTyping.GetOr(true))
  {
    if callId !in h.mm.calls || h.mm.calls[callId].status != Active then h
    else
      var typingData := map["isTyping" := Relay.Flag(isTyping.GetOr(true)), "userId" := Relay.Num(sender)];
      h.(out := h.out + [Broadcast(Relay.TypingType, Recipient(h.mm.calls[callId], sender), typingData)])
  }

  /** A typing indicator without an explicit flag says the sender is typing,
      and it goes where a chat message from the same sender would go. */
  lemma TypingDefaultsToTyping(h: Hub, sender: Id, callId: Id)
    requires callId in h.mm.calls && h.mm.calls[callId].status == Active
    ensures var r := HandleTyping(h, sender, callId, None);
            r.out[|h.out|].payload["isTyping"] == Relay.Flag(true)
            && r.out[|h.out|].target == Recipient(h.mm.calls[callId], sender)
  {
  }

  // ---------------------------------------------------------------------
  // /logout
  // ---------------------------------------------------------------------

  /** `handleLogout`: the matchmaking cleanup for the caller, nothing else. */
  function Logout(h: Hub, u: Id, now: int): (r: Hub)
    ensures r.userTree == h.userTree && r.messages == h.messages && r.out == h.out
    ensures multiset(r.mm.store.queue) == multiset(h.mm.store.queue) - multiset{u}
    ensures r.mm.store.sessions == h.mm.store.sessions - {u}
    ensures u in h.mm.users ==> r.mm.users == h.mm.users[u := h.mm.users[u].(isOnline := false)]
    ensures r.mm.calls == Matchmaking.EndActiveCallForUser(h.mm, u, now).calls
    ensures r.mm.sent == Matchmaking.EndActiveCallForUser(h.mm, u, now).sent
    ensures r.mm.store.presence == Matchmaking.EndActiveCallForUser(h.mm, u, now).store.presence
    ensures r.mm == Matchmaking.CleanupUserOnDisconnect(h.mm, u, now)
  {
    h.(mm := Matchmaking.CleanupUserOnDisconnect(h.mm, u, now))
  }
}

=== FILE: entities.dfy ===
/** The persistent records. Associations to other entities are held by id;
    timestamps are whole seconds supplied by the caller. */
module Entities {
  import opened Wrappers

  /** The user record. Its class is not part of this model: only the fields
      the services read or write appear here. */
  datatype User = User(id: Id, name: string, email: string, isOnline: bool, isActive: bool)

  datatype CallType = Video | Audio

  datatype CallStatus = Active | Completed | Cancelled

  /** A call between `user1` and `user2`. `endedAt` and `durationSeconds`
      stay empty while the call is running. */
  datatype Call = Call(
    id: Id,
    user1: Id,
    user2: Id,
    startedAt: int,
    endedAt: Option<int>,
    durationSeconds: Option<int>,
    callType: CallType,
    status: CallStatus)
  {
    predicate HasParticipant(u: Id) {
      user1 == u || user2 == u
    }
  }

  /** A freshly constructed call: the field initialisers make it a VIDEO call
      in status ACTIVE, with no end time and no duration. */
  function NewCall(id: Id, user1: Id, user2: Id, startedAt: int): (c: Call)
    ensures c.id == id && c.user1 == user1 && c.user2 == user2 && c.startedAt == startedAt
    ensures c.callType == Video && c.status == Active
    ensures c.endedAt.None? && c.durationSeconds.None?
  {
    Call(id, user1, user2, startedAt, None, None, Video, Active)
  }

  /** Close a call at time `now`: record the end time, the final status and
      the elapsed whole seconds, narrowed to an `int` as `(int)
      duration.getSeconds()` does. */
  function Finish(call: Call, status: CallStatus, now: int): (r: Call)
    ensures r.status == status && r.endedAt == Some(now)
    ensures r.durationSeconds.Some? && -TwoTo31 <= r.durationSeconds.value < TwoTo31
    ensures r.id == call.id && r.user1 == call.user1 && r.user2 == call.user2
    ensures r.startedAt == call.startedAt && r.callType == call.callType
  {
    call.(endedAt := Some(now), status := status, durationSeconds := Some(Int32Wrap(now - call.startedAt)))
  }

  /** A call that ran for less than 2^31 seconds records exactly its length;
      a longer one wraps around, and the recorded duration can then be
      negative. */
  lemma FinishDuration(call: Call, status: CallStatus, now: int)
    ensures 0 <= now - call.startedAt < TwoTo31 ==>
              Finish(call, status, now).durationSeconds == Some(now - call.startedAt)
    ensures now - call.startedAt == TwoTo31 ==> Finish(call, status, now).durationSeconds == Some(-TwoTo31)
  {
  }

  datatype Follow = Follow(id: Id, follower: Id, following: Id, followedAt: int)

  datatype ChatMessage = ChatMessage(id: Id, callId: Id, senderId: Id, messageText: string, sentAt: int)

  datatype CallRating = CallRating(id: Id, callId: Id, raterId: Id, rating: int, comment: Option<string>, createdAt: int)

  /** Why an operation failed. Each case stands for one thrown exception
      (IllegalArgumentException or IllegalStateException) with its message. */
  datatype Error =
    | UserNotFound(userId: Id)
    | EmailNotFound(email: string)
    | EmailTaken(email: string)
    | UnknownAction(action: string)
    | CallNotFound(callId: Id)
    | SelfCall
    | CallAlreadyEnded(callId: Id)
    | SelfFollow
    | AlreadyFollowing
    | NotFollowing
    | NotParticipant
    | CallNotActive
    | CallStillActive
    | RatingOutOfRange(rating: int)
    | MessageNotFound(messageId: Id)
    | RatingNotFound(ratingId: Id)
    | AlreadyInCall(userId: Id)
    | MissingField(field: string)
    | BlankText

  /** Java's `String.trim`: strip every leading and trailing character up
      to U+0020. */
  function Trim(s: string): string {
    TrimEnd(TrimStart(s))
  }

  function TrimStart(s: string): string
    decreases |s|
  {
    if |s| > 0 && s[0] <= ' ' then TrimStart(s[1..]) else s
  }

  function TrimEnd(s: string): string
    decreases |s|
  {
    if |s| > 0 && s[|s| - 1] <= ' ' then TrimEnd(s[..|s| - 1]) else s
  }

  /** The `@NotBlank` rule on a chat message's text: nothing is left after
      `trim`, which happens exactly when every character is at most U+0020.
      A message with such a text is refused when it is saved. */
  predicate IsBlank(s: string): (b: bool)
    ensures b <==> forall i :: 0 <= i < |s| ==> s[i] <= ' '
  {
    TrimBlank(s);
    |Trim(s)| == 0
  }

  lemma {:induction false} TrimStartBlank(s: string)
    ensures |TrimStart(s)| == 0 <==> forall i :: 0 <= i < |s| ==> s[i] <= ' '
    ensures |TrimStart(s)| > 0 ==> TrimStart(s)[0] > ' '
    decreases |s|
  {
    if |s| > 0 && s[0] <= ' ' {
      TrimStartBlank(s[1..]);
      if |TrimStart(s[1..])| > 0 {
        var i :| 0 <= i < |s[1..]| && s[1..][i] > ' ';
        assert s[i + 1] > ' ';
      }
    }
  }

  /** `TrimEnd` never empties a string that starts with a visible character. */
  lemma {:induction false} TrimEndKeepsHead(s: string)
    requires |s| > 0 && s[0] > ' '
    ensures |TrimEnd(s)| > 0
    decreases |s|
  {
    if s[|s| - 1] <= ' ' {
      assert |s| > 1;
      assert s[..|s| - 1][0] == s[0];
      TrimEndKeepsHead(s[..|s| - 1]);
    }
  }

  lemma TrimBlank(s: string)
    ensures |Trim(s)| == 0 <==> forall i :: 0 <= i < |s| ==> s[i] <= ' '
  {
    TrimStartBlank(s);
    if |TrimStart(s)| > 0 {
      TrimEndKeepsHead(TrimStart(s));
    }
  }

  /** The failures thrown as IllegalStateException. `BlankText` is the bean
      validation failure of a save; all others are thrown as
      IllegalArgumentException. */
  predicate IsStateError(e: Error) {
    e.CallAlreadyEnded? || e.AlreadyFollowing? || e.CallNotActive? || e.CallStillActive? || e.AlreadyInCall?
  }

  const TwoTo31: int := 0x8000_0000
  const TwoTo32: int := 0x1_0000_0000

  /** Java's `(int)` narrowing of a `long`: keep the low 32 bits, read them
      as a two's-complement number. */
  function Int32Wrap(x: int): (r: int)
    ensures -TwoTo31 <= r < TwoTo31
    ensures (x - r) % TwoTo32 == 0
    ensures -TwoTo31 <= x < TwoTo31 ==> r == x
  {
    var low := x % TwoTo32;
    if low >= TwoTo31 then low - TwoTo32 else low
  }
}

=== FILE: entity_cache.dfy ===
/** The tree-backed caches (UserTree, CallTree, ChatMessageTree,
    CallRatingTree, FollowTree). Each one pairs a repository with an AVL
    tree keyed by the rows' ids, and every write goes to the repository
    first and is then mirrored into the tree. The five classes differ only
    in the row type, so one generic cache models all of them. */
module EntityCache {
  import opened Wrappers
  import opened AvlTree

  datatype Cache<V> = Cache(repo: map<Id, V>, tree: Tree<V>)

  /** The tree is a well-formed AVL tree. The services also write the tree
      directly (the sync actions), so this is all a cache keeps by itself. */
  ghost predicate Valid<V>(c: Cache<V>) {
    AvlTree.Valid(c.tree)
  }

  /** The tree holds exactly the repository's rows. */
  ghost predicate Mirrors<V>(c: Cache<V>) {
    AvlTree.Valid(c.tree) && ToMap(c.tree) == c.repo
  }

  /** Every row, in the repository and in the tree, sits under its own id
      (the id the repository generated when it was first saved). */
  ghost predicate KeyedBy<V>(c: Cache<V>, idOf: V -> Id) {
    && (forall k :: k in c.repo ==> idOf(c.repo[k]) == k)
    && (forall k :: k in ToMap(c.tree) ==> idOf(ToMap(c.tree)[k]) == k)
  }

  /** The map a listing of rows describes (a later row with the same id
      wins, as a later insert does). */
  ghost function RowsMap<V>(rows: seq<(Id, V)>): map<Id, V>
    decreases |rows|
  {
    if |rows| == 0 then map[]
    else RowsMap(rows[..|rows| - 1])[rows[|rows| - 1].0 := rows[|rows| - 1].1]
  }

  /** The loop of `loadFromDatabase`: insert the rows in listing order into
      an empty tree. */
  function LoadTree<V>(rows: seq<(Id, V)>): (t: Tree<V>)
    ensures AvlTree.Valid(t) && ToMap(t) == RowsMap(rows)
    decreases |rows|
  {
    if |rows| == 0 then Clear()
    else
      var last := rows[|rows| - 1];
      InsertNode(LoadTree(rows[..|rows| - 1]), last.0, last.1)
  }

  /** `loadFromDatabase`: clear the tree and insert every row `findAll`
      lists; whatever the tree held before, it ends up mirroring the
      repository. */
  function LoadFromDatabase<V>(c: Cache<V>, rows: seq<(Id, V)>): (r: Cache<V>)
    requires RowsMap(rows) == c.repo
    ensures Mirrors(r) && r.repo == c.repo
  {
    Cache(c.repo, LoadTree(rows))
  }

  /** `addX`: save the row under the id the repository assigned, then insert
      it into the tree. */
  function Add<V>(c: Cache<V>, id: Id, row: V): (r: Cache<V>)
    requires Valid(c)
    ensures Valid(r)
    ensures r.repo == c.repo[id := row]
    ensures ToMap(r.tree) == ToMap(c.tree)[id := row]
    ensures Mirrors(c) ==> Mirrors(r)
  {
    Cache(c.repo[id := row], InsertNode(c.tree, id, row))
  }

  /** `updateX`: save the row, then delete and re-insert its id. */
  function Update<V>(c: Cache<V>, id: Id, row: V): (r: Cache<V>)
    requires Valid(c)
    ensures Valid(r)
    ensures r.repo == c.repo[id := row]
    ensures Mirrors(c) ==> Mirrors(r)
  {
    var t := DeleteNode(c.tree, id);
    var t' := InsertNode(t, id, row);
    assert ToMap(t') == ToMap(c.tree)[id := row] by {
      MapExt(ToMap(t'), ToMap(c.tree)[id := row]);
    }
    Cache(c.repo[id := row], t')
  }

  /** `removeX`: delete the row from the repository and the tree. */
  function Remove<V>(c: Cache<V>, id: Id): (r: Cache<V>)
    requires Valid(c)
    ensures Valid(r)
    ensures r.repo == c.repo - {id}
    ensures ToMap(r.tree) == ToMap(c.tree) - {id}
    ensures Mirrors(c) ==> Mirrors(r)
  {
    Cache(c.repo - {id}, DeleteNode(c.tree, id))
  }

  /** `findById` of a cache: a tree lookup only. */
  function FindById<V>(c: Cache<V>, id: Id): (r: Option<V>)
    requires Valid(c)
    ensures r.Some? <==> id in ToMap(c.tree)
    ensures r.Some? ==> r.value == ToMap(c.tree)[id]
  {
    Search(c.tree, id)
  }

  /** `getAllXSorted`: the in-order traversal. */
  function AllSorted<V>(c: Cache<V>): (r: seq<V>)
    requires Valid(c)
    ensures |r| == Size(c.tree) == |ToMap(c.tree)|
  {
    InOrderSorted(c.tree);
    SizeIsKeyCount(c.tree);
    InOrder(c.tree)
  }

  /** The rows `getAllXSorted` returns are the cached rows in strictly
      ascending id order: position i holds the row stored under the i-th
      smallest id. */
  lemma AllSortedAscending<V>(c: Cache<V>)
    requires Valid(c)
    ensures var ks := InOrderKeys(c.tree);
            && |ks| == |AllSorted(c)|
            && (forall i, j :: 0 <= i < j < |ks| ==> ks[i] < ks[j])
            && (forall i :: 0 <= i < |ks| ==> ks[i] in ToMap(c.tree) && AllSorted(c)[i] == ToMap(c.tree)[ks[i]])
            && (forall k :: k in ToMap(c.tree) <==> k in ks)
  {
    InOrderSorted(c.tree);
  }

  /** `updateX` and `addX` leave the same contents behind; `updateX` keeps
      the number of cached rows when the id was already cached. */
  lemma UpdateLikeAdd<V>(c: Cache<V>, id: Id, row: V)
    requires Valid(c)
    ensures ToMap(Update(c, id, row).tree) == ToMap(Add(c, id, row).tree)
    ensures FindById(Update(c, id, row), id) == Some(row)
    ensures id in ToMap(c.tree) ==> Size(Update(c, id, row).tree) == Size(c.tree)
  {
    var t := DeleteNode(c.tree, id);
    var t' := InsertNode(t, id, row);
    MapExt(ToMap(t'), ToMap(c.tree)[id := row]);
    SizeIsKeyCount(c.tree);
    SizeIsKeyCount(t');
    assert ToMap(c.tree)[id := row].Keys == ToMap(c.tree).Keys + {id};
  }

  /** The tree-only insert the sync actions perform (`tree.insert`). */
  function TreeInsert<V>(c: Cache<V>, id: Id, row: V): (r: Cache<V>)
    requires Valid(c)
    ensures Valid(r) && r.repo == c.repo
    ensures ToMap(r.tree) == ToMap(c.tree)[id := row]
  {
    Cache(c.repo, InsertNode(c.tree, id, row))
  }

  /** The tree-only delete the sync actions perform (`tree.delete`). */
  function TreeDelete<V>(c: Cache<V>, id: Id): (r: Cache<V>)
    requires Valid(c)
    ensures Valid(r) && r.repo == c.repo
    ensures ToMap(r.tree) == ToMap(c.tree) - {id}
  {
    Cache(c.repo, DeleteNode(c.tree, id))
  }
}

=== FILE: follows.dfy ===
/** FollowTree's in-order finders and FollowService. */
module Follows {
  import opened Wrappers
  import opened Entities
  import opened AvlTree
  import opened EntityCache
  import Users

  function IdOf(f: Follow): Id {
    f.id
  }

  // ---------------------------------------------------------------------
  // Scanning the in-order traversal
  // ---------------------------------------------------------------------

  /** The elements of `s` that satisfy `p`, in their order in `s`. */
  function Filter<T(!new)>(s: seq<T>, p: T -> bool): (r: seq<T>)
    ensures |r| <= |s|
    ensures forall x :: x in r <==> x in s && p(x)
    decreases |s|
  {
    if |s| == 0 then []
    else if p(s[0]) then [s[0]] + Filter(s[1..], p)
    else Filter(s[1..], p)
  }

  /** The first element of `s` that satisfies `p`. */
  function FirstWhere<T>(s: seq<T>, p: T -> bool): (r: Option<nat>)
    ensures r.None? <==> forall i :: 0 <= i < |s| ==> !p(s[i])
    ensures r.Some? ==> r.value < |s| && p(s[r.value]) && forall i :: 0 <= i < r.value ==> !p(s[i])
    decreases |s|
  {
    if |s| == 0 then None
    else if p(s[0]) then Some(0)
    else match FirstWhere(s[1..], p)
      case None => None
      case Some(i) => Some(i + 1)
  }

  /** The rows of `s` carry strictly increasing ids. */
  predicate IdsIncreasing(s: seq<Follow>) {
    forall i, j :: 0 <= i < j < |s| ==> s[i].id < s[j].id
  }

  /** Keeping some rows of a listing keeps its ids in increasing order. */
  lemma {:induction false} FilterKeepsIdOrder(s: seq<Follow>, p: Follow -> bool)
    requires IdsIncreasing(s)
    ensures IdsIncreasing(Filter(s, p))
    decreases |s|
  {
    if |s| > 0 {
      var tail := s[1..];
      assert IdsIncreasing(tail) by {
        forall i, j | 0 <= i < j < |tail| ensures tail[i].id < tail[j].id {
          assert tail[i] == s[i + 1] && tail[j] == s[j + 1];
        }
      }
      FilterKeepsIdOrder(tail, p);
      var ft := Filter(tail, p);
      if p(s[0]) {
        var r := [s[0]] + ft;
        forall i, j | 0 <= i < j < |r| ensures r[i].id < r[j].id {
          if i == 0 {
            assert r[j] in tail;
            var k :| 0 <= k < |tail| && tail[k] == r[j];
            assert s[k + 1] == r[j];
          } else {
            assert r[i] == ft[i - 1] && r[j] == ft[j - 1];
          }
        }
      }
    }
  }

  /** With rows keyed by id, the cached listing is in strictly increasing id
      order and holds exactly the cached rows. */
  lemma ListingFacts(c: Cache<Follow>)
    requires EntityCache.Valid(c) && KeyedBy(c, IdOf)
    ensures IdsIncreasing(AllSorted(c))
    ensures forall f :: f in AllSorted(c) <==> f.id in ToMap(c.tree) && ToMap(c.tree)[f.id] == f
  {
    ListingIdsIncreasing(c);
    var s := AllSorted(c);
    forall f ensures f in s <==> f.id in ToMap(c.tree) && ToMap(c.tree)[f.id] == f {
      if f.id in ToMap(c.tree) && ToMap(c.tree)[f.id] == f {
        var j := CachedRowListed(c, f.id);
      }
      if f in s {
        var i :| 0 <= i < |s| && s[i] == f;
        ListedRowCached(c, i);
      }
    }
  }

  lemma ListingIdsIncreasing(c: Cache<Follow>)
    requires EntityCache.Valid(c) && KeyedBy(c, IdOf)
    ensures IdsIncreasing(AllSorted(c))
  {
    AllSortedAscending(c);
    var s, ks := AllSorted(c), InOrderKeys(c.tree);
    assert forall i :: 0 <= i < |s| ==> s[i].id == ks[i];
  }

  /** What sits at a position of the listing is cached under its own id. */
  lemma ListedRowCached(c: Cache<Follow>, i: nat)
    requires EntityCache.Valid(c) && KeyedBy(c, IdOf) && i < |AllSorted(c)|
    ensures AllSorted(c)[i].id in ToMap(c.tree) && ToMap(c.tree)[AllSorted(c)[i].id] == AllSorted(c)[i]
  {
    AllSortedAscending(c);
    var ks := InOrderKeys(c.tree);
    assert ks[i] in ToMap(c.tree) && AllSorted(c)[i] == ToMap(c.tree)[ks[i]];
  }

  /** Where a cached row sits in the listing. */
  lemma CachedRowListed(c: Cache<Follow>, k: Id) returns (j: nat)
    requires EntityCache.Valid(c) && KeyedBy(c, IdOf) && k in ToMap(c.tree)
    ensures j < |AllSorted(c)| && AllSorted(c)[j] == ToMap(c.tree)[k] && AllSorted(c)[j].id == k
  {
    AllSortedAscending(c);
    var ks := InOrderKeys(c.tree);
    j :| 0 <= j < |ks| && ks[j] == k;
  }

  // ---------------------------------------------------------------------
  // FollowTree finders
  // ---------------------------------------------------------------------

  function FindByFollowerId(c: Cache<Follow>, follower: Id): (r: seq<Follow>)
    requires EntityCache.Valid(c)
    ensures forall f :: f in r ==> f.follower == follower && f in AllSorted(c)
  {
    Filter(AllSorted(c), (f: Follow) => f.follower == follower)
  }

  function FindByFollowingId(c: Cache<Follow>, following: Id): (r: seq<Follow>)
    requires EntityCache.Valid(c)
    ensures forall f :: f in r ==> f.following == following && f in AllSorted(c)
  {
    Filter(AllSorted(c), (f: Follow) => f.following == following)
  }

  predicate IsPair(f: Follow, follower: Id, following: Id) {
    f.follower == follower && f.following == following
  }

  function FindByFollowerAndFollowing(c: Cache<Follow>, follower: Id, following: Id): (r: Option<Follow>)
    requires EntityCache.Valid(c)
    ensures r.Some? ==> IsPair(r.value, follower, following) && r.value in AllSorted(c)
    ensures r.None? <==> forall f :: f in AllSorted(c) ==> !IsPair(f, follower, following)
  {
    var s := AllSorted(c);
    match FirstWhere(s, (f: Follow) => IsPair(f, follower, following))
    case None => None
    case Some(i) => Some(s[i])
  }

  /** The two list finders return exactly the cached follows of that
      follower (followee), in strictly ascending id order. */
  lemma FindersAreExact(c: Cache<Follow>, u: Id)
    requires EntityCache.Valid(c) && KeyedBy(c, IdOf)
    ensures forall f :: f in FindByFollowerId(c, u) <==>
              f.id in ToMap(c.tree) && ToMap(c.tree)[f.id] == f && f.follower == u
    ensures forall f :: f in FindByFollowingId(c, u) <==>
              f.id in ToMap(c.tree) && ToMap(c.tree)[f.id] == f && f.following == u
    ensures IdsIncreasing(FindByFollowerId(c, u)) && IdsIncreasing(FindByFollowingId(c, u))
  {
    ListingFacts(c);
    FilterKeepsIdOrder(AllSorted(c), (f: Follow) => f.follower == u);
    FilterKeepsIdOrder(AllSorted(c), (f: Follow) => f.following == u);
  }

  /** `findByFollowerAndFollowing` returns the cached follow of that pair
      with the lowest id, and nothing exactly when no cached follow has
      that pair. */
  lemma PairFinderIsLowest(c: Cache<Follow>, a: Id, b: Id)
    requires EntityCache.Valid(c) && KeyedBy(c, IdOf)
    ensures var r := FindByFollowerAndFollowing(c, a, b);
            && (r.None? <==> forall k :: k in ToMap(c.tree) ==> !IsPair(ToMap(c.tree)[k], a, b))
            && (r.Some? ==> r.value.id in ToMap(c.tree) && ToMap(c.tree)[r.value.id] == r.value
                            && forall k :: k in ToMap(c.tree) && IsPair(ToMap(c.tree)[k], a, b) ==> r.value.id <= k)
  {
    if FindByFollowerAndFollowing(c, a, b).None? {
      PairFinderNone(c, a, b);
    } else {
      PairFinderSome(c, a, b);
    }
  }

  /** The pair finder finds nothing only when no cached follow has the pair. */
  lemma PairFinderNone(c: Cache<Follow>, a: Id, b: Id)
    requires EntityCache.Valid(c) && KeyedBy(c, IdOf)
    requires FindByFollowerAndFollowing(c, a, b).None?
    ensures forall k :: k in ToMap(c.tree) ==> !IsPair(ToMap(c.tree)[k], a, b)
  {
    var m := ToMap(c.tree);
    forall k | k in m ensures !IsPair(m[k], a, b) {
      var j := CachedRowListed(c, k);
    }
  }

  /** A follow the pair finder returns is cached, has the pair, and has the
      lowest id among the cached follows of that pair. */
  lemma PairFinderSome(c: Cache<Follow>, a: Id, b: Id)
    requires EntityCache.Valid(c) && KeyedBy(c, IdOf)
    requires FindByFollowerAndFollowing(c, a, b).Some?
    ensures var r := FindByFollowerAndFollowing(c, a, b).value;
            && r.id in ToMap(c.tree) && ToMap(c.tree)[r.id] == r && IsPair(r, a, b)
            && forall k :: k in ToMap(c.tree) && IsPair(ToMap(c.tree)[k], a, b) ==> r.id <= k
  {
    var s := AllSorted(c);
    var i := PairFinderIndex(c, a, b);
    ListedRowCached(c, i);
    ListingIdsIncreasing(c);
    forall k | k in ToMap(c.tree) && IsPair(ToMap(c.tree)[k], a, b) ensures s[i].id <= k {
      var j := CachedRowListed(c, k);
      PairBeforeFirst(s, a, b, i, j);
    }
  }

  /** The position in the listing of the follow the pair finder returns:
      the first row of the pair. */
  lemma PairFinderIndex(c: Cache<Follow>, a: Id, b: Id) returns (i: nat)
    requires EntityCache.Valid(c)
    requires FindByFollowerAndFollowing(c, a, b).Some?
    ensures i < |AllSorted(c)| && FindByFollowerAndFollowing(c, a, b).value == AllSorted(c)[i]
    ensures IsPair(AllSorted(c)[i], a, b)
    ensures forall x :: 0 <= x < i ==> !IsPair(AllSorted(c)[x], a, b)
  {
    var s := AllSorted(c);
    var p := (f: Follow) => IsPair(f, a, b);
    i := FirstWhere(s, p).value;
    assert forall x :: 0 <= x < i ==> !p(s[x]);
  }

  /** In a listing with increasing ids, a row of the pair at position `j`
      carries an id no smaller than the first row of the pair, at `i`. */
  lemma PairBeforeFirst(s: seq<Follow>, a: Id, b: Id, i: nat, j: nat)
    requires IdsIncreasing(s) && i < |s| && j < |s|
    requires forall x :: 0 <= x < i ==> !IsPair(s[x], a, b)
    requires IsPair(s[j], a, b)
    ensures s[i].id <= s[j].id
  {
    if i < j {
      assert s[i].id < s[j].id;
    }
  }

  // ---------------------------------------------------------------------
  // FollowService
  // ---------------------------------------------------------------------

  /** `follow(a, b)`: following oneself is rejected before anything else;
      both users must exist; an existing follow of the pair is rejected;
      otherwise the follow is saved under the id the repository assigns
      and cached. */
  function DoFollow(users: Cache<User>, c: Cache<Follow>, follower: Id, following: Id,
                    now: int, newId: Id): (r: Result<(Cache<Follow>, Follow), Error>)
    requires EntityCache.Valid(users) && EntityCache.Valid(c) && newId !in c.repo
    ensures follower == following ==> r == Failure(SelfFollow)
    ensures follower != following && Users.FindById(users, follower).Failure? ==>
              r == Failure(UserNotFound(follower))
    ensures follower != following && Users.FindById(users, follower).Success?
            && Users.FindById(users, following).Failure? ==>
              r == Failure(UserNotFound(following))
    ensures follower != following && Users.FindById(users, follower).Success?
            && Users.FindById(users, following).Success?
            && FindByFollowerAndFollowing(c, follower, following).Some? ==>
              r == Failure(AlreadyFollowing)
    ensures r.Success? <==>
              && follower != following
              && Users.FindById(users, follower).Success? && Users.FindById(users, following).Success?
              && FindByFollowerAndFollowing(c, follower, following).None?
    ensures r.Success? ==>
              var (c', f) := r.value;
              && f == Follow(newId, follower, following, now)
              && c'.repo == c.repo[newId := f] && ToMap(c'.tree) == ToMap(c.tree)[newId := f]
              && EntityCache.Valid(c')
  {
    if follower == following then Failure(SelfFollow)
    else if Users.FindById(users, follower).Failure? then Failure(UserNotFound(follower))
    else if Users.FindById(users, following).Failure? then Failure(UserNotFound(following))
    else if FindByFollowerAndFollowing(c, follower, following).Some? then Failure(AlreadyFollowing)
    else
      var f := Follow(newId, follower, following, now);
      Success((Add(c, newId, f), f))
  }

  /** A follow that succeeds makes the pair followed. */
  lemma FollowThenIsFollowing(users: Cache<User>, c: Cache<Follow>, a: Id, b: Id, now: int, newId: Id)
    requires EntityCache.Valid(users) && EntityCache.Valid(c) && newId !in c.repo
    requires DoFollow(users, c, a, b, now, newId).Success?
    ensures IsFollowing(DoFollow(users, c, a, b, now, newId).value.0, a, b)
  {
    var c' := DoFollow(users, c, a, b, now, newId).value.0;
    var f := Follow(newId, a, b, now);
    assert newId in ToMap(c'.tree) && ToMap(c'.tree)[newId] == f;
    ListingFactsPlain(c');
    assert f in AllSorted(c') && IsPair(f, a, b);
  }

  /** The listing holds every cached row (no id discipline needed). */
  lemma ListingFactsPlain(c: Cache<Follow>)
    requires EntityCache.Valid(c)
    ensures forall k :: k in ToMap(c.tree) ==> ToMap(c.tree)[k] in AllSorted(c)
  {
    AllSortedAscending(c);
    var s, ks := AllSorted(c), InOrderKeys(c.tree);
    forall k | k in ToMap(c.tree) ensures ToMap(c.tree)[k] in s {
      var i :| 0 <= i < |ks| && ks[i] == k;
      assert s[i] == ToMap(c.tree)[k];
    }
  }

  /** `unfollow(a, b)`: the pair must be followed; its follow (the one the
      finder returns) is removed from repository and tree. */
  function Unfollow(c: Cache<Follow>, follower: Id, following: Id): (r: Result<Cache<Follow>, Error>)
    requires EntityCache.Valid(c)
    ensures r.Failure? <==> FindByFollowerAndFollowing(c, follower, following).None?
    ensures r.Failure? ==> r.error == NotFollowing
    ensures r.Success? ==>
              var id := FindByFollowerAndFollowing(c, follower, following).value.id;
              && r.value.repo == c.repo - {id} && ToMap(r.value.tree) == ToMap(c.tree) - {id}
              && EntityCache.Valid(r.value)
  {
    match FindByFollowerAndFollowing(c, follower, following)
    case None => Failure(NotFollowing)
    case Some(f) => Success(Remove(c, f.id))
  }

  /** With at most one follow per pair (the table's unique constraint), an
      unfollow leaves the pair not followed. */
  lemma UnfollowThenNotFollowing(c: Cache<Follow>, a: Id, b: Id)
    requires EntityCache.Valid(c) && KeyedBy(c, IdOf)
    requires forall j, k ::
               j in ToMap(c.tree) && k in ToMap(c.tree) && IsPair(ToMap(c.tree)[j], a, b) && IsPair(ToMap(c.tree)[k], a, b)
               ==> j == k
    requires Unfollow(c, a, b).Success?
    ensures !IsFollowing(Unfollow(c, a, b).value, a, b)
  {
    var c' := Unfollow(c, a, b).value;
    var id := FindByFollowerAndFollowing(c, a, b).value.id;
    PairFinderIsLowest(c, a, b);
    ListingFacts(c);
    forall f | f in AllSorted(c') ensures !IsPair(f, a, b) {
      ListingFactsPlain(c');
      AllSortedAscending(c');
      var s, ks := AllSorted(c'), InOrderKeys(c'.tree);
      var i :| 0 <= i < |s| && s[i] == f;
      assert ks[i] in ToMap(c'.tree);
      assert ks[i] in ToMap(c.tree) && ks[i] != id;
    }
  }

  /** `isFollowing`. */
  function IsFollowing(c: Cache<Follow>, follower: Id, following: Id): (r: bool)
    requires EntityCache.Valid(c)
    ensures r <==> exists f :: f in AllSorted(c) && IsPair(f, follower, following)
  {
    FindByFollowerAndFollowing(c, follower, following).Some?
  }

  /** `getFollowing`: the user must exist; the followees, in follow-id order. */
  function GetFollowing(users: Cache<User>, c: Cache<Follow>, u: Id): (r: Result<seq<Id>, Error>)
    requires EntityCache.Valid(users) && EntityCache.Valid(c)
    ensures r.Failure? <==> Users.FindById(users, u).Failure?
    ensures r.Success? ==> |r.value| == CountFollowing(c, u)
    ensures r.Success? ==> forall i :: 0 <= i < |r.value| ==> r.value[i] == FindByFollowerId(c, u)[i].following
  {
    if Users.FindById(users, u).Failure? then Failure(UserNotFound(u))
    else Success(seq(|FindByFollowerId(c, u)|, i requires 0 <= i < |FindByFollowerId(c, u)| => FindByFollowerId(c, u)[i].following))
  }

  /** `getFollowers`: the user must exist; the followers, in follow-id order. */
  function GetFollowers(users: Cache<User>, c: Cache<Follow>, u: Id): (r: Result<seq<Id>, Error>)
    requires EntityCache.Valid(users) && EntityCache.Valid(c)
    ensures r.Failure? <==> Users.FindById(users, u).Failure?
    ensures r.Success? ==> |r.value| == CountFollowers(c, u)
    ensures r.Success? ==> forall i :: 0 <= i < |r.value| ==> r.value[i] == FindByFollowingId(c, u)[i].follower
  {
    if Users.FindById(users, u).Failure? then Failure(UserNotFound(u))
    else Success(seq(|FindByFollowingId(c, u)|, i requires 0 <= i < |FindByFollowingId(c, u)| => FindByFollowingId(c, u)[i].follower))
  }

  /** `countFollowing`. */
  function CountFollowing(c: Cache<Follow>, u: Id): (r: nat)
    requires EntityCache.Valid(c)
    ensures r <= |ToMap(c.tree)|
  {
    |FindByFollowerId(c, u)|
  }

  /** `countFollowers`. */
  function CountFollowers(c: Cache<Follow>, u: Id): (r: nat)
    requires EntityCache.Valid(c)
    ensures r <= |ToMap(c.tree)|
  {
    |FindByFollowingId(c, u)|
  }

  /** `syncFollowAction`, replaying another server's write into the tree:
      "ADD" caches the repository's follow unless the tree has the id,
      "REMOVE" deletes a cached id, and anything else does nothing. */
  function SyncFollowAction(c: Cache<Follow>, action: string, followId: Id): (r: Cache<Follow>)
    requires EntityCache.Valid(c)
    ensures EntityCache.Valid(r) && r.repo == c.repo
    ensures action != "ADD" && action != "REMOVE" ==> r == c
    ensures action == "ADD" && (followId !in c.repo || followId in ToMap(c.tree)) ==> r == c
    ensures action == "REMOVE" ==> ToMap(r.tree) == ToMap(c.tree) - {followId}
  {
    if action == "ADD" then
      if followId in c.repo && EntityCache.FindById(c, followId).None? then
        var f := c.repo[followId];
        TreeInsert(c, f.id, f)
      else c
    else if action == "REMOVE" then
      if EntityCache.FindById(c, followId).Some? then TreeDelete(c, followId)
      else
        assert ToMap(c.tree) - {followId} == ToMap(c.tree) by {
          MapExt(ToMap(c.tree) - {followId}, ToMap(c.tree));
        }
        c
    else c
  }

  /** Replaying a follow sync action a second time changes nothing at all,
      and after "ADD" the tree holds the repository's follow. */
  lemma SyncFollowIdempotent(c: Cache<Follow>, action: string, followId: Id)
    requires EntityCache.Valid(c) && KeyedBy(c, IdOf)
    ensures var once := SyncFollowAction(c, action, followId);
            SyncFollowAction(once, action, followId) == once
    ensures action == "ADD" && followId in c.repo ==> followId in ToMap(SyncFollowAction(c, action, followId).tree)
  {
    if action == "ADD" && followId in c.repo {
      assert c.repo[followId].id == followId;
    }
  }
}

=== FILE: match_store.dfy ===
/** RedisMatchmakingService: the shared matchmaking state kept in Redis, a
    FIFO list of waiting user ids plus two key families, "in call" (user id to
    partner id, called presence here) and "session" (user id to WebSocket
    session id). Key expiry is not modelled. */
module MatchStore {
  import opened Wrappers

  datatype Store = Store(queue: seq<Id>, presence: map<Id, Id>, sessions: map<Id, string>)

  // ---------------------------------------------------------------------
  // List primitives
  // ---------------------------------------------------------------------

  /** LPOP: the head of the list and the rest, or nothing from an empty list. */
  function LeftPop(q: seq<Id>): (r: (Option<Id>, seq<Id>))
    ensures |q| == 0 ==> r == (None, q)
    ensures |q| > 0 ==> r.0 == Some(q[0]) && [q[0]] + r.1 == q
  {
    if |q| == 0 then (None, q) else (Some(q[0]), q[1..])
  }

  /** The position of the first occurrence of `u`. */
  function FirstIndex(q: seq<Id>, u: Id): (i: nat)
    requires u in q
    ensures i < |q| && q[i] == u && u !in q[..i]
  {
    if q[0] == u then 0
    else
      assert u in q[1..];
      var j := FirstIndex(q[1..], u);
      assert q[..j + 1] == [q[0]] + q[1..][..j];
      j + 1
  }

  /** LREM with count 1: drop the first occurrence of `u`, if any. */
  function RemoveFirst(q: seq<Id>, u: Id): (r: seq<Id>)
    ensures u !in q ==> r == q
    ensures u in q ==> exists i :: 0 <= i < |q| && q[i] == u && u !in q[..i] && r == q[..i] + q[i + 1..]
  {
    if u in q then
      var i := FirstIndex(q, u);
      q[..i] + q[i + 1..]
    else
      q
  }

  /** Removing the first occurrence takes exactly one copy of `u` out of the
      multiset of waiting ids (none when `u` is not waiting). */
  lemma RemoveFirstCount(q: seq<Id>, u: Id)
    ensures multiset(RemoveFirst(q, u)) == multiset(q) - multiset{u}
    ensures |RemoveFirst(q, u)| == |q| - (if u in q then 1 else 0)
  {
    if u in q {
      var i := FirstIndex(q, u);
      var front, back := q[..i], q[i + 1..];
      assert q == front + [u] + back;
      DropMiddle(front, u, back);
    } else {
      NotInMultiset(q, u);
    }
  }

  lemma DropMiddle(front: seq<Id>, u: Id, back: seq<Id>)
    ensures multiset(front + back) == multiset(front + [u] + back) - multiset{u}
  {
    var mq, mr := multiset(front + [u] + back), multiset(front + back);
    assert mq == multiset(front) + multiset{u} + multiset(back);
    assert mr == multiset(front) + multiset(back);
    forall x ensures mr[x] == (mq - multiset{u})[x] { }
  }

  lemma NotInMultiset(q: seq<Id>, u: Id)
    requires u !in q
    ensures multiset(q) == multiset(q) - multiset{u}
  {
    var mq := multiset(q);
    assert mq[u] == 0;
    forall x ensures mq[x] == (mq - multiset{u})[x] { }
  }

  // ---------------------------------------------------------------------
  // Queue operations
  // ---------------------------------------------------------------------

  /** `joinQueue`: RPUSH, with no check that the user is already waiting. */
  function JoinQueue(s: Store, u: Id): (r: Store)
    ensures |r.queue| == |s.queue| + 1 && r.queue[|s.queue|] == u && r.queue[..|s.queue|] == s.queue
    ensures r.presence == s.presence && r.sessions == s.sessions
  {
    s.(queue := s.queue + [u])
  }

  /** `leaveQueue`: remove the first occurrence of the user. */
  function LeaveQueue(s: Store, u: Id): (r: Store)
    ensures u !in s.queue ==> r == s
    ensures u in s.queue ==>
              exists i :: 0 <= i < |s.queue| && s.queue[i] == u && u !in s.queue[..i]
                          && r.queue == s.queue[..i] + s.queue[i + 1..]
    ensures multiset(r.queue) == multiset(s.queue) - multiset{u}
    ensures r.presence == s.presence && r.sessions == s.sessions
  {
    RemoveFirstCount(s.queue, u);
    s.(queue := RemoveFirst(s.queue, u))
  }

  /** `tryMatch`: pop two ids from the head; if only one was there, push it
      back onto the head. */
  function TryMatch(s: Store): (r: (Store, Option<(Id, Id)>))
    ensures |s.queue| >= 2 ==> r.1 == Some((s.queue[0], s.queue[1])) && r.0.queue == s.queue[2..]
    ensures |s.queue| < 2 ==> r.1.None? && r.0.queue == s.queue
    ensures r.0.presence == s.presence && r.0.sessions == s.sessions
  {
    var (u1, q1) := LeftPop(s.queue);
    var (u2, q2) := LeftPop(q1);
    if u1.Some? && u2.Some? then
      (s.(queue := q2), Some((u1.value, u2.value)))
    else if u1.Some? then
      (s.(queue := [u1.value] + q2), None)
    else
      (s.(queue := q2), None)
  }

  /** `getQueueSize`: LLEN, 0 for a missing key (an empty list). */
  function QueueSize(s: Store): (n: nat)
    ensures n == |multiset(s.queue)|
    ensures n == 0 <==> s.queue == []
  {
    |s.queue|
  }

  /** `getQueueUsers`: the whole list, head first. */
  function QueueUsers(s: Store): (r: seq<Id>)
    ensures r == s.queue
  {
    if QueueSize(s) == 0 then [] else s.queue
  }

  /** The size and listing the queue reports follow its pushes and removals. */
  lemma QueueSizeTracks(s: Store, u: Id)
    ensures QueueUsers(s) == s.queue
    ensures QueueSize(JoinQueue(s, u)) == QueueSize(s) + 1
    ensures QueueSize(LeaveQueue(s, u)) == QueueSize(s) - (if u in QueueUsers(s) then 1 else 0)
    ensures QueueSize(TryMatch(s).0) == if QueueSize(s) >= 2 then QueueSize(s) - 2 else QueueSize(s)
  {
    RemoveFirstCount(s.queue, u);
  }

  // ---------------------------------------------------------------------
  // Presence ("in call") and sessions
  // ---------------------------------------------------------------------

  /** `setUserInCall`. */
  function SetUserInCall(s: Store, u: Id, partner: Id): (r: Store)
    ensures r.presence == s.presence[u := partner]
    ensures r.queue == s.queue && r.sessions == s.sessions
  {
    s.(presence := s.presence[u := partner])
  }

  /** `removeUserFromCall`. */
  function RemoveUserFromCall(s: Store, u: Id): (r: Store)
    ensures r.presence == s.presence - {u}
    ensures r.queue == s.queue && r.sessions == s.sessions
  {
    s.(presence := s.presence - {u})
  }

  /** `isUserInCall`: the presence key exists. */
  predicate IsUserInCall(s: Store, u: Id) {
    u in s.presence
  }

  /** `getPartnerUserId`, which the service calls but the store does not
      define: read here as the value of the user's presence key. */
  function GetPartnerUserId(s: Store, u: Id): (r: Option<Id>)
    ensures r.Some? <==> IsUserInCall(s, u)
    ensures r.Some? ==> r.value == s.presence[u]
  {
    if u in s.presence then Some(s.presence[u]) else None
  }

  /** `saveUserSession`. */
  function SaveUserSession(s: Store, u: Id, session: string): (r: Store)
    ensures r.sessions == s.sessions[u := session]
    ensures r.queue == s.queue && r.presence == s.presence
  {
    s.(sessions := s.sessions[u := session])
  }

  /** `removeUserSession`. */
  function RemoveUserSession(s: Store, u: Id): (r: Store)
    ensures r.sessions == s.sessions - {u}
    ensures r.queue == s.queue && r.presence == s.presence
  {
    s.(sessions := s.sessions - {u})
  }

  /** `getUserSession`. */
  function GetUserSession(s: Store, u: Id): (r: Option<string>)
    ensures r.Some? <==> u in s.sessions
    ensures r.Some? ==> r.value == s.sessions[u]
  {
    if u in s.sessions then Some(s.sessions[u]) else None
  }

  /** Sessions behave as a map keyed by user id: a save is read back, a
      removal is read back as absent, and other users are unaffected. */
  lemma SessionsAreAMap(s: Store, u: Id, v: Id, session: string)
    ensures GetUserSession(SaveUserSession(s, u, session), u) == Some(session)
    ensures GetUserSession(RemoveUserSession(s, u), u) == None
    ensures u != v ==> GetUserSession(SaveUserSession(s, u, session), v) == GetUserSession(s, v)
    ensures u != v ==> GetUserSession(RemoveUserSession(s, u), v) == GetUserSession(s, v)
  {
  }

  /** A presence write: `setUserInCall(user, partner)` or `removeUserFromCall(user)`. */
  datatype PresenceOp = SetInCall(user: Id, partner: Id) | RemoveFromCall(user: Id)

  function ApplyPresence(s: Store, ops: seq<PresenceOp>): (r: Store)
    ensures r.queue == s.queue && r.sessions == s.sessions
    decreases |ops|
  {
    if |ops| == 0 then s
    else
      var s' := match ops[0]
        case SetInCall(u, p) => SetUserInCall(s, u, p)
        case RemoveFromCall(u) => RemoveUserFromCall(s, u);
      ApplyPresence(s', ops[1..])
  }

  /** The last write in `ops` that concerns user `u`, if any. */
  function LastWriteFor(ops: seq<PresenceOp>, u: Id): Option<PresenceOp>
    decreases |ops|
  {
    if |ops| == 0 then None
    else if ops[|ops| - 1].user == u then Some(ops[|ops| - 1])
    else LastWriteFor(ops[..|ops| - 1], u)
  }

  /** After any sequence of presence writes, a user is in a call exactly when
      the last write about that user was a `setUserInCall` (or, with no such
      write, when they were in a call before), with that write's partner. */
  lemma {:induction false} PresenceFollowsLastWrite(s: Store, ops: seq<PresenceOp>, u: Id)
    ensures var r := ApplyPresence(s, ops);
            match LastWriteFor(ops, u)
            case None => (IsUserInCall(r, u) <==> IsUserInCall(s, u)) && (u in s.presence ==> r.presence[u] == s.presence[u])
            case Some(SetInCall(_, p)) => IsUserInCall(r, u) && r.presence[u] == p
            case Some(RemoveFromCall(_)) => !IsUserInCall(r, u)
    decreases |ops|
  {
    if |ops| > 0 {
      var init := ops[..|ops| - 1];
      PresenceFollowsLastWrite(s, init, u);
      ApplySplit(s, init, [ops[|ops| - 1]]);
      assert init + [ops[|ops| - 1]] == ops;
    }
  }

  /** Applying two batches of writes one after the other is applying their
      concatenation in one go. */
  lemma {:induction false} ApplySplit(s: Store, a: seq<PresenceOp>, b: seq<PresenceOp>)
    ensures ApplyPresence(s, a + b) == ApplyPresence(ApplyPresence(s, a), b)
    decreases |a|
  {
    if |a| == 0 {
      assert a + b == b;
    } else {
      var s' := match a[0]
        case SetInCall(u, p) => SetUserInCall(s, u, p)
        case RemoveFromCall(u) => RemoveUserFromCall(s, u);
      assert (a + b)[0] == a[0];
      assert (a + b)[1..] == a[1..] + b;
      ApplySplit(s', a[1..], b);
    }
  }

  // ---------------------------------------------------------------------
  // Clearing
  // ---------------------------------------------------------------------

  /** `clearQueue`. */
  function ClearQueue(s: Store): (r: Store)
    ensures r.queue == [] && r.presence == s.presence && r.sessions == s.sessions
  {
    s.(queue := [])
  }

  /** `clearAllMatchmakingData`: the queue key and every presence and session key go. */
  function ClearAll(s: Store): (r: Store)
    ensures QueueSize(r) == 0
    ensures forall u :: !IsUserInCall(r, u) && GetUserSession(r, u).None?
  {
    Store([], map[], map[])
  }
}

=== FILE: matchmaking.dfy ===
/** MatchmakingService: the queue, presence and session store, the user and
    call repositories, and the notifications sent to users, as one state
    that every public method transforms. The clock is the `now` input
    (whole seconds); the id the call repository assigns is `newCallId`. */
module Matchmaking {
  import opened Wrappers
  import opened Entities
  import opened MatchStore
  import opened Repository

  /** A notification pushed to one user through the broadcast service:
      `broadcastMatchFound` or `broadcastCallEnded` with its payload. */
  datatype Notification =
    | MatchFound(to: Id, callId: Id, peerId: Id, peerName: string)
    | CallEnded(to: Id, endedCall: Option<Id>, reason: string, partnerId: Option<Id>)

  datatype State = State(store: Store, calls: map<Id, Call>, users: map<Id, User>, sent: seq<Notification>)

  predicate ActiveWith(call: Call, u: Id) {
    call.status == Active && call.HasParticipant(u)
  }

  /** The call the service picks as "the user's active call": the scan of
      the ACTIVE calls stops at the first one containing the user; the
      repository's listing is read as ordered by id. */
  function ActiveCallOf(calls: map<Id, Call>, u: Id): (r: Option<Id>)
    ensures r.None? <==> forall k :: k in calls ==> !ActiveWith(calls[k], u)
    ensures r.Some? ==> r.value in calls && ActiveWith(calls[r.value], u)
    ensures r.Some? ==> forall k :: k in calls && ActiveWith(calls[k], u) ==> r.value <= k
  {
    LeastKeyWhere(calls, (c: Call) => ActiveWith(c, u))
  }

  /** `hasActiveCallInDatabase`: some ACTIVE call contains the user; a
      failing query (`lookupFails`) counts as no such call. */
  function HasActiveCallInDatabase(calls: map<Id, Call>, u: Id, lookupFails: bool): (r: bool)
    ensures r <==> !lookupFails && exists k :: k in calls && ActiveWith(calls[k], u)
  {
    !lookupFails && ActiveCallOf(calls, u).Some?
  }

  /** The stale-presence clean-up of `joinQueue` and `forceCleanupCallState`
      as written: the user's own presence key is deleted first, so the
      following partner lookup never finds anything and the partner's key
      is never deleted. */
  function StaleRecovery(st: Store, u: Id): (r: Store)
    ensures r.presence == st.presence - {u}
    ensures r.queue == st.queue && r.sessions == st.sessions
  {
    var st1 := RemoveUserFromCall(st, u);
    match GetPartnerUserId(st1, u)
    case Some(p) => RemoveUserFromCall(st1, p)
    case None => st1
  }

  /** The partner's presence entry survives the stale-presence clean-up. */
  lemma StaleRecoveryKeepsPartner(st: Store, u: Id)
    requires u in st.presence && st.presence[u] != u && st.presence[u] in st.presence
    ensures var p := st.presence[u];
            IsUserInCall(StaleRecovery(st, u), p) && StaleRecovery(st, u).presence[p] == st.presence[p]
  {
  }

  /** The private `tryMatch`: with two or more queued users pop the two
      oldest; a user paired with itself goes back once, a pair with a
      missing user gives back only the existing ones (to the tail); a valid
      pair gets a new ACTIVE VIDEO call, presence both ways, and one
      match-found notification each, naming the other. */
  function TryMatch(s: State, now: int, newCallId: Id): (r: State)
    requires newCallId !in s.calls
    ensures |s.store.queue| < 2 ==> r == s
    ensures r.users == s.users && r.store.sessions == s.store.sessions
    ensures |s.store.queue| >= 2 ==>
              var (a, b) := (s.store.queue[0], s.store.queue[1]);
              var rest := s.store.queue[2..];
              if a == b then
                r == s.(store := s.store.(queue := rest + [a]))
              else if a !in s.users || b !in s.users then
                r == s.(store := s.store.(queue := rest + (if a in s.users then [a] else [])
                                                        + (if b in s.users then [b] else [])))
              else
                && r.store.queue == rest
                && r.calls == s.calls[newCallId := NewCall(newCallId, a, b, now)]
                && r.store.presence == s.store.presence[a := b][b := a]
                && r.sent == s.sent + [MatchFound(a, newCallId, b, s.users[b].name),
                                       MatchFound(b, newCallId, a, s.users[a].name)]
  {
    if QueueSize(s.store) < 2 then s
    else
      var (st, pair) := MatchStore.TryMatch(s.store);
      var (a, b) := pair.value;
      if a == b then
        s.(store := MatchStore.JoinQueue(st, a))
      else if a !in s.users || b !in s.users then
        var st1 := if a in s.users then MatchStore.JoinQueue(st, a) else st;
        var st2 := if b in s.users then MatchStore.JoinQueue(st1, b) else st1;
        s.(store := st2)
      else
        var call := NewCall(newCallId, a, b, now);
        var st1 := SetUserInCall(SetUserInCall(st, a, b), b, a);
        s.(store := st1,
           calls := s.calls[newCallId := call],
           sent := s.sent + [MatchFound(a, newCallId, b, s.users[b].name),
                             MatchFound(b, newCallId, a, s.users[a].name)])
  }

  /** A matching step creates a call only for a valid pair, and then it is
      a single ACTIVE VIDEO call between two distinct existing users who are
      each recorded as the other's partner and each told the same call id
      with the other as peer; no existing call changes and nothing is
      notified without a call. */
  lemma MatchIsConsistent(s: State, now: int, newCallId: Id)
    requires newCallId !in s.calls
    ensures var r := TryMatch(s, now, newCallId);
            && (forall k :: k in s.calls ==> k in r.calls && r.calls[k] == s.calls[k])
            && (r.calls == s.calls <==> r.sent == s.sent)
            && (r.calls != s.calls ==>
                  && r.calls.Keys == s.calls.Keys + {newCallId}
                  && var call := r.calls[newCallId];
                  && call.status == Active && call.callType == Video && call.startedAt == now
                  && call.user1 != call.user2 && call.user1 in s.users && call.user2 in s.users
                  && r.store.presence[call.user1] == call.user2 && r.store.presence[call.user2] == call.user1
                  && |r.sent| == |s.sent| + 2
                  && r.sent[|s.sent|] == MatchFound(call.user1, newCallId, call.user2, s.users[call.user2].name)
                  && r.sent[|s.sent| + 1] == MatchFound(call.user2, newCallId, call.user1, s.users[call.user1].name)
                  && |r.store.queue| == |s.store.queue| - 2)
  {
    var r := TryMatch(s, now, newCallId);
    if r.calls != s.calls {
      var keys := s.calls.Keys + {newCallId};
      forall z | z in r.calls.Keys ensures z in keys { }
      forall z | z in keys ensures z in r.calls.Keys { }
      assert r.calls.Keys <= keys && keys <= r.calls.Keys;
      assert newCallId in r.calls;
    }
  }

  /** `joinQueue`: a user whose presence key exists and who has an ACTIVE
      call is rejected with nothing changed; a user with a stale presence
      key loses it; then the user is appended and a match is attempted. */
  function JoinQueue(s: State, u: Id, lookupFails: bool, now: int, newCallId: Id): (r: Result<State, Error>)
    requires newCallId !in s.calls
    ensures r.Failure? <==> IsUserInCall(s.store, u) && HasActiveCallInDatabase(s.calls, u, lookupFails)
    ensures r.Failure? ==> r.error == AlreadyInCall(u)
    ensures r.Success? ==>
              var enqueued := s.store.(queue := s.store.queue + [u], presence := s.store.presence - {u});
              r.value == TryMatch(s.(store := enqueued), now, newCallId)
  {
    var inCall := IsUserInCall(s.store, u);
    if inCall && HasActiveCallInDatabase(s.calls, u, lookupFails) then
      Failure(AlreadyInCall(u))
    else
      var st := if inCall then StaleRecovery(s.store, u) else s.store;
      assert st.presence == s.store.presence - {u};
      Success(TryMatch(s.(store := MatchStore.JoinQueue(st, u)), now, newCallId))
  }

  /** `leaveQueue`. */
  function LeaveQueue(s: State, u: Id): (r: State)
    ensures u !in s.store.queue ==> r.store.queue == s.store.queue
    ensures u in s.store.queue ==>
              exists i :: 0 <= i < |s.store.queue| && s.store.queue[i] == u && u !in s.store.queue[..i]
                          && r.store.queue == s.store.queue[..i] + s.store.queue[i + 1..]
    ensures multiset(r.store.queue) == multiset(s.store.queue) - multiset{u}
    ensures r == s.(store := r.store) && r.store.presence == s.store.presence && r.store.sessions == s.store.sessions
  {
    RemoveFirstCount(s.store.queue, u);
    s.(store := MatchStore.LeaveQueue(s.store, u))
  }

  /** `registerSession`. */
  function RegisterSession(s: State, u: Id, session: string): (r: State)
    ensures GetUserSession(r.store, u) == Some(session)
    ensures r.store.sessions == s.store.sessions[u := session]
    ensures r == s.(store := r.store) && r.store.queue == s.store.queue && r.store.presence == s.store.presence
  {
    s.(store := SaveUserSession(s.store, u, session))
  }

  /** `unregisterSession`: drop the session, then leave the queue. */
  function UnregisterSession(s: State, u: Id): (r: State)
    ensures GetUserSession(r.store, u).None?
    ensures r.store.sessions == s.store.sessions - {u}
    ensures u !in s.store.queue ==> r.store.queue == s.store.queue
    ensures u in s.store.queue ==>
              exists i :: 0 <= i < |s.store.queue| && s.store.queue[i] == u && u !in s.store.queue[..i]
                          && r.store.queue == s.store.queue[..i] + s.store.queue[i + 1..]
    ensures multiset(r.store.queue) == multiset(s.store.queue) - multiset{u}
    ensures r == s.(store := r.store) && r.store.presence == s.store.presence
  {
    LeaveQueue(s.(store := RemoveUserSession(s.store, u)), u)
  }

  /** `endActiveCallForUser`: for a known user with an ACTIVE call, complete
      that call, clear both presence keys and tell only the partner. */
  function EndActiveCallForUser(s: State, u: Id, now: int): (r: State)
    ensures r.users == s.users && r.store.queue == s.store.queue && r.store.sessions == s.store.sessions
    ensures u !in s.users || ActiveCallOf(s.calls, u).None? ==> r == s
    ensures u in s.users && ActiveCallOf(s.calls, u).Some? ==>
              var id := ActiveCallOf(s.calls, u).value;
              var call := s.calls[id];
              var partner := if call.user1 == u then call.user2 else call.user1;
              && call.HasParticipant(partner)
              && r.calls == s.calls[id := Finish(call, Completed, now)]
              && r.store.presence == s.store.presence - {u} - {partner}
              && r.sent == s.sent + [CallEnded(partner, Some(id), "partner_disconnected", Some(u))]
  {
    if u !in s.users then s
    else
      match ActiveCallOf(s.calls, u)
      case None => s
      case Some(id) =>
        var call := s.calls[id];
        var partner := if call.user1 == u then call.user2 else call.user1;
        var st := RemoveUserFromCall(RemoveUserFromCall(s.store, u), partner);
        s.(calls := s.calls[id := Finish(call, Completed, now)],
           store := st,
           sent := s.sent + [CallEnded(partner, Some(id), "partner_disconnected", Some(u))])
  }

  /** Ending the active call reads neither the queue nor writes it. */
  lemma EndActiveIgnoresQueue(s: State, q: seq<Id>, u: Id, now: int)
    ensures var t := EndActiveCallForUser(s.(store := s.store.(queue := q)), u, now);
            var r := EndActiveCallForUser(s, u, now);
            t.calls == r.calls && t.sent == r.sent && t.store.presence == r.store.presence
  {
  }

  /** `cleanupUserOnDisconnect`: leave the queue, end the active call, drop
      the session, and mark a known user offline. */
  function CleanupUserOnDisconnect(s: State, u: Id, now: int): (r: State)
    ensures u !in s.store.queue ==> r.store.queue == s.store.queue
    ensures u in s.store.queue ==>
              exists i :: 0 <= i < |s.store.queue| && s.store.queue[i] == u && u !in s.store.queue[..i]
                          && r.store.queue == s.store.queue[..i] + s.store.queue[i + 1..]
    ensures multiset(r.store.queue) == multiset(s.store.queue) - multiset{u}
    ensures r.store.presence == EndActiveCallForUser(s, u, now).store.presence
    ensures r.store.sessions == s.store.sessions - {u}
    ensures r.users.Keys == s.users.Keys
    ensures u in s.users ==> r.users == s.users[u := s.users[u].(isOnline := false)]
    ensures u !in s.users ==> r.users == s.users
    ensures r.calls == EndActiveCallForUser(s, u, now).calls && r.sent == EndActiveCallForUser(s, u, now).sent
  {
    var s1 := LeaveQueue(s, u);
    EndActiveIgnoresQueue(s, s1.store.queue, u, now);
    var s2 := EndActiveCallForUser(s1, u, now);
    assert s2.store.queue == s1.store.queue;
    var s3 := s2.(store := RemoveUserSession(s2.store, u));
    if u in s3.users then
      var users' := s3.users[u := s3.users[u].(isOnline := false)];
      assert users'.Keys == s.users.Keys by {
        forall z | z in users'.Keys ensures z in s.users.Keys { }
        forall z | z in s.users.Keys ensures z in users'.Keys { }
        assert users'.Keys <= s.users.Keys && s.users.Keys <= users'.Keys;
      }
      s3.(users := users')
    else
      s3
  }

  /** At most one ACTIVE call contains the user. */
  ghost predicate AtMostOneActiveCall(calls: map<Id, Call>, u: Id) {
    forall j, k :: j in calls && k in calls && ActiveWith(calls[j], u) && ActiveWith(calls[k], u) ==> j == k
  }

  /** A disconnect clean-up leaves the user with no ACTIVE call, so a
      repeated clean-up completes nothing and notifies nobody. */
  lemma CleanupRepeatSendsNothing(s: State, u: Id, now: int, later: int)
    requires AtMostOneActiveCall(s.calls, u)
    ensures var once := CleanupUserOnDisconnect(s, u, now);
            var twice := CleanupUserOnDisconnect(once, u, later);
            && (u in s.users ==> ActiveCallOf(once.calls, u).None?)
            && twice.calls == once.calls && twice.sent == once.sent
  {
    var once := CleanupUserOnDisconnect(s, u, now);
    if u in s.users {
      match ActiveCallOf(s.calls, u)
      case None =>
      case Some(id) =>
        forall k | k in once.calls ensures !ActiveWith(once.calls[k], u) {
          if k != id {
            assert once.calls[k] == s.calls[k];
          }
        }
    }
  }

  /** `nextPerson`: if the user has a partner, clear both presence keys and
      tell the partner, then join the queue again. */
  function NextPerson(s: State, u: Id, lookupFails: bool, now: int, newCallId: Id): (r: Result<State, Error>)
    requires newCallId !in s.calls
    ensures r.Success?
    ensures forall k :: k in s.calls ==> k in r.value.calls && r.value.calls[k] == s.calls[k]
    ensures !IsUserInCall(s.store, u) ==> r == JoinQueue(s, u, lookupFails, now, newCallId)
    ensures IsUserInCall(s.store, u) ==>
              var p := s.store.presence[u];
              var s1 := s.(store := s.store.(presence := s.store.presence - {u} - {p}),
                           sent := s.sent + [CallEnded(p, None, "partner_next_person", Some(u))]);
              r == JoinQueue(s1, u, lookupFails, now, newCallId)
  {
    var s1 := match GetPartnerUserId(s.store, u)
      case Some(p) =>
        s.(store := RemoveUserFromCall(RemoveUserFromCall(s.store, u), p),
           sent := s.sent + [CallEnded(p, None, "partner_next_person", Some(u))])
      case None => s;
    assert !IsUserInCall(s1.store, u);
    var r := JoinQueue(s1, u, lookupFails, now, newCallId);
    MatchIsConsistent(s1.(store := s1.store.(queue := s1.store.queue + [u], presence := s1.store.presence - {u})), now, newCallId);
    r
  }

  /** MatchmakingService's `endCall(callId, userId)`: for a known call (in
      any status, and whoever `userId` is) complete it at `now`, clear both
      participants' presence keys and tell both participants. */
  function EndCall(s: State, callId: Id, userId: Id, now: int): (r: State)
    ensures callId !in s.calls ==> r == s
    ensures r.users == s.users && r.store.queue == s.store.queue && r.store.sessions == s.store.sessions
    ensures callId in s.calls ==>
              var call := s.calls[callId];
              && r.calls == s.calls[callId := Finish(call, Completed, now)]
              && r.store.presence == s.store.presence - {call.user1} - {call.user2}
              && r.sent == s.sent + [CallEnded(call.user1, Some(callId), "call_ended", None),
                                     CallEnded(call.user2, Some(callId), "call_ended", None)]
  {
    if callId !in s.calls then s
    else
      var call := s.calls[callId];
      var st := RemoveUserFromCall(RemoveUserFromCall(s.store, call.user1), call.user2);
      s.(calls := s.calls[callId := Finish(call, Completed, now)],
         store := st,
         sent := s.sent + [CallEnded(call.user1, Some(callId), "call_ended", None),
                           CallEnded(call.user2, Some(callId), "call_ended", None)])
  }

  /** Unlike CallService's `endCall`, this one has no ACTIVE guard: ending a
      call again re-stamps its end time and duration and notifies both
      participants again. */
  lemma EndCallRepeats(s: State, callId: Id, userId: Id, now: int, later: int)
    requires callId in s.calls
    ensures var once := EndCall(s, callId, userId, now);
            var twice := EndCall(once, callId, userId, later);
            && twice.calls[callId].status == Completed
            && twice.calls[callId].endedAt == Some(later)
            && twice.calls[callId].startedAt == s.calls[callId].startedAt
            && |twice.sent| == |s.sent| + 4
  {
  }

  /** `getUserCallId`: -1 for a user with a presence key, nothing otherwise. */
  function GetUserCallId(s: State, u: Id): (r: Option<int>)
    ensures r.Some? <==> IsUserInCall(s.store, u)
    ensures r.Some? ==> r.value == -1
  {
    if IsUserInCall(s.store, u) then Some(-1) else None
  }

  /** `forceCleanupCallState`: the same stale-presence clean-up as
      `joinQueue`, so only the user's own presence key goes. */
  function ForceCleanupCallState(s: State, u: Id): (r: State)
    ensures r == s.(store := s.store.(presence := s.store.presence - {u}))
  {
    s.(store := StaleRecovery(s.store, u))
  }
}

=== FILE: ratings.dfy ===
/** CallRatingService over the rating cache (CallRatingTree and its
    repository). */
module Ratings {
  import opened Wrappers
  import opened Entities
  import opened AvlTree
  import opened EntityCache
  import Users
  import Calls

  const MinRating: int := 1
  const MaxRating: int := 5
  /** The thresholds of `findTopRatings` and `findPositiveRatings`. */
  const TopThreshold: int := 5
  const PositiveThreshold: int := 4

  predicate InRange(rating: int) {
    MinRating <= rating <= MaxRating
  }

  /** `createRating(callId, raterId, rating, comment)`: the call, then the
      rater, must exist; the rater must be one of the call's users; the call
      must no longer be ACTIVE; the rating must lie in 1..5; then the rating
      is saved, stamped `now`, under the id the repository assigns. */
  function CreateRating(users: Cache<User>, calls: Calls.CallRepo, c: Cache<CallRating>,
                        callId: Id, raterId: Id, rating: int, comment: Option<string>, now: int, newId: Id)
    : (r: Result<(Cache<CallRating>, CallRating), Error>)
    requires EntityCache.Valid(users) && EntityCache.Valid(c) && newId !in c.repo
    ensures callId !in calls ==> r == Failure(CallNotFound(callId))
    ensures r.Success? <==>
              && callId in calls && Users.FindById(users, raterId).Success?
              && calls[callId].HasParticipant(raterId) && calls[callId].status != Active
              && InRange(rating)
    ensures r.Failure? && callId in calls && Users.FindById(users, raterId).Success?
              && calls[callId].HasParticipant(raterId) && calls[callId].status == Active ==>
              r.error == CallStillActive
    ensures r.Failure? && !InRange(rating) && callId in calls && Users.FindById(users, raterId).Success?
              && calls[callId].HasParticipant(raterId) && calls[callId].status != Active ==>
              r.error == RatingOutOfRange(rating)
    ensures r.Success? ==>
              var (c', rt) := r.value;
              && rt == CallRating(newId, callId, raterId, rating, comment, now)
              && c'.repo == c.repo[newId := rt] && ToMap(c'.tree) == ToMap(c.tree)[newId := rt]
              && EntityCache.Valid(c')
  {
    match Calls.FindById(calls, callId)
    case Failure(e) => Failure(e)
    case Success(call) =>
      if Users.FindById(users, raterId).Failure? then Failure(UserNotFound(raterId))
      else if !call.HasParticipant(raterId) then Failure(NotParticipant)
      else if call.status == Active then Failure(CallStillActive)
      else if !InRange(rating) then Failure(RatingOutOfRange(rating))
      else
        var rt := CallRating(newId, callId, raterId, rating, comment, now);
        Success((Add(c, newId, rt), rt))
  }

  /** Every rating the service stores lies in 1..5. */
  ghost predicate RatingsInRange(c: Cache<CallRating>) {
    (forall k :: k in c.repo ==> InRange(c.repo[k].rating))
    && (forall k :: k in ToMap(c.tree) ==> InRange(ToMap(c.tree)[k].rating))
  }

  /** Creating a rating keeps every stored rating in 1..5. */
  lemma CreateKeepsRatingsInRange(users: Cache<User>, calls: Calls.CallRepo, c: Cache<CallRating>,
                                  callId: Id, raterId: Id, rating: int, comment: Option<string>, now: int, newId: Id)
    requires EntityCache.Valid(users) && EntityCache.Valid(c) && newId !in c.repo && RatingsInRange(c)
    ensures var r := CreateRating(users, calls, c, callId, raterId, rating, comment, now, newId);
            r.Success? ==> RatingsInRange(r.value.0)
  {
    var r := CreateRating(users, calls, c, callId, raterId, rating, comment, now, newId);
    if r.Success? {
      var (c', rt) := r.value;
      assert InRange(rt.rating);
      WriteKeepsRange(c, c', newId, rt);
    }
  }

  /** Updating a rating keeps every stored rating in 1..5. */
  lemma UpdateKeepsRatingsInRange(c: Cache<CallRating>, id: Id, newRating: Option<int>, newComment: Option<string>)
    requires EntityCache.Valid(c) && RatingsInRange(c)
    ensures var r := UpdateRating(c, id, newRating, newComment);
            r.Success? ==> RatingsInRange(r.value)
  {
    var r := UpdateRating(c, id, newRating, newComment);
    if r.Success? {
      var before := FindById(c, id).value;
      assert InRange(before.rating);
      var after := r.value.repo[before.id];
      UpdateLikeAdd(c, before.id, after);
      WriteKeepsRange(c, r.value, before.id, after);
    }
  }

  /** Writing one in-range rating into repository and tree keeps the range. */
  lemma WriteKeepsRange(c: Cache<CallRating>, c': Cache<CallRating>, id: Id, rt: CallRating)
    requires RatingsInRange(c) && InRange(rt.rating)
    requires c'.repo == c.repo[id := rt] && ToMap(c'.tree) == ToMap(c.tree)[id := rt]
    ensures RatingsInRange(c')
  {
    forall k | k in c'.repo ensures InRange(c'.repo[k].rating) {
      if k != id {
        assert c'.repo[k] == c.repo[k];
      }
    }
    forall k | k in ToMap(c'.tree) ensures InRange(ToMap(c'.tree)[k].rating) {
      if k != id {
        assert ToMap(c'.tree)[k] == ToMap(c.tree)[k];
      }
    }
  }

  /** `findById`: the tree first, then the repository. */
  function FindById(c: Cache<CallRating>, id: Id): (r: Result<CallRating, Error>)
    requires EntityCache.Valid(c)
    ensures r.Failure? <==> id !in ToMap(c.tree) && id !in c.repo
    ensures r.Failure? ==> r.error == RatingNotFound(id)
    ensures r.Success? ==> r.value == (if id in ToMap(c.tree) then ToMap(c.tree)[id] else c.repo[id])
    ensures Mirrors(c) && r.Success? ==> r.value == c.repo[id]
  {
    match EntityCache.FindById(c, id)
    case Some(rt) => Success(rt)
    case None => if id in c.repo then Success(c.repo[id]) else Failure(RatingNotFound(id))
  }

  /** `getAllRatings`: the cached ratings in ascending id order. */
  function GetAllRatings(c: Cache<CallRating>): (r: seq<CallRating>)
    requires EntityCache.Valid(c)
    ensures |r| == |ToMap(c.tree)|
  {
    AllSorted(c)
  }

  /** `findByRatingGreaterThanEqual(min)`: the threshold must lie in 1..5;
      the repository query returns the stored ratings of at least `min`
      (their order is the database's and is not modelled: a map by id). */
  function FindByRatingGreaterThanEqual(c: Cache<CallRating>, min: int): (r: Result<map<Id, CallRating>, Error>)
    ensures r.Failure? <==> !InRange(min)
    ensures r.Failure? ==> r.error == RatingOutOfRange(min)
    ensures r.Success? ==> forall k :: k in r.value <==> k in c.repo && c.repo[k].rating >= min
    ensures r.Success? ==> forall k :: k in r.value ==> r.value[k] == c.repo[k]
  {
    if !InRange(min) then Failure(RatingOutOfRange(min))
    else Success(map k | k in c.repo && c.repo[k].rating >= min :: c.repo[k])
  }

  /** `findTopRatings`. */
  function FindTopRatings(c: Cache<CallRating>): (r: map<Id, CallRating>)
    ensures forall k :: k in r <==> k in c.repo && c.repo[k].rating >= 5
  {
    FindByRatingGreaterThanEqual(c, TopThreshold).value
  }

  /** `findPositiveRatings`. */
  function FindPositiveRatings(c: Cache<CallRating>): (r: map<Id, CallRating>)
    ensures forall k :: k in r <==> k in c.repo && c.repo[k].rating >= 4
  {
    FindByRatingGreaterThanEqual(c, PositiveThreshold).value
  }

  /** A higher threshold returns fewer ratings: every top rating is a
      positive one, and with ratings in range the top ones are exactly the
      fives. */
  lemma ThresholdsNest(c: Cache<CallRating>, lo: int, hi: int)
    requires InRange(lo) && InRange(hi) && lo <= hi
    ensures FindByRatingGreaterThanEqual(c, hi).value.Keys <= FindByRatingGreaterThanEqual(c, lo).value.Keys
    ensures FindTopRatings(c).Keys <= FindPositiveRatings(c).Keys
    ensures RatingsInRange(c) ==> forall k :: k in FindTopRatings(c) ==> FindTopRatings(c)[k].rating == MaxRating
  {
    var a, b := FindByRatingGreaterThanEqual(c, hi).value, FindByRatingGreaterThanEqual(c, lo).value;
    forall k | k in a.Keys ensures k in b.Keys { }
    var t, p := FindTopRatings(c), FindPositiveRatings(c);
    forall k | k in t.Keys ensures k in p.Keys { }
  }

  /** `updateRating(id, newRating, newComment)`: the rating must exist; an
      out-of-range new rating is rejected before anything changes; absent
      fields keep their values. */
  function UpdateRating(c: Cache<CallRating>, id: Id, newRating: Option<int>, newComment: Option<string>)
    : (r: Result<Cache<CallRating>, Error>)
    requires EntityCache.Valid(c)
    ensures r.Failure? <==> FindById(c, id).Failure? || (newRating.Some? && !InRange(newRating.value))
    ensures FindById(c, id).Failure? ==> r == Failure(RatingNotFound(id))
    ensures r.Success? ==>
              var before := FindById(c, id).value;
              && EntityCache.Valid(r.value)
              && before.id in r.value.repo
              && var after := r.value.repo[before.id];
              && after.rating == (if newRating.Some? then newRating.value else before.rating)
              && after.comment == (if newComment.Some? then newComment else before.comment)
              && after.(rating := before.rating, comment := before.comment) == before
              && r.value.repo == c.repo[before.id := after]
              && EntityCache.FindById(r.value, before.id) == Some(after)
  {
    match FindById(c, id)
    case Failure(e) => Failure(e)
    case Success(before) =>
      if newRating.Some? && !InRange(newRating.value) then Failure(RatingOutOfRange(newRating.value))
      else
        var after := before.(rating := newRating.GetOr(before.rating),
                             comment := if newComment.Some? then newComment else before.comment);
        UpdateLikeAdd(c, before.id, after);
        Success(Update(c, before.id, after))
  }

  /** `deleteRating`: the rating must exist; then it is removed. */
  function DeleteRating(c: Cache<CallRating>, id: Id): (r: Result<Cache<CallRating>, Error>)
    requires EntityCache.Valid(c)
    ensures r.Failure? <==> FindById(c, id).Failure?
    ensures r.Failure? ==> r.error == RatingNotFound(id)
    ensures r.Success? ==> r.value.repo == c.repo - {id} && ToMap(r.value.tree) == ToMap(c.tree) - {id}
  {
    if FindById(c, id).Failure? then Failure(RatingNotFound(id)) else Success(Remove(c, id))
  }
}

=== FILE: relay.dfy ===
/** RedisWebSocketBroadcastService and the message handlers: how a message
    for a user is built, delivered locally or published to the other
    servers, picked up by each server's listener, retried, and dispatched
    to the first handler that supports its type. */
module Relay {
  import opened Wrappers
  import opened Entities

  // ---------------------------------------------------------------------
  // Messages
  // ---------------------------------------------------------------------

  datatype MessageType = ChatType | TypingType | WebRtcType | MatchFoundType | CallEndedType | ErrorType

  /** A payload value. `Reason` stands for an exception message. */
  datatype Value = Text(s: string) | Num(n: int) | Flag(b: bool) | Reason(e: Error) | Null

  type Payload = map<string, Value>

  /** `WebSocketMessage`: the message id and the originating server's
      identifier are inputs (a random UUID and an environment lookup). */
  datatype Envelope = Envelope(
    messageId: string,
    messageType: MessageType,
    targetUserId: Id,
    destination: string,
    payload: Option<Payload>,
    serverId: string)

  const ChatDestination: string := "/queue/chat"
  const TypingDestination: string := "/queue/typing"
  const WebRtcDestination: string := "/queue/webrtc-signal"
  const MatchFoundDestination: string := "/queue/match-found"
  const CallEndedDestination: string := "/queue/call-ended"
  const ErrorDestination: string := "/queue/error"

  /** The fixed destination each `broadcastX` method sends its type to. */
  function Destination(t: MessageType): string {
    match t
    case ChatType => ChatDestination
    case TypingType => TypingDestination
    case WebRtcType => WebRtcDestination
    case MatchFoundType => MatchFoundDestination
    case CallEndedType => CallEndedDestination
    case ErrorType => ErrorDestination
  }

  /** `broadcastChatMessage`, `broadcastTypingIndicator`,
      `broadcastWebRTCSignal`, `broadcastMatchFound`, `broadcastCallEnded`
      and `broadcastError`: the message they build before publishing. */
  function BroadcastEnvelope(t: MessageType, target: Id, payload: Payload, messageId: string, serverId: string)
    : (e: Envelope)
    ensures e.messageType == t && e.destination == Destination(t)
    ensures e.targetUserId == target && e.payload == Some(payload)
    ensures e.messageId == messageId && e.serverId == serverId
  {
    Envelope(messageId, t, target, Destination(t), Some(payload), serverId)
  }

  // ---------------------------------------------------------------------
  // Destination classification
  // ---------------------------------------------------------------------

  /** `sub` occurs in `s` starting at position `i`. */
  predicate WindowAt(s: string, sub: string, i: int) {
    0 <= i && i + |sub| <= |s| && s[i..i + |sub|] == sub
  }

  /** `s.contains(sub)`. */
  predicate Contains(s: string, sub: string) {
    exists i | 0 <= i <= |s| - |sub| :: WindowAt(s, sub, i)
  }

  /** A string misses every pattern having a character the string lacks. */
  lemma MissingChar(s: string, sub: string, k: nat)
    requires k < |sub| && sub[k] !in s
    ensures !Contains(s, sub)
  {
    forall i | 0 <= i <= |s| - |sub| ensures !WindowAt(s, sub, i) {
      assert s[i..i + |sub|][k] == s[i + k];
      assert s[i + k] in s;
    }
  }

  /** The one pattern check no missing character settles. */
  lemma MatchFoundIsNotChat()
    ensures !Contains(MatchFoundDestination, "chat")
  {
    var s := MatchFoundDestination;
    forall i | 0 <= i <= |s| - 4 ensures !WindowAt(s, "chat", i) {
      assert s[i..i + 4][1] == s[i + 1] && s[i..i + 4][2] == s[i + 2];
      if s[i + 1] == 'h' {
        assert i == 10;
      }
    }
  }

  /** `determineMessageType`: the first of "chat", "typing", "webrtc",
      "match", "call-ended", "error" that the destination contains decides;
      a destination containing none of them is taken as chat. */
  function DetermineMessageType(destination: string): (t: MessageType)
    ensures Contains(destination, "chat") ==> t == ChatType
    ensures t == TypingType <==> !Contains(destination, "chat") && Contains(destination, "typing")
    ensures t == WebRtcType <==>
              !Contains(destination, "chat") && !Contains(destination, "typing") && Contains(destination, "webrtc")
    ensures t == MatchFoundType <==>
              !Contains(destination, "chat") && !Contains(destination, "typing") && !Contains(destination, "webrtc")
              && Contains(destination, "match")
    ensures t == CallEndedType <==>
              !Contains(destination, "chat") && !Contains(destination, "typing") && !Contains(destination, "webrtc")
              && !Contains(destination, "match") && Contains(destination, "call-ended")
    ensures t == ErrorType <==>
              !Contains(destination, "chat") && !Contains(destination, "typing") && !Contains(destination, "webrtc")
              && !Contains(destination, "match") && !Contains(destination, "call-ended") && Contains(destination, "error")
    ensures t == ChatType <==>
              Contains(destination, "chat")
              || (!Contains(destination, "typing") && !Contains(destination, "webrtc") && !Contains(destination, "match")
                  && !Contains(destination, "call-ended") && !Contains(destination, "error"))
  {
    if Contains(destination, "chat") then ChatType
    else if Contains(destination, "typing") then TypingType
    else if Contains(destination, "webrtc") then WebRtcType
    else if Contains(destination, "match") then MatchFoundType
    else if Contains(destination, "call-ended") then CallEndedType
    else if Contains(destination, "error") then ErrorType
    else ChatType
  }

  /** Each destination contains its own keyword, right after "/queue/". */
  lemma ChatHasKeyword()
    ensures Contains(ChatDestination, "chat")
  {
    assert ChatDestination[7..7 + |"chat"|] == "chat";
    assert WindowAt(ChatDestination, "chat", 7);
  }

  lemma TypingHasKeyword()
    ensures Contains(TypingDestination, "typing")
  {
    assert TypingDestination[7..7 + |"typing"|] == "typing";
    assert WindowAt(TypingDestination, "typing", 7);
  }

  lemma WebRtcHasKeyword()
    ensures Contains(WebRtcDestination, "webrtc")
  {
    assert WebRtcDestination[7..7 + |"webrtc"|] == "webrtc";
    assert WindowAt(WebRtcDestination, "webrtc", 7);
  }

  lemma MatchFoundHasKeyword()
    ensures Contains(MatchFoundDestination, "match")
  {
    assert MatchFoundDestination[7..7 + |"match"|] == "match";
    assert WindowAt(MatchFoundDestination, "match", 7);
  }

  lemma CallEndedHasKeyword()
    ensures Contains(CallEndedDestination, "call-ended")
  {
    assert CallEndedDestination[7..7 + |"call-ended"|] == "call-ended";
    assert WindowAt(CallEndedDestination, "call-ended", 7);
  }

  lemma ErrorHasKeyword()
    ensures Contains(ErrorDestination, "error")
  {
    assert ErrorDestination[7..7 + |"error"|] == "error";
    assert WindowAt(ErrorDestination, "error", 7);
  }

  lemma ChatClassified()
    ensures DetermineMessageType(ChatDestination) == ChatType
  {
    ChatHasKeyword();
  }

  lemma TypingClassified()
    ensures DetermineMessageType(TypingDestination) == TypingType
  {
    MissingChar(TypingDestination, "chat", 1);
    TypingHasKeyword();
  }

  lemma WebRtcClassified()
    ensures DetermineMessageType(WebRtcDestination) == WebRtcType
  {
    MissingChar(WebRtcDestination, "chat", 1);
    MissingChar(WebRtcDestination, "typing", 1);
    WebRtcHasKeyword();
  }

  lemma MatchFoundClassified()
    ensures DetermineMessageType(MatchFoundDestination) == MatchFoundType
  {
    MatchFoundIsNotChat();
    MissingChar(MatchFoundDestination, "typing", 1);
    MissingChar(MatchFoundDestination, "webrtc", 0);
    MatchFoundHasKeyword();
  }

  lemma CallEndedClassified()
    ensures DetermineMessageType(CallEndedDestination) == CallEndedType
  {
    MissingChar(CallEndedDestination, "chat", 1);
    MissingChar(CallEndedDestination, "typing", 1);
    MissingChar(CallEndedDestination, "webrtc", 0);
    MissingChar(CallEndedDestination, "match", 0);
    CallEndedHasKeyword();
  }

  lemma ErrorClassified()
    ensures DetermineMessageType(ErrorDestination) == ErrorType
  {
    MissingChar(ErrorDestination, "chat", 0);
    MissingChar(ErrorDestination, "typing", 1);
    MissingChar(ErrorDestination, "webrtc", 0);
    MissingChar(ErrorDestination, "match", 0);
    MissingChar(ErrorDestination, "call-ended", 0);
    ErrorHasKeyword();
  }

  /** Classifying any `broadcastX` destination gives back that method's type. */
  lemma DestinationRoundTrip(t: MessageType)
    ensures DetermineMessageType(Destination(t)) == t
  {
    match t
    case ChatType => ChatClassified();
    case TypingType => TypingClassified();
    case WebRtcType => WebRtcClassified();
    case MatchFoundType => MatchFoundClassified();
    case CallEndedType => CallEndedClassified();
    case ErrorType => ErrorClassified();
  }

  // ---------------------------------------------------------------------
  // broadcastToUser
  // ---------------------------------------------------------------------

  /** The `Object payload` of `broadcastToUser`: a map, or any other value. */
  datatype Body = MapBody(fields: Payload) | Scalar(v: Value)

  /** `broadcastToUser`: the type comes from the destination, a map body is
      sent as it is and any other body is wrapped under the key "data". A
      null body is not a map, and wrapping it with `Map.of` throws, so
      nothing is built or published: the result is then `None`. */
  function BroadcastToUser(userId: Id, destination: string, body: Body, messageId: string, serverId: string)
    : (r: Option<Envelope>)
    ensures r.None? <==> body == Scalar(Null)
    ensures r.Some? ==> r.value.targetUserId == userId && r.value.destination == destination
    ensures r.Some? ==> r.value.messageType == DetermineMessageType(destination)
    ensures body.MapBody? ==> r.Some? && r.value.payload == Some(body.fields)
    ensures body.Scalar? && r.Some? ==> r.value.payload.Some? && r.value.payload.value.Keys == {"data"}
                                        && r.value.payload.value["data"] == body.v
  {
    match body
    case MapBody(m) =>
      Some(Envelope(messageId, DetermineMessageType(destination), userId, destination, Some(m), serverId))
    case Scalar(v) =>
      if v == Null then None
      else Some(Envelope(messageId, DetermineMessageType(destination), userId, destination, Some(map["data" := v]), serverId))
  }

  /** Sending a map to one of the fixed destinations through
      `broadcastToUser` builds the same message as the matching
      `broadcastX` method. */
  lemma BroadcastToUserAgrees(t: MessageType, target: Id, payload: Payload, messageId: string, serverId: string)
    ensures BroadcastToUser(target, Destination(t), MapBody(payload), messageId, serverId)
            == Some(BroadcastEnvelope(t, target, payload, messageId, serverId))
  {
    DestinationRoundTrip(t);
  }

  // ---------------------------------------------------------------------
  // Handlers
  // ---------------------------------------------------------------------

  /** The handlers present: the chat handler drops empty payloads, the
      call-ended and error handlers forward whatever they are given. */
  datatype Handler = ChatHandler | CallEndedHandler | ErrorHandler

  /** The three modelled handler classes (`ChatMessageHandler`,
      `CallEndedHandler`, `ErrorHandler`), in this order. Any
      other `MessageHandler` bean would be a further entry of the handler
      list, which every operation below takes as a parameter. */
  const KnownHandlers: seq<Handler> := [ChatHandler, CallEndedHandler, ErrorHandler]

  /** `supports`: each handler accepts exactly one message type. */
  predicate Supports(h: Handler, e: Envelope): (b: bool)
    ensures b ==> e.messageType in {ChatType, CallEndedType, ErrorType}
    ensures e.messageType == ChatType ==> (b <==> h == ChatHandler)
    ensures e.messageType == CallEndedType ==> (b <==> h == CallEndedHandler)
    ensures e.messageType == ErrorType ==> (b <==> h == ErrorHandler)
  {
    match h
    case ChatHandler => e.messageType == ChatType
    case CallEndedHandler => e.messageType == CallEndedType
    case ErrorHandler => e.messageType == ErrorType
  }

  /** A message handed to the messaging template for one user. */
  datatype Delivery = Delivery(user: Id, destination: string, payload: Payload)

  /** `handleMessage`. `sendFails` stands for an exception thrown by the
      messaging template, which every handler catches and logs. A message
      without a payload is never sent. */
  function Handle(h: Handler, e: Envelope, sendFails: bool): (r: seq<Delivery>)
    ensures |r| <= 1
    ensures r != [] <==> e.payload.Some? && !sendFails && (h.ChatHandler? ==> |e.payload.value| > 0)
    ensures r != [] ==> r[0] == Delivery(e.targetUserId, e.destination, e.payload.value)
  {
    match e.payload
    case None => []
    case Some(p) =>
      if h.ChatHandler? && |p| == 0 then []
      else if sendFails then []
      else [Delivery(e.targetUserId, e.destination, p)]
  }

  /** The position of the first handler in `handlers` that supports `e`. */
  function FirstSupporting(handlers: seq<Handler>, e: Envelope): (r: Option<nat>)
    ensures r.None? <==> forall i :: 0 <= i < |handlers| ==> !Supports(handlers[i], e)
    ensures r.Some? ==> r.value < |handlers| && Supports(handlers[r.value], e)
    ensures r.Some? ==> forall j :: 0 <= j < r.value ==> !Supports(handlers[j], e)
  {
    if |handlers| == 0 then None
    else if Supports(handlers[0], e) then Some(0)
    else match FirstSupporting(handlers[1..], e)
      case None => None
      case Some(i) => Some(i + 1)
  }

  /** `processMessage`: only the first supporting handler runs; when no
      handler supports the type nothing is delivered. */
  function ProcessMessage(handlers: seq<Handler>, e: Envelope, sendFails: bool): (r: seq<Delivery>)
    ensures |r| <= 1
    ensures FirstSupporting(handlers, e).None? ==> r == []
    ensures FirstSupporting(handlers, e).Some? ==>
              r == Handle(handlers[FirstSupporting(handlers, e).value], e, sendFails)
  {
    match FirstSupporting(handlers, e)
    case None => []
    case Some(i) => Handle(handlers[i], e, sendFails)
  }

  /** Whatever is delivered goes to the message's target, at the message's
      destination, with the message's payload unchanged. */
  lemma DeliveryIsFaithful(handlers: seq<Handler>, e: Envelope, sendFails: bool)
    ensures forall d :: d in ProcessMessage(handlers, e, sendFails) ==>
              e.payload.Some? && d == Delivery(e.targetUserId, e.destination, e.payload.value)
  {
  }

  /** Handlers listed after the first supporting one are never consulted:
      appending handlers does not change a message that already has one. */
  lemma LaterHandlersIgnored(handlers: seq<Handler>, extra: seq<Handler>, e: Envelope, sendFails: bool)
    requires FirstSupporting(handlers, e).Some?
    ensures ProcessMessage(handlers + extra, e, sendFails) == ProcessMessage(handlers, e, sendFails)
  {
    var i := FirstSupporting(handlers, e).value;
    assert (handlers + extra)[i] == handlers[i];
    forall k | 0 <= k < i ensures !Supports((handlers + extra)[k], e) {
      assert (handlers + extra)[k] == handlers[k];
    }
  }

  /** With exactly the handler list `KnownHandlers`, chat, call-ended and
      error messages with a non-empty payload reach their target, while
      typing, WebRTC and match-found messages find no handler in that list
      and are not delivered. Nothing is claimed for other handler lists. */
  lemma KnownHandlersCoverage(e: Envelope)
    ensures e.messageType in {ChatType, CallEndedType, ErrorType} && e.payload.Some? && |e.payload.value| > 0 ==>
              ProcessMessage(KnownHandlers, e, false) == [Delivery(e.targetUserId, e.destination, e.payload.value)]
    ensures e.messageType in {TypingType, WebRtcType, MatchFoundType} ==>
              ProcessMessage(KnownHandlers, e, false) == []
  {
    assert KnownHandlers[0] == ChatHandler && KnownHandlers[1] == CallEndedHandler && KnownHandlers[2] == ErrorHandler;
  }

  // ---------------------------------------------------------------------
  // Publishing, receiving and retrying
  // ---------------------------------------------------------------------

  /** The maximum number of connectivity checks a retry chain makes. */
  const MaxRetryAttempts: int := 3

  /** What `publishToRedis` does with a message. */
  datatype PublishOutcome = DeliveredLocally | Published(sent: Envelope) | Lost

  /** `publishToRedis`. `localSessions` counts the target's sessions on this
      server (zero when the user is not registered here); `directFails`
      stands for an exception from the direct path and `serializeFails` for
      a JSON serialisation failure. */
  function PublishToRedis(e: Envelope, localSessions: nat, directFails: bool, serializeFails: bool)
    : (r: PublishOutcome)
    ensures r.DeliveredLocally? <==> localSessions > 0 && !directFails
    ensures r.Published? <==> (localSessions == 0 || directFails) && !serializeFails
    ensures r.Published? ==> r.sent == e
  {
    if localSessions > 0 && !directFails then DeliveredLocally
    else if serializeFails then Lost
    else Published(e)
  }

  /** The listener's decision on a message received from the channel. */
  datatype Reaction = Process | StartRetry(attempts: int) | Ignore

  /** The listener registered in `init`. `targetRegistered` says whether the
      target user is registered on this server. */
  function OnReceive(e: Envelope, targetRegistered: bool, currentServerId: string): (r: Reaction)
    ensures r == Process <==> targetRegistered
    ensures r.StartRetry? <==> !targetRegistered && e.serverId == currentServerId
    ensures r.StartRetry? ==> r.attempts == MaxRetryAttempts
  {
    if targetRegistered then Process
    else if currentServerId == e.serverId then StartRetry(MaxRetryAttempts)
    else Ignore
  }

  /** The end of a retry chain: delivered after the check with the given
      index, or dropped. */
  datatype RetryOutcome = DeliveredAt(check: nat) | Dropped

  /** `scheduleRetry(message, attempts)`, started at check number `from`:
      `connected(k)` is what the k-th check of the user registry finds. */
  function RetryChain(attempts: int, connected: nat -> bool, from: nat): (r: RetryOutcome)
    decreases attempts
    ensures r.DeliveredAt? ==> from <= r.check < from + attempts && connected(r.check)
    ensures r.DeliveredAt? ==> forall k :: from <= k < r.check ==> !connected(k)
    ensures r.Dropped? <==> forall k :: from <= k < from + attempts ==> !connected(k)
  {
    if attempts <= 0 then Dropped
    else if connected(from) then DeliveredAt(from)
    else RetryChain(attempts - 1, connected, from + 1)
  }

  /** A retry chain started by the listener makes at most three checks: it
      delivers on the first check that finds the user and drops the message
      once three checks in a row have failed. */
  lemma RetryBound(connected: nat -> bool)
    ensures RetryChain(MaxRetryAttempts, connected, 0).DeliveredAt? ==>
              RetryChain(MaxRetryAttempts, connected, 0).check < 3
    ensures RetryChain(MaxRetryAttempts, connected, 0).Dropped? <==>
              !connected(0) && !connected(1) && !connected(2)
  {
  }

  /** Everything the listener ends up delivering for one received message;
      `connectedLater` is what the retry chain's checks observe. */
  function Receive(handlers: seq<Handler>, e: Envelope, targetRegistered: bool, currentServerId: string,
                   connectedLater: nat -> bool, sendFails: bool): (r: seq<Delivery>)
    ensures |r| <= 1
    ensures targetRegistered ==> r == ProcessMessage(handlers, e, sendFails)
    ensures !targetRegistered && e.serverId != currentServerId ==> r == []
    ensures !targetRegistered && e.serverId == currentServerId ==>
              r == (if connectedLater(0) || connectedLater(1) || connectedLater(2)
                    then ProcessMessage(handlers, e, sendFails) else [])
    ensures r != [] ==> e.payload.Some? && r[0] == Delivery(e.targetUserId, e.destination, e.payload.value)
  {
    DeliveryIsFaithful(handlers, e, sendFails);
    RetryBound(connectedLater);
    match OnReceive(e, targetRegistered, currentServerId)
    case Process => ProcessMessage(handlers, e, sendFails)
    case Ignore => []
    case StartRetry(n) =>
      match RetryChain(n, connectedLater, 0)
      case DeliveredAt(_) => ProcessMessage(handlers, e, sendFails)
      case Dropped => []
  }

  /** A message whose target is not on this server and which this server
      did not originate is ignored, whatever the later checks would find. */
  lemma ForeignMessagesIgnored(handlers: seq<Handler>, e: Envelope, currentServerId: string,
                               connectedLater: nat -> bool, sendFails: bool)
    requires e.serverId != currentServerId
    ensures OnReceive(e, false, currentServerId) == Ignore
    ensures Receive(handlers, e, false, currentServerId, connectedLater, sendFails) == []
  {
  }

  /** A chat message built by `broadcastChatMessage` with a non-empty payload
      and relayed to the server where its target is registered reaches the
      target at "/queue/chat" with the payload unchanged. */
  lemma ChatRelayedEndToEnd(target: Id, payload: Payload, messageId: string, serverId: string, currentServerId: string)
    requires |payload| > 0
    ensures var e := BroadcastEnvelope(ChatType, target, payload, messageId, serverId);
            forall later: nat -> bool :: Receive(KnownHandlers, e, true, currentServerId, later, false)
                                         == [Delivery(target, ChatDestination, payload)]
  {
    var e := BroadcastEnvelope(ChatType, target, payload, messageId, serverId);
    KnownHandlersCoverage(e);
  }
}

=== FILE: repository.dfy ===
/** Repositories as maps from generated ids to rows, and the one query
    shape the services rely on: the first row, in ascending id order, that
    satisfies a condition. */
module Repository {
  import opened Wrappers

  /** A non-empty set of ids has a least element. */
  lemma {:induction false} LeastExists(s: set<Id>, w: Id)
    requires w in s
    ensures exists k :: k in s && forall x :: x in s ==> k <= x
    decreases s
  {
    if exists v :: v in s && v < w {
      var v :| v in s && v < w;
      var smaller := set x | x in s && x < w;
      assert w !in smaller;
      LeastExists(smaller, v);
      var k :| k in smaller && forall x :: x in smaller ==> k <= x;
      forall x | x in s ensures k <= x {
        if x < w {
          assert x in smaller;
        }
      }
    } else {
      forall x | x in s ensures w <= x { }
    }
  }

  lemma LeastOfNonEmpty(s: set<Id>)
    requires exists w :: w in s
    ensures exists k :: k in s && forall x :: x in s ==> k <= x
  {
    var w :| w in s;
    LeastExists(s, w);
  }

  /** The least id whose row satisfies `p`, or None when no row does. */
  function LeastKeyWhere<V>(m: map<Id, V>, p: V -> bool): (r: Option<Id>)
    ensures r.None? <==> forall k :: k in m ==> !p(m[k])
    ensures r.Some? ==> r.value in m && p(m[r.value])
    ensures r.Some? ==> forall k :: k in m && p(m[k]) ==> r.value <= k
  {
    var s := set k | k in m && p(m[k]);
    if exists k :: k in s then
      LeastOfNonEmpty(s);
      var r :| r in s && forall x :: x in s ==> r <= x;
      assert forall k :: k in m && p(m[k]) ==> r <= k by {
        forall k | k in m && p(m[k]) ensures r <= k {
          assert k in s;
        }
      }
      Some(r)
    else
      assert forall k :: k in m ==> !p(m[k]) by {
        forall k | k in m ensures !p(m[k]) {
          assert k !in s;
        }
      }
      None
  }
}

=== FILE: users.dfy ===
/** UserService over the user cache (UserTree and its repository). */
module Users {
  import opened Wrappers
  import opened Entities
  import opened AvlTree
  import opened EntityCache
  import opened Repository

  function IdOf(u: User): Id {
    u.id
  }

  /** At most one user row per email address. */
  ghost predicate EmailsUnique(c: Cache<User>) {
    forall j, k :: j in c.repo && k in c.repo && c.repo[j].email == c.repo[k].email ==> j == k
  }

  /** `UserTree.findByEmail`: a repository query, not a tree lookup. */
  function FindByEmail(c: Cache<User>, email: string): (r: Option<User>)
    ensures r.None? <==> forall k :: k in c.repo ==> c.repo[k].email != email
    ensures r.Some? ==> r.value.email == email && exists k :: k in c.repo && c.repo[k] == r.value
  {
    var k := LeastKeyWhere(c.repo, (u: User) => u.email == email);
    if k.Some? then Some(c.repo[k.value]) else None
  }

  /** `findById`: the tree first, then the repository; an error when both miss. */
  function FindById(c: Cache<User>, id: Id): (r: Result<User, Error>)
    requires EntityCache.Valid(c)
    ensures r.Failure? <==> id !in ToMap(c.tree) && id !in c.repo
    ensures r.Failure? ==> r.error == UserNotFound(id)
    ensures r.Success? && id in ToMap(c.tree) ==> r.value == ToMap(c.tree)[id]
    ensures r.Success? && id !in ToMap(c.tree) ==> r.value == c.repo[id]
    ensures Mirrors(c) ==> (r.Success? <==> id in c.repo) && (r.Success? ==> r.value == c.repo[id])
  {
    var cached := EntityCache.FindById(c, id);
    if cached.Some? then Success(cached.value)
    else if id in c.repo then Success(c.repo[id])
    else Failure(UserNotFound(id))
  }

  /** UserService's `findByEmail`: the cache's query, then the repository's
      (the same query), an error when no user has the email. */
  function FindUserByEmail(c: Cache<User>, email: string): (r: Result<User, Error>)
    ensures r.Failure? <==> forall k :: k in c.repo ==> c.repo[k].email != email
    ensures r.Success? ==> r.value.email == email && exists k :: k in c.repo && c.repo[k] == r.value
  {
    match FindByEmail(c, email)
    case Some(u) => Success(u)
    case None =>
      match FindByEmail(c, email)
      case Some(u) => Success(u)
      case None => Failure(EmailNotFound(email))
  }

  /** `emailExists`. */
  function EmailExists(c: Cache<User>, email: string): (r: bool)
    ensures r <==> exists k :: k in c.repo && c.repo[k].email == email
  {
    FindByEmail(c, email).Some?
  }

  /** `createUser`: reject a taken email, otherwise save the user under the
      id the repository generates and cache it. */
  function CreateUser(c: Cache<User>, user: User, newId: Id): (r: Result<(Cache<User>, User), Error>)
    requires EntityCache.Valid(c) && newId !in c.repo
    ensures r.Failure? <==> exists k :: k in c.repo && c.repo[k].email == user.email
    ensures r.Failure? ==> r.error == EmailTaken(user.email)
    ensures r.Success? ==>
              var (c', saved) := r.value;
              && saved == user.(id := newId)
              && c'.repo == c.repo[newId := saved]
              && EntityCache.Valid(c') && ToMap(c'.tree) == ToMap(c.tree)[newId := saved]
  {
    if FindByEmail(c, user.email).Some? then
      Failure(EmailTaken(user.email))
    else
      var saved := user.(id := newId);
      Success((Add(c, newId, saved), saved))
  }

  /** Creating a user keeps emails unique, ids keyed and the tree mirroring
      the repository. */
  lemma CreateUserKeepsInvariants(c: Cache<User>, user: User, newId: Id)
    requires EntityCache.Valid(c) && newId !in c.repo
    requires EmailsUnique(c) && KeyedBy(c, IdOf) && Mirrors(c)
    ensures var r := CreateUser(c, user, newId);
            r.Success? ==> EmailsUnique(r.value.0) && KeyedBy(r.value.0, IdOf) && Mirrors(r.value.0)
  {
    var r := CreateUser(c, user, newId);
    if r.Success? {
      var c' := r.value.0;
      forall j, k | j in c'.repo && k in c'.repo && c'.repo[j].email == c'.repo[k].email
        ensures j == k
      {
        if j != newId && k != newId {
          assert c.repo[j].email == c.repo[k].email;
        }
      }
    }
  }

  /** `updateUser(id, updated)`: the user must exist; a change of email is
      rejected when the repository's user with the new email has another id;
      the record is stored under the path id, whatever id the body carried. */
  function UpdateUser(c: Cache<User>, id: Id, updated: User): (r: Result<Cache<User>, Error>)
    requires EntityCache.Valid(c)
    ensures FindById(c, id).Failure? ==> r == Failure(UserNotFound(id))
    ensures r.Success? ==>
              && FindById(c, id).Success?
              && r.value.repo == c.repo[id := updated.(id := id)]
              && EntityCache.Valid(r.value)
              && EntityCache.FindById(r.value, id) == Some(updated.(id := id))
    ensures FindById(c, id).Success? && FindById(c, id).value.email == updated.email ==> r.Success?
  {
    match FindById(c, id)
    case Failure(e) => Failure(e)
    case Success(existing) =>
      var holder := FindByEmail(c, updated.email);
      if existing.email != updated.email && holder.Some? && holder.value.id != id then
        Failure(EmailTaken(updated.email))
      else
        UpdateLikeAdd(c, id, updated.(id := id));
        Success(Update(c, id, updated.(id := id)))
  }

  /** With emails unique and rows keyed by id, a change of email to one held
      by a different user is exactly what `updateUser` rejects. */
  lemma UpdateUserEmailRule(c: Cache<User>, id: Id, updated: User)
    requires EntityCache.Valid(c) && EmailsUnique(c) && KeyedBy(c, IdOf)
    requires FindById(c, id).Success? && FindById(c, id).value.email != updated.email
    ensures UpdateUser(c, id, updated).Failure? <==>
              exists k :: k in c.repo && k != id && c.repo[k].email == updated.email
  {
    var holder := FindByEmail(c, updated.email);
    if holder.Some? {
      var k :| k in c.repo && c.repo[k] == holder.value;
      assert IdOf(c.repo[k]) == k;
    }
  }

  /** `updateOnlineStatus`: look the user up, set the flag, update. */
  function UpdateOnlineStatus(c: Cache<User>, id: Id, isOnline: bool): (r: Result<Cache<User>, Error>)
    requires EntityCache.Valid(c)
    ensures r.Failure? <==> FindById(c, id).Failure?
    ensures r.Success? ==> EntityCache.Valid(r.value)
  {
    match FindById(c, id)
    case Failure(e) => Failure(e)
    case Success(user) => Success(Update(c, user.id, user.(isOnline := isOnline)))
  }

  /** `updateActiveStatus`: look the user up, set the flag, update. */
  function UpdateActiveStatus(c: Cache<User>, id: Id, isActive: bool): (r: Result<Cache<User>, Error>)
    requires EntityCache.Valid(c)
    ensures r.Failure? <==> FindById(c, id).Failure?
    ensures r.Success? ==> EntityCache.Valid(r.value)
  {
    match FindById(c, id)
    case Failure(e) => Failure(e)
    case Success(user) => Success(Update(c, user.id, user.(isActive := isActive)))
  }

  /** Each status update rewrites only its own flag of the user's record and
      leaves every other user's record alone. */
  lemma StatusUpdatesChangeOneFlag(c: Cache<User>, id: Id, flag: bool, other: Id)
    requires EntityCache.Valid(c) && KeyedBy(c, IdOf) && FindById(c, id).Success?
    ensures var before := FindById(c, id).value;
            var online := UpdateOnlineStatus(c, id, flag).value;
            var active := UpdateActiveStatus(c, id, flag).value;
            && online.repo[id] == before.(isOnline := flag)
            && active.repo[id] == before.(isActive := flag)
            && (other != id && other in c.repo ==> online.repo[other] == c.repo[other] && active.repo[other] == c.repo[other])
  {
    var before := FindById(c, id).value;
    assert before.id == id;
  }

  /** `deleteUser`: the user must exist; then it leaves repository and tree. */
  function DeleteUser(c: Cache<User>, id: Id): (r: Result<Cache<User>, Error>)
    requires EntityCache.Valid(c)
    ensures r.Failure? <==> FindById(c, id).Failure?
    ensures r.Success? ==> r.value.repo == c.repo - {id} && ToMap(r.value.tree) == ToMap(c.tree) - {id}
  {
    if FindById(c, id).Failure? then Failure(UserNotFound(id)) else Success(Remove(c, id))
  }

  /** `syncUserAction`, replaying another server's write into this server's
      tree: "ADD" caches the repository's row if there is one, "REMOVE"
      removes the user (from the repository too), anything else throws. */
  function SyncUserAction(c: Cache<User>, action: string, userId: Id): (r: Result<Cache<User>, Error>)
    requires EntityCache.Valid(c)
    ensures r.Failure? <==> action != "ADD" && action != "REMOVE"
    ensures r.Failure? ==> r.error == UnknownAction(action)
    ensures r.Success? ==> EntityCache.Valid(r.value)
    ensures action == "ADD" && userId !in c.repo ==> r == Success(c)
    ensures action == "REMOVE" ==> r.Success? && userId !in r.value.repo && userId !in ToMap(r.value.tree)
  {
    if action == "ADD" then
      if userId in c.repo then
        var user := c.repo[userId];
        Success(TreeInsert(c, user.id, user))
      else
        Success(c)
    else if action == "REMOVE" then
      Success(Remove(c, userId))
    else
      Failure(UnknownAction(action))
  }

  /** Replaying a sync action twice has the same effect as once, and after
      "ADD" the tree agrees with the repository on that user. */
  lemma SyncUserIdempotent(c: Cache<User>, action: string, userId: Id)
    requires EntityCache.Valid(c) && KeyedBy(c, IdOf)
    requires action == "ADD" || action == "REMOVE"
    ensures var once := SyncUserAction(c, action, userId).value;
            && SyncUserAction(once, action, userId).Success?
            && SyncUserAction(once, action, userId).value.repo == once.repo
            && ToMap(SyncUserAction(once, action, userId).value.tree) == ToMap(once.tree)
    ensures action == "ADD" && userId in c.repo ==>
              EntityCache.FindById(SyncUserAction(c, action, userId).value, userId) == Some(c.repo[userId])
  {
    var once := SyncUserAction(c, action, userId).value;
    var twice := SyncUserAction(once, action, userId).value;
    if action == "ADD" && userId in c.repo {
      assert c.repo[userId].id == userId;
      MapExt(ToMap(twice.tree), ToMap(once.tree));
    } else if action == "REMOVE" {
      MapExt(ToMap(twice.tree), ToMap(once.tree));
    }
  }
}

=== FILE: wrappers.dfy ===
/** Option and Result, the model's stand-ins for Java's null and thrown exceptions. */
module Wrappers {

  /** A value that may be absent, for Java references that may be null. */
  datatype Option<+T> = None | Some(value: T) {
    function GetOr(default: T): T {
      match this
      case Some(v) => v
      case None => default
    }
  }

  /** The outcome of an operation that either succeeds or throws. */
  datatype Result<+R, +E> = Success(value: R) | Failure(error: E)

  /** Identifiers of users, calls, follows, messages and ratings (Java `Long`). */
  type Id = int
}
